=== FILE: README.md ===
# Daily-life assistant and memory chatbot, modelled in Dafny

The repository holds two small command-line chatbots.

- **JavaScript daily-life assistant** (`src/`).
  - `DailyFeatures` is a utility engine: a keyword trigger and router, a reminder store, a habit tracker with day streaks, tips and weather advice.
  - `ChatMemory` is a message log capped at 100 messages, with a command counter.
  - `DailyLifeAssistant` reads one line at a time. It sends commands to `handleCommand`, keyword lines to the engine and everything else to a general-chat pool, then logs the line and the reply.
  - `ModelLoader` is a hosted-model client that falls back to an ordered chain of question-answering rules.
- **Python memory chatbot.**
  - `ChatMemory` keeps a sliding window of numbered exchanges and builds two kinds of prompt.
  - `ChatInterface.process_user_input` handles the commands, generates a reply and cleans it up.
  - `ModelLoader.generate_response` post-processes what the text-generation pipeline returns.

The model is functional. Every stateful object is an immutable datatype, and every method returns the next state together with its reply. Anything that comes from outside the program is a parameter:

- the clock: calendar days as integers, millisecond readings, locale texts;
- `Math.random()`: an index into its pool;
- the hosted model, the text-generation pipeline and the country lookup: the outcome of one call.

Modules:

| module | file | models |
|---|---|---|
| `Wrappers` | wrappers.dfy | `Option`, and `Attempt`, the outcome of a call that may throw |
| `Sequences` | sequences.dfy | JavaScript `slice(-n)` / Python `[-n:]` |
| `Strings` | strings.dfy | ASCII `toLowerCase`/`lower`, `trim`/`strip`, `includes`, `split`/`join`, `replace` |
| `Numerals` | numerals.dfy | decimal rendering and parsing, runs of digits (`/\d+/g`) |
| `Streak` | streak.dfy | `calculateStreak`, on whole days and as written on milliseconds |
| `DailyFeatures` | daily_features.dfy | src/daily_features.js |
| `ChatMemoryJs` | chat_memory_js.dfy | src/chat_memory.js |
| `DailyLifeAssistant` | assistant.dfy | src/main.js |
| `ModelLoaderJs` | model_loader_js.dfy | src/model_loader.js |
| `ChatMemoryPy` | chat_memory_py.dfy | chat_memory.py |
| `ChatInterfacePy` | interface_py.dfy | interface.py |
| `ModelLoaderPy` | model_loader_py.dfy | model_loader.py |

The JavaScript and Python memories are separate structures and stay separate here.

Where the code and its documentation disagree, the model follows the code, with one stated exception:

- `calculateStreak` compares `Date` values in milliseconds. Across a daylight-saving change two consecutive local days are 23 or 25 hours apart, so the day-based "consecutive days" the tracker promises does not hold; see Findings. `Streak` models the code as written. The habit tracker itself stores the whole-day streak, which equals the as-written one in a zone whose UTC offset does not change (`DailyFeatures.MarkDoneAtFixedOffset`); see "Left out".
- `add_exchange` with a window of 0 keeps every exchange; see Findings. `ChatInterfacePy.ProcessUserInput` stores exchanges with the code as written.
- The strings of src/main.js contain emoji that were saved as UTF-8 and read back as Windows-1252. The model reproduces the resulting characters: `Goodbye`, `StatsHead` and `Bullet` in `DailyLifeAssistant`.

## Model

| member | source | states |
|---|---|---|
| DailyFeatures.CanHandle | src/daily_features.js:24-33 | a line is accepted exactly when its lower-cased form contains one of the eleven keywords |
| DailyFeatures.Process | src/daily_features.js:35-63 | each branch hands the original line to its handler: reminder and habit requests, the daily tip, the calculator on the line without its keyword, weather advice, the time text; a line no branch claims gets the fixed help reply; only the reminder and habit branches change the engine's state, and every branch keeps the habit store valid (lower-cased trimmed keys, distinct keys, duplicate-free days, streak consistent with the days) |
| DailyFeatures.RouterPriority | src/daily_features.js:35-63 | the branches are tried in the order remind, habit, tip or advice, calc, weather, time, each taken exactly when its keyword occurs and no earlier one does: any line containing "remind" is a reminder request, even when it also names a habit; the calculation branch is taken exactly when "calc" occurs and none of the four earlier keywords does; a line the trigger accepts falls through to the help reply exactly when only "track" or "schedule" made it accepted |
| DailyFeatures.StripEither | src/daily_features.js:223-236 | the case-insensitive keyword deletion never makes the text longer |
| DailyFeatures.ShadowedAlternative | src/daily_features.js:223-236 | when the second word of the alternation extends the first, it never matches: the reminder pattern deletes exactly what a pattern of "remind" alone deletes |
| DailyFeatures.ReminderWordQuirk | src/daily_features.js:223-226 | "reminder x" loses only "remind" and becomes "er x" |
| DailyFeatures.CalculateWordQuirk | src/daily_features.js:233-236 | "calculate" loses only "calc" and becomes "ulate" |
| DailyFeatures.HandleReminderRequest | src/daily_features.js:223-226 | the line without its keyword, trimmed, is stored as the reminder text; a line that is nothing but the keyword gets the usage hint and stores nothing; habits are untouched |
| DailyFeatures.HandleHabitRequest | src/daily_features.js:228-231 | the line without its keyword names the habit: blank gives the summary, otherwise the entry for its lower-cased name records today; reminders are untouched and the store stays valid |
| DailyFeatures.SetReminder | src/daily_features.js:65-81 | blank or whitespace text is refused with the usage hint and nothing is stored; otherwise exactly one reminder with the trimmed text, the given id and creation time is appended; habits never change |
| DailyFeatures.SetReminderEchoes | src/daily_features.js:78-80 | the confirmation repeats the text as the user typed it, untrimmed |
| DailyFeatures.GetReminders | src/daily_features.js:238-249 | the fixed text when there are no reminders; otherwise the list names every stored reminder |
| DailyFeatures.FindHabit | src/daily_features.js:91-99 | `habits.has`/`get`: the position found holds the key and is the first one that does; nothing is found exactly when no entry has the key |
| DailyFeatures.FindHabitSameKeys | src/daily_features.js:91-99 | the lookup depends only on the keys of the entries |
| DailyFeatures.FindHabitAppend | src/daily_features.js:91-97 | adding an entry for another key does not change where a key is found |
| DailyFeatures.TrackHabit | src/daily_features.js:83-112 | a blank name gives the summary and changes nothing; otherwise the entry for the trimmed, lower-cased name afterwards holds today; reminders never change; the habit store stays valid |
| DailyFeatures.TrackKey | src/daily_features.js:91-111 | with distinct keys: a day already recorded leaves the state as it was and gives the "already tracked" reply; a new day is appended to the entry, the streak recomputed, and the reply reports that entry; keys stay distinct |
| DailyFeatures.WithEntry | src/daily_features.js:91-97 | an entry for the key exists afterwards; an existing entry is kept, otherwise a fresh one with no days and streak 0 is appended at the end, as a `Map` does |
| DailyFeatures.MarkDone | src/daily_features.js:101-103 | recording a day keeps the key and name, appends the day once (the count grows by exactly one) and sets the streak to the whole-day streak of the new day list |
| DailyFeatures.MarkDoneAtFixedOffset | src/daily_features.js:101-103 | in a zone whose UTC offset stays the same, the stored streak is the one `calculateStreak` computes from the local-midnight milliseconds of the days |
| DailyFeatures.TrackKeyValid | src/daily_features.js:88-111 | recording a day under the lower-cased name keeps every entry valid |
| DailyFeatures.TrackNewEntry | src/daily_features.js:91-103 | recording the first day on a freshly created entry keeps the store valid |
| DailyFeatures.TrackExistingValid | src/daily_features.js:101-103 | recording a new day on an existing entry keeps the store valid |
| DailyFeatures.TrackKeyOthersUnchanged | src/daily_features.js:91-111 | recording a day under one key leaves every other key's entry as it was |
| DailyFeatures.TrackHabitEffect | src/daily_features.js:83-111 | one call: the entry exists afterwards; if today was recorded, state and reply are those of "already tracked"; otherwise today is appended once to the earlier days, the count grows by one, a new entry takes the trimmed name, an existing one keeps its name, the streak matches the days; no other habit changes |
| DailyFeatures.TrackHabitIdempotent | src/daily_features.js:99-111 | tracking the same habit twice on one day changes nothing the second time, and the second reply reports the stored entry |
| DailyFeatures.TrackHabitIgnoresCase | src/daily_features.js:88-97 | names that differ only in case or surrounding blanks share one entry, which keeps the display name given first |
| DailyFeatures.TrackDaysValid | src/daily_features.js:83-112 | tracking on a series of days keeps the store valid |
| DailyFeatures.ExtendRun | src/daily_features.js:101-103 | recording the day after a run of n - 1 consecutive days gives n days and streak n |
| DailyFeatures.TrackDaysExtendRun | src/daily_features.js:101-103 | the same step, stated on tracking day after day |
| DailyFeatures.ConsecutiveDaysStreak | src/daily_features.js:83-130 | a new habit tracked on n consecutive days holds exactly those days and streak n |
| DailyFeatures.GapResetsStreak | src/daily_features.js:101-130 | after at least one untracked day, tracking again gives streak 1 |
| DailyFeatures.HabitSummary | src/daily_features.js:132-146 | the fixed text when no habit exists; otherwise the summary names every habit |
| DailyFeatures.DailyTip | src/daily_features.js:148-151 | the reply is one of the fifteen tips followed by the fixed encouragement |
| DailyFeatures.WeatherAdvice | src/daily_features.js:191-211 | the advice of the first table key, in table order, that the lower-cased condition contains; the default text when it contains none |
| Streak.Insert | src/daily_features.js:117 | inserting into a newest-first list keeps it sorted and adds exactly that element |
| Streak.SortDesc | src/daily_features.js:117 | `sort((a, b) => b - a)`: a newest-first permutation of the days |
| Streak.SameMembers | src/daily_features.js:117 | sorting changes no day's membership |
| Streak.InsertNoDuplicates | src/daily_features.js:117 | inserting a new day into a duplicate-free sorted list keeps it duplicate-free |
| Streak.SortNoDuplicates | src/daily_features.js:117 | sorting a duplicate-free list keeps it duplicate-free |
| Streak.Run | src/daily_features.js:118-127 | the leading run of one-day steps is at least 1 on a non-empty list and never longer than the list |
| Streak.StreakOf | src/daily_features.js:114-130 | 0 on no days, otherwise between 1 and the number of days |
| Streak.CalculateStreak | src/daily_features.js:114-130 | the loop, with its early `break`, computes the streak: 0 on no days, otherwise between 1 and the number of days |
| Streak.Latest | src/daily_features.js:117 | the newest tracked day is tracked and no tracked day is later |
| Streak.RunShape | src/daily_features.js:118-127 | on a strictly descending list the run counts down one day at a time from the head, and the day before the run is not in the list |
| Streak.StreakIsRunEndingAtLatest | src/daily_features.js:114-130 | on duplicate-free days the streak is the length of the consecutive run that ends at the newest day: every day of it is tracked and the day before it is not |
| Streak.RunEndingAtHead | src/daily_features.js:118-127 | on a strictly descending list the loop's run ends at the head |
| Streak.SortedHeadIsLatest | src/daily_features.js:117 | the first day after sorting is the newest day |
| Streak.StreakOfRun | src/daily_features.js:114-130 | a consecutive run ending at the newest day is the streak (the converse direction) |
| Streak.LatestAppend | src/daily_features.js:102 | a day later than every tracked day becomes the newest |
| Streak.StreakAfterGap | src/daily_features.js:101-130 | a day more than one day after every tracked day starts a new streak of 1 |
| Streak.DayRange | src/daily_features.js:101-103 | the days `first .. first + n - 1`, in order |
| Streak.StreakOfDayRange | src/daily_features.js:114-130 | n consecutive days are duplicate-free and have streak n |
| Streak.RunAsWritten | src/daily_features.js:120-127 | the loop as written on millisecond values is never longer than the list |
| Streak.Midnights | src/daily_features.js:117 | `new Date(d)` of each day: its local midnight in milliseconds |
| Streak.InsertMidnights | src/daily_features.js:117 | at a fixed UTC offset, converting days to midnights commutes with sorted insertion |
| Streak.MidnightsSorted | src/daily_features.js:117 | at a fixed UTC offset, later days have later midnights, so a sorted list stays sorted |
| Streak.SortMidnights | src/daily_features.js:117 | at a fixed UTC offset, sorting the midnights is sorting the days |
| Streak.RunMidnights | src/daily_features.js:120-127 | at a fixed UTC offset, the millisecond test `=== 1` agrees with the day test |
| Streak.AsWrittenAgreesAtFixedOffset | src/daily_features.js:114-130 | while the UTC offset does not change, the code as written gives the day-based streak |
| Streak.DstBreaksStreakAsWritten | src/daily_features.js:114-130 | two consecutive days across a spring-forward change get streak 1 as written, where the day-based streak is 2 |
| ChatMemoryJs.NewMemory | src/chat_memory.js:2-7 | an empty log, no commands, the start time is the clock reading, within the cap |
| ChatMemoryJs.AddMessage | src/chat_memory.js:9-26 | the log becomes the newest 100 of the old log plus the message, in order; the message is last; the log holds min(old + 1, 100) messages; the command count grows by 1 exactly when the content starts with `/`; the start time is kept |
| ChatMemoryJs.AddAllKeepsNewest | src/chat_memory.js:16-21 | however many messages arrive, the log is the newest 100 of everything, in order |
| ChatMemoryJs.AddAllCountsCommands | src/chat_memory.js:23-25 | every command ever added is counted, even those the cap has evicted; the start time never changes |
| ChatMemoryJs.LastNOfAppend | src/chat_memory.js:19-21 | trimming before appending does not change the newest n after appending |
| ChatMemoryJs.RecentMessages | src/chat_memory.js:28-30 | `slice(-count)`: the newest `count` messages in order for a positive count, all of them for 0, and the messages after the first -count for a negative count |
| ChatMemoryJs.ConversationHistory | src/chat_memory.js:32-47 | the fixed text exactly when the log is empty; otherwise the header followed by text naming each of the ten newest messages |
| ChatMemoryJs.ClearHistory | src/chat_memory.js:61-64 | afterwards the statistics read 0 messages, 0 user, 0 assistant, 0 commands, and the duration still counts from the original start |
| ChatMemoryJs.Matching | src/chat_memory.js:67-69 | the selected messages are exactly those whose content contains the query, both lower-cased |
| ChatMemoryJs.MatchingAppend | src/chat_memory.js:67-69 | filtering keeps the log's order: a new message that matches is added after all earlier matches, one that does not adds nothing |
| ChatMemoryJs.MatchingCount | src/chat_memory.js:67-69 | the number of matches is the number of positions in the log whose message contains the query |
| ChatMemoryJs.SearchMessages | src/chat_memory.js:66-83 | the fixed text when nothing matches; otherwise the header reports the number of log positions whose message matches, and the text names each of the five newest matches |
| ChatMemoryJs.GetStats | src/chat_memory.js:85-96 | total is the log size; user and assistant are the numbers of positions holding a message with that exact role; commands is the counter; user + assistant at most the total; duration is the time since the start |
| ChatMemoryJs.CountRoleAppend | src/chat_memory.js:86-87 | counting a role over a joined log adds the counts of the parts |
| ChatMemoryJs.CountRolePositions | src/chat_memory.js:86-87 | the role count is the length of the filtered log: the number of positions holding a message with that role |
| ChatMemoryJs.RolesPartition | src/chat_memory.js:86-87 | no message is counted both as a user and as an assistant message |
| DailyLifeAssistant.CommandArgs | src/main.js:69 | the arguments joined back by single spaces are exactly the text after the first space |
| DailyLifeAssistant.Minutes | src/main.js:131 | the duration in whole minutes, rounded down |
| DailyLifeAssistant.SessionStats | src/main.js:128-138 | the statistics text starts with its heading, shows the message count, the duration in minutes and the command count, and ends with the start time |
| DailyLifeAssistant.HandleCommand | src/main.js:68-108 | the log is never touched; the session stops exactly on `/exit` or `/quit`, which answer with the goodbye; `/remind` and `/habit` give the state and reply of `setReminder` and `trackHabit` on the text after the command word, and no other command changes the engine; `/help`, `/clear`, `/history`, `/stats`, `/tip`, `/calc` and `/weather` answer with the help text, the cleared text, the history, the statistics, the tip, the calculator and weather advice on that text; any other command word gets "Unknown command: <cmd>. Type /help for available commands." |
| DailyLifeAssistant.ProcessInput | src/main.js:51-66 | a line whose trimmed form starts with `/` goes to the command handler lower-cased, even when it names a feature keyword; otherwise the engine takes it exactly when its trigger accepts it, unchanged; otherwise the general-chat reply; only commands can stop the session |
| DailyLifeAssistant.LogExchange | src/main.js:32-33 | the two `addMessage` calls: the log becomes the newest 100 of the old log plus the line and then the reply; each one starting with `/` counts as a command |
| DailyLifeAssistant.Step | src/main.js:26-33 | a whitespace-only line is skipped and shows nothing; any other line shows a reply |
| DailyLifeAssistant.StepLogsExchange | src/main.js:26-33 | a handled line shows the reply and appends exactly two messages, user then assistant; the session stops exactly on an exit command |
| DailyLifeAssistant.IndentedCommandNotCounted | src/main.js:52-55 | " /tip" is routed as a command, but the counter, which looks at the raw line, does not count it |
| DailyLifeAssistant.ClearKeepsMemory | src/main.js:80-82 | `/clear` only clears the screen: state unchanged, fixed reply |
| DailyLifeAssistant.SlashRemindStoresLowerCase | src/main.js:52-56 | a reminder set through `/remind` is stored lower-cased, as the trimmed text after the command word |
| DailyLifeAssistant.SlashArgumentsLowerCase | src/main.js:52-56 | `/remind`, `/habit`, `/calc` and `/weather` receive the lower-cased text after the command word |
| DailyLifeAssistant.SessionStopsAfterExit | src/main.js:18-41 | lines read after an exit command are never processed |
| DailyLifeAssistant.StepRunning | src/main.js:22-33 | a running session stops on a line exactly when it is a command whose word is `/exit` or `/quit` |
| ModelLoaderJs.Initialize | src/model_loader.js:11-28 | the loader is ready exactly when the test query succeeded |
| ModelLoaderJs.FullPrompt | src/model_loader.js:36 | the prompt is exactly the context on its own line (when non-empty) followed by `User: <prompt>` and the `Bot:` cue on the next line: it starts and ends with those parts and its length is their sum, so nothing else is in it |
| ModelLoaderJs.GenerateResponse | src/model_loader.js:30-49 | not initialized, or the model call throws: the fallback answer; otherwise the cleaned model text |
| ModelLoaderJs.GenerateNeverEmpty | src/model_loader.js:30-55 | the user is always shown some text |
| ModelLoaderJs.CleanResponse | src/model_loader.js:51-55 | never empty, never contains a line break, already trimmed; the first occurrence of the prompt, wherever it is, is cut out and the rest cleaned (a prompt at the start is cut from the front); a text without the prompt is cleaned whole |
| ModelLoaderJs.ReplaceAtStart | src/model_loader.js:52 | `replace` removes a prompt the text starts with from the front |
| ModelLoaderJs.FirstLineOrDefault | src/model_loader.js:53-54 | a blank first line gives the default; otherwise the result is the text before the first line break with only whitespace cut from either side |
| ModelLoaderJs.CleanResponseIdempotent | src/model_loader.js:51-55 | cleaning a cleaned reply again changes nothing |
| ModelLoaderJs.NameAfter | src/model_loader.js:62 | the captured group of `\s+([a-zA-Z ]+)` is a non-empty run of letters and spaces that starts after at least one whitespace character and nothing else, at the last position the greedy `\s+` can leave it, and runs until a character outside `[a-zA-Z ]` or the end; no group exactly when no such start exists |
| ModelLoaderJs.CapitalMatchFrom | src/model_loader.js:62 | the group of the leftmost match: a case-insensitive "capital of" followed by a name, with no match at any earlier position |
| ModelLoaderJs.LeftmostCapitalWins | src/model_loader.js:62 | "capital of Peru? capital of Chile" captures "Peru" |
| ModelLoaderJs.CapitalMatchNone | src/model_loader.js:62-63 | a failed search means no position starts a match |
| ModelLoaderJs.DropPunctuation | src/model_loader.js:64 | the result contains none of `?.,!` and is no longer than the input |
| ModelLoaderJs.DropPunctuationOfName | src/model_loader.js:62-64 | removing punctuation from the captured name changes nothing |
| ModelLoaderJs.CapitalReply | src/model_loader.js:64-76 | a found capital gives exactly "The capital of <country> is <capital>."; no entry gives "Sorry, I couldn't find the capital of <country>."; a failed lookup gives "Sorry, I had trouble fetching the capital of <country>."; always a full sentence |
| ModelLoaderJs.CapitalRule | src/model_loader.js:60-78 | the rule answers exactly when the line mentions "capital" and matches "capital of <name>", and answers with a sentence |
| ModelLoaderJs.CapitalRuleAsks | src/model_loader.js:63-66 | the lookup is asked about the captured name, trimmed |
| ModelLoaderJs.CapitalRepliesDiffer | src/model_loader.js:69-76 | found, not found and a failed request give three different replies |
| ModelLoaderJs.CapitalOfFrance | src/model_loader.js:62 | "Capital of France?" captures "France": the words match in any case and the name stops at the first character outside `[a-zA-Z ]` |
| Numerals.DigitRuns | src/model_loader.js:82 | `match(/\d+/g)`: every run returned is a non-empty string of digits |
| Numerals.DigitRunsIsolate | src/model_loader.js:82 | the runs are maximal: a digit run with a non-digit or the line's end on both sides is exactly one match, between the matches of what precedes and what follows it |
| Numerals.DigitRunsCoverDigits | src/model_loader.js:82 | the runs together hold every digit of the line, in order, and nothing else |
| Strings.ReplaceFirst | src/model_loader.js:51 | `replace` with a string pattern: unchanged without an occurrence; otherwise the text before the first occurrence, the replacement and the text after it |
| Strings.RemoveAll | interface.py:124-125 | `replace(p, "")`: unchanged when `p` does not occur; otherwise at least one copy shorter; never longer; a blank text stays blank |
| Strings.RemoveAllAtFirst | interface.py:129 | deletion keeps the text before the first occurrence, drops it, and continues after it |
| ModelLoaderJs.PlusRule | src/model_loader.js:80-87 | the rule answers exactly on "what is", a plus sign or "plus", and at least two runs of digits, with "<a> plus <b> equals " from the first two runs |
| ModelLoaderJs.PlusRuleAdds | src/model_loader.js:84-85 | the number stated reads back as the sum of the first two numbers |
| ModelLoaderJs.MinusRule | src/model_loader.js:89-95 | the same for a minus sign or "minus", with "<a> minus <b> equals " |
| ModelLoaderJs.MinusRuleSubtracts | src/model_loader.js:92-93 | the number stated reads back as the first number minus the second, negative when the second is larger |
| ModelLoaderJs.ColourRule | src/model_loader.js:97-102 | a line mentioning `color` or `colour` is answered exactly when it also names the sky, grass or the sun; the sky wins over grass and grass over the sun, each with its fixed sentence (blue sky, green grass, yellow or white sun) |
| ModelLoaderJs.DaysRule | src/model_loader.js:104-109 | a line with `days in` or `how many days` is answered exactly when it names a week, a year or a month; a week wins over a year and a year over a month, each with its fixed sentence (7 days; 365 or 366; 30 or 31 with February's 28 or 29) |
| ModelLoaderJs.WaterRule | src/model_loader.js:111-117 | a line with `water` is answered exactly when it mentions `boil` or `freeze`; boiling wins and gives the 100°C sentence, freezing gives the 0°C sentence |
| ModelLoaderJs.PlanetRule | src/model_loader.js:119-126 | a line with `planet` is answered exactly when it asks for the one closest or nearest to the sun, the largest, or how many; in that priority it gives the Mercury, Jupiter or eight-planets sentence |
| ModelLoaderJs.FirstPresent | src/model_loader.js:57-137 | the answer of the first rule that claims the line; none exactly when no rule does |
| ModelLoaderJs.RuleAnswers | src/model_loader.js:57-126 | the seven rules in the order they are tried, each answering with a sentence |
| ModelLoaderJs.FallbackResponse | src/model_loader.js:57-138 | the first claiming rule's answer, otherwise the canned reply picked |
| ModelLoaderJs.FallbackNeverEmpty | src/model_loader.js:57-138 | the fallback always says something |
| ModelLoaderJs.PlusBeforeMinus | src/model_loader.js:81-95 | a line with both signs that the sum rule claims is summed |
| ModelLoaderJs.ArithmeticNeedsTwoNumbers | src/model_loader.js:82-83 | with fewer than two runs of digits neither arithmetic rule claims the line and the later rules are tried |
| ModelLoaderJs.DefaultOnlyWhenUnclaimed | src/model_loader.js:128-137 | the reply is a canned one exactly when no rule claims the line |
| ModelLoaderJs.RuleAnswerNotDefault | src/model_loader.js:57-137 | no rule's answer is one of the canned replies |
| ModelLoaderJs.DefaultsAskQuestions | src/model_loader.js:129-135 | every canned reply is a question |
| ChatMemoryPy.NewMemory | chat_memory.py:15-24 | an empty history, turn 0, the window as given; the history invariant holds |
| ChatMemoryPy.Record | chat_memory.py:34-38 | the stored exchange carries the turn number and the stripped texts |
| ChatMemoryPy.AddExchangeAsWritten | chat_memory.py:26-45 | as written: the turn count grows by one; for a window of at least 1 the history is the newest `window_size` exchanges; for a window of 0 nothing is evicted; a negative window drops that many of the oldest exchanges |
| ChatMemoryPy.AddExchange | chat_memory.py:26-45 | as intended: the turn count grows by one; the history is the newest exchanges the window holds, never more; the new exchange is last |
| ChatMemoryPy.AddExchangeAgrees | chat_memory.py:43-45 | for every window of at least one exchange the two agree |
| ChatMemoryPy.ZeroWindowKeepsEverything | chat_memory.py:43-45 | with window 0, as written, an exchange is kept and the history outgrows the window; as intended it stays empty |
| ChatMemoryPy.AddExchangeWellFormed | chat_memory.py:34-45 | as intended: the stored turns stay consecutive, end just before the turn count, and fit in the window |
| ChatMemoryPy.AddExchangeAsWrittenWellFormed | chat_memory.py:34-45 | as written, for every window: the stored turns stay consecutive and end just before the turn count |
| ChatMemoryPy.ClearHistory | chat_memory.py:96-99 | no exchanges, turn count 0, window kept |
| ChatMemoryPy.ClearThenAdd | chat_memory.py:96-99 | after clearing, the next exchange is turn 0 and the only one stored |
| ChatMemoryPy.PromptLines | chat_memory.py:61-69 | two lines per stored exchange, `Human: ` then `Assistant: `, then the input and the open `Assistant:` |
| ChatMemoryPy.GetContextPrompt | chat_memory.py:47-71 | "Human: <input>\nAssistant:" on an empty history; otherwise exactly the prompt lines (two per stored exchange, then the input and `Assistant:`) joined by line breaks; always starts with `Human: ` and ends with a line `Assistant:` |
| ChatMemoryPy.ContextPromptLines | chat_memory.py:57-71 | for single-line texts the prompt splits back into its lines: two per stored exchange plus two |
| ChatMemoryPy.QaParts | chat_memory.py:90-91 | one `Q: … A: …` part per exchange, in order |
| ChatMemoryPy.QaJoin | chat_memory.py:86-94 | the parts and the open question joined by spaces: starts with the first part, ends with " Q: <input> A:", spelled out exactly for one and for two exchanges |
| ChatMemoryPy.GetSimpleContext | chat_memory.py:73-94 | the bare input on an empty history; with one exchange "Q: <user> A: <bot> Q: <input> A:"; with more, exactly the second-to-last and the last exchange as "Q: … A: …" parts, then "Q: <input> A:", joined by spaces |
| ChatMemoryPy.SimpleContextReadsLastTwo | chat_memory.py:87 | only the last two exchanges reach the prompt |
| ChatMemoryPy.GetHistorySummary | chat_memory.py:101-113 | the total is the turn count, the stored count the history size, and never more than the total |
| ChatMemoryPy.MemoryUsageReadsBack | chat_memory.py:112 | the usage text splits at `/` into the stored count and the window, which read back as numbers |
| ChatInterfacePy.StripMarkers | interface.py:124-125 | removing the markers never lengthens the reply |
| ChatInterfacePy.DropEcho | interface.py:127-129 | a reply that does not contain the input, ignoring case, is kept; otherwise the result is the reply with every copy of the input as typed deleted, then stripped; when the input occurs as typed, at least one copy of it is gone; a blank reply stays blank |
| ChatInterfacePy.EchoDropped | interface.py:127-129 | a reply that is exactly the input becomes empty |
| ChatInterfacePy.EchoAtHeadDropped | interface.py:127-129 | an input echoed at the head of a reply, with no other copy after it, leaves the rest of the reply stripped |
| ChatInterfacePy.CapitalizeFirst | interface.py:131-133 | a reply starting with a capital is kept; otherwise it is capitalised and the rest lower-cased; the first character is never lower-case |
| ChatInterfacePy.Shorten | interface.py:135-139 | a reply over 200 characters with a full stop becomes its first two `.`-pieces joined by ". " plus "."; others are kept |
| ChatInterfacePy.ShortenKeepsTwoSentences | interface.py:135-139 | a shortened reply splits into exactly the first piece, the second after a space, and nothing after the final stop |
| ChatInterfacePy.TwoSentencesSplit | interface.py:139 | two stop-free pieces joined by ". " and closed by "." split back into the pieces |
| ChatInterfacePy.CleanResponse | interface.py:109-141 | an empty response gives "I'm not sure how to respond to that."; any other is marker removal, echo removal, capitalisation and shortening in that order, stripped, or "I understand, but I'm not sure how to respond." when that leaves nothing (so a blank response gives the latter); never empty, no surrounding whitespace |
| ChatInterfacePy.BlankStaysBlank | interface.py:123-139 | marker removal, echo removal, capitalisation and shortening leave a blank reply blank |
| ChatInterfacePy.EchoOnlyReply | interface.py:127-141 | a reply that only repeats the stripped, marker-free input gets "I understand, but I'm not sure how to respond." |
| ChatInterfacePy.CleanReplyUnchanged | interface.py:109-141 | a reply that is already clean comes back unchanged |
| ChatInterfacePy.ProcessUserInput | interface.py:56-107 | exit words return none and keep the memory; clear words clear it with the fixed reply; history and help words change nothing; an empty line gets the prompt message; otherwise a failed generation gives the error text with memory unchanged, and a successful one stores the (input, cleaned reply) exchange with `add_exchange` as written |
| ChatInterfacePy.MemoryChangesOnlyOnClearOrReply | interface.py:56-107 | only a clear command and a successful reply touch the memory |
| ChatInterfacePy.ReplyIsRemembered | interface.py:99-104 | the newest stored exchange is the stripped input with the reply shown, numbered with the turn count before the line, and the count rises by one |
| ChatInterfacePy.ProcessKeepsWellFormed | interface.py:56-107 | every line keeps the history invariant, whatever the window |
| ChatInterfacePy.ProcessUsesIntendedWindow | interface.py:99-102 | with a window of at least one exchange, the memory after a reply is what the intended `add_exchange` gives |
| ChatInterfacePy.ZeroWindowGrows | interface.py:99-102 | with a window of 0 every successful reply makes the history one exchange longer |
| ModelLoaderPy.AfterPrompt | model_loader.py:99-100 | the rest of the text after its first len(prompt) characters with only surrounding whitespace removed, empty exactly when that rest is blank; empty when the generated text is no longer than the prompt |
| ModelLoaderPy.AfterPromptCutsByLength | model_loader.py:100 | the cut is by length only: whatever the first len(prompt) characters are, the stripped rest is left |
| ModelLoaderPy.AfterEchoedPrompt | model_loader.py:99-100 | when the pipeline echoes the prompt, exactly the continuation is left, stripped |
| ModelLoaderPy.KeptSentences | model_loader.py:104-110 | a prefix of the `.`-pieces, at most two shorter: a blank last piece is dropped, and a non-blank last piece is dropped exactly when it is shorter than 10 characters and another piece remains; after a blank last piece, the piece before it goes too exactly when it is non-blank, shorter than 10 and not the first |
| ModelLoaderPy.DropBlankTail | model_loader.py:105-106 | drops exactly the blank last piece when it is not the only one |
| ModelLoaderPy.DropShortTail | model_loader.py:107-110 | drops exactly a non-blank last piece under 10 characters when it is not the only one |
| ModelLoaderPy.TrimSentences | model_loader.py:103-113 | empty stays empty; otherwise the kept pieces joined with ". ", with a full stop added when the join does not end in one; it starts with the first sentence and ends with a full stop |
| ModelLoaderPy.ShortLastSentenceDropped | model_loader.py:103-113 | "<sentence>.<tail>." with a non-blank tail under 10 characters keeps only "<sentence>." |
| ModelLoaderPy.HelloThereHi | model_loader.py:103-113 | "Hello there. Hi." becomes "Hello there." |
| ModelLoaderPy.GenerateResponse | model_loader.py:81-119 | no pipeline gives "Model not loaded…"; a failing call gives the error text; a successful one gives the sentence clean-up of the text after the prompt when that is non-empty, and the fixed "I'm not sure…" when nothing is left after the clean-up; always a non-empty reply ending with a full stop |
| ModelLoaderPy.NoStopGetsOne | model_loader.py:112-113 | a reply without a full stop gets one and is otherwise kept |
| ModelLoaderPy.FinishedSentenceKept | model_loader.py:103-113 | a single finished sentence comes back as it is |
| ModelLoaderPy.ShortTailDropped | model_loader.py:107-110 | a short unfinished tail after a sentence is cut off |

## Left out

- `calculate` (src/daily_features.js:153-189) evaluates with `eval`, `parseFloat` and `toFixed`. Its result is the parameter `Env.calculate`, a function from expression to text.
- `getCurrentTime` (src/daily_features.js:213-221) and every clock and locale text are parameters: `toDateString` days become integer calendar days, and `Date.now()` ids, `toLocaleString`, `toISOString` and `toLocaleTimeString` texts become opaque values.
- `Math.random()` picks (the tip, the general-chat reply, the canned fallback reply) are index parameters below the pool size.
- `DailyLifeAssistant.Minutes`: computes `floor(ms / 60000)` on integers. The source divides floating-point numbers twice; the two differ only by rounding at exact minute boundaries.
- The readline loop, `console` output and `console.clear()` in src/main.js are left out. `start()` is modelled as `Session`, a fold of `Step` over the lines read.
- `display_history`, `run`, `shutdown` and the `initialize` printing in the Python files are left out. `/history` in interface.py is modelled by its reply only.
- `fetch` to the countries service, the `HfInference` calls and the transformers pipeline are each the outcome of one call: `Capital` (Found, NotFound, FetchFailed) or `Attempt` (Done, Threw). `load_model` is reduced to whether a pipeline exists.
- The generation parameters (`max_length`, `temperature`, sampling) are left out; they only affect what the model returns.
- Lower-casing, `trim` and `strip` are ASCII only. Unicode case mapping and Unicode whitespace are not modelled.
- Python's `strip()` also removes the ASCII separators `\x1c` to `\x1f`, which JavaScript's `trim()` keeps. The model uses one whitespace set for both languages, the six characters both treat as whitespace, so a Python text padded with those separators keeps them here.
- `DailyFeatures.MarkDone`: stores the whole-day streak, which assumes the zone's UTC offset is the same on every tracked day. `MarkDoneAtFixedOffset` proves it equals `calculateStreak` under that assumption; across a daylight-saving change the source stores a smaller streak (Findings), which the habit tracker here does not reproduce. The environment has no per-day UTC offset.
- `ModelLoaderJs.PlusRuleAdds` and `ModelLoaderJs.MinusRuleSubtracts`: the sum and difference are exact integers. The source uses `parseInt`, which gives IEEE doubles. The two agree only while the numbers and the result are below 2^53, and from 10^21 up the source prints exponent notation ("1e+21").
- `getMessageCount`, `getStartTime` and `getCommandCount` are plain reads of the `Memory` fields, read by `GetStats` and `SessionStats`.
- src/interface.js (presentation: colours, banners, tables), main.py and the root main.js (entry points, signal handlers, `process.exit`) are not part of this model.
- `DailyFeatures.StripEither`: states only that the text does not grow. Its behaviour is pinned down by `ShadowedAlternative`, `ReminderWordQuirk` and `CalculateWordQuirk`.
- `DailyFeatures.GetReminders`, `DailyFeatures.HabitSummary`, `ChatMemoryJs.ConversationHistory` and `ChatMemoryJs.SearchMessages`: state which items the text names, not the exact layout around them.
- `ModelLoaderJs.DropPunctuation`: states that the result is punctuation-free and no longer than the input, not that the other characters keep their order.
- `ChatInterfacePy.StripMarkers`: states only that removing the markers never lengthens the reply. `StripMarkersKeepsPlain` and `CleanReplyUnchanged` state when it changes nothing.
- `Strings.RemoveAll`: its own contract states only the bounds, the no-occurrence case and blankness. The exact deletion, occurrence by occurrence, is stated by `Strings.RemoveAllAtFirst`.

## Findings

| source | as written | input that shows it | evidently intended | confidence | as-written member | corrected member |
|---|---|---|---|---|---|---|
| src/daily_features.js:114-130 | consecutive days are recognised by `(a - b) / 86400000 === 1` on local-midnight `Date` values | two consecutive days across the spring-forward change of a zone whose offset goes from -5 h to -4 h: the midnights are 23 hours apart, so the streak is 1 | the streak counts consecutive calendar days, so these two give 2 | high, not executed | Streak.DstBreaksStreakAsWritten | Streak.StreakIsRunEndingAtLatest |
| chat_memory.py:43-45 | the window is applied with `conversation_history[-window_size:]` | `ChatMemory(0)` followed by one `add_exchange`: `[-0:]` is the whole list, so the exchange is kept and the history keeps growing | a window of 0 remembers nothing | medium, not executed | ChatMemoryPy.AddExchangeAsWritten | ChatMemoryPy.AddExchange |

=== FILE: assistant.dfy ===
/** The session driver of src/main.js: each non-blank input line is routed to
    a slash command, to the daily-feature engine or to a canned general reply,
    and both the line and the reply are then logged in the chat memory. */
module DailyLifeAssistant {
  import opened Wrappers
  import opened Strings
  import opened Numerals
  import opened Sequences
  import ChatMemoryJs
  import DailyFeatures

  /** `memory`, `features` and `isRunning`. */
  datatype Assistant = Assistant(memory: ChatMemoryJs.Memory, features: DailyFeatures.Features, running: bool)

  /** What one turn reads from outside the model: the feature engine's clock
      and random picks, the general-chat pick, the clock in milliseconds, the
      ISO stamps given to the two logged messages, the help text of the
      console interface, and the clock's locale texts. */
  datatype Turn = Turn(
    env: DailyFeatures.Env,
    chatIndex: nat,               // `Math.floor(Math.random() * responses.length)`
    now: int,                     // `Date.now()`
    userStamp: string,            // timestamp of the logged input line
    replyStamp: string,           // timestamp of the logged reply
    helpText: string,             // `interface.getHelpText()`
    startText: string,            // `new Date(startTime).toLocaleTimeString()`
    timeOf: string -> string)     // `new Date(iso).toLocaleTimeString()`

  predicate TurnOk(t: Turn) {
    t.env.tipIndex < DailyFeatures.TipCount && t.chatIndex < GeneralReplyCount
  }

  /** The state after handling one line and the reply shown. */
  datatype Outcome = Outcome(state: Assistant, reply: string)

  /** The ten entries of the general-chat pool. */
  const GeneralReplyCount: nat := 10

  /** Entry `i` of the general-chat pool of `handleGeneralChat`. */
  function GeneralReply(i: nat): string
    requires i < GeneralReplyCount
  {
    match i
    case 0 => "That's interesting! Tell me more about that."
    case 1 => "I understand. How can I help you with that?"
    case 2 => "Thanks for sharing! Is there anything specific you'd like assistance with?"
    case 3 => "I'm here to help! What would you like to do today?"
    case 4 => "That sounds important. Would you like me to help you organize your thoughts about it?"
    case 5 => "I see. Is there a way I can assist you with this?"
    case 6 => "Interesting perspective! How can I support you today?"
    case 7 => "I'm listening. What's on your mind?"
    case 8 => "That's worth considering. Need any help planning or organizing around that?"
    case _ => "I appreciate you sharing that with me. How can I be most helpful right now?"
  }

  /** The source file's waving-hand emoji and chart emoji were saved as UTF-8
      and read back as Windows-1252, so the program prints these characters. */
  const Goodbye := "Goodbye! Have a great day! \U{00F0}\U{0178}\U{2018}\U{2039}"
  const StatsHead := "\U{00F0}\U{0178}\U{201C}\U{0160} Session Statistics:\n"
  const Bullet := "\U{00E2}\U{20AC}\U{00A2} "
  const Cleared := "Chat cleared! Starting fresh."

  function UnknownCommand(cmd: string): string {
    "Unknown command: " + cmd + ". Type /help for available commands."
  }

  // ---------------------------------------------------------------- commands

  /** The command word of a command line, `command.split(' ')[0]`. */
  function CommandWord(command: string): string {
    Split(command, ' ')[0]
  }

  /** The arguments of a command line, `args.join(' ')` after the split. */
  function CommandArgs(command: string): (r: string)
    ensures r == AfterFirst(command, ' ')
  {
    SplitTailJoin(command, ' ');
    Join(Split(command, ' ')[1..], " ")
  }

  predicate IsExit(cmd: string) {
    cmd == "/exit" || cmd == "/quit"
  }

  /** `Math.floor(ms / 1000 / 60)` for an exact quotient. */
  function Minutes(ms: int): (r: int)
    ensures r * 60000 <= ms < (r + 1) * 60000
  {
    ms / 60000
  }

  /** `getSessionStats()`. */
  function SessionStats(m: ChatMemoryJs.Memory, t: Turn): (r: string)
    ensures StartsWith(r, StatsHead)
    ensures Contains(r, "Messages exchanged: " + NatToString(|m.messages|) + "\n")
    ensures Contains(r, "Session duration: " + IntToString(Minutes(t.now - m.startTime)) + " minutes\n")
    ensures Contains(r, "Commands used: " + NatToString(m.commandCount) + "\n")
    ensures EndsWith(r, "Started: " + t.startText)
  {
    var a := "Messages exchanged: " + NatToString(|m.messages|) + "\n";
    var b := "Session duration: " + IntToString(Minutes(t.now - m.startTime)) + " minutes\n";
    var c := "Commands used: " + NatToString(m.commandCount) + "\n";
    var d := "Started: " + t.startText;
    var items := [a, b, c, d];
    var body := BulletLines(items);
    assert items[0] == a && items[1] == b && items[2] == c && items[3] == d;
    ContainsAppend(StatsHead, body, a);
    ContainsAppend(StatsHead, body, b);
    ContainsAppend(StatsHead, body, c);
    EndsWithAppend(StatsHead, body, d);
    assert (StatsHead + body)[..|StatsHead|] == StatsHead;
    StatsHead + body
  }

  /** Each item after a bullet, one after the other: every item shows in the
      text, and the text ends with the last one. */
  function BulletLines(items: seq<string>): (r: string)
    ensures forall k :: 0 <= k < |items| ==> Contains(r, items[k])
    ensures items != [] ==> EndsWith(r, items[|items| - 1])
    decreases |items|
  {
    if items == [] then []
    else
      var first := Bullet + items[0];
      var rest := BulletLines(items[1..]);
      forall k | 0 <= k < |items| ensures Contains(first + rest, items[k]) {
        if k == 0 {
          ShownAfterBullet(Bullet, items[0]);
          ContainsAppend(first, rest, items[0]);
        } else {
          assert items[k] == items[1..][k - 1];
          ContainsAppend(first, rest, items[k]);
        }
      }
      if |items| == 1 then
        assert first + rest == first;
        assert first[|first| - |items[0]|..] == items[0];
        first + rest
      else
        assert items[|items| - 1] == items[1..][|items[1..]| - 1];
        EndsWithAppend(first, rest, items[|items| - 1]);
        first + rest
  }

  lemma ShownAfterBullet(bullet: string, text: string)
    ensures Contains(bullet + text, text)
  {
    assert (bullet + text)[|bullet|..|bullet| + |text|] == text;
    ContainsWhenOccurs(bullet + text, text, |bullet|);
  }

  /** The command words `handleCommand` has a case for. */
  predicate IsKnownCommand(cmd: string) {
    cmd == "/help" || IsExit(cmd) || cmd == "/clear" || cmd == "/history" || cmd == "/stats" ||
    ChangesFeatures(cmd) || cmd == "/tip" || cmd == "/calc" || cmd == "/weather"
  }

  /** The two commands that write to the feature engine. */
  predicate ChangesFeatures(cmd: string) {
    cmd == "/remind" || cmd == "/habit"
  }

  /** `handleCommand(command)` on the trimmed, lower-cased line. */
  function HandleCommand(a: Assistant, command: string, t: Turn): (r: Outcome)
    requires TurnOk(t)
    ensures r.state.memory == a.memory
    ensures r.state.running == (a.running && !IsExit(CommandWord(command)))
    ensures IsExit(CommandWord(command)) ==> r.reply == Goodbye
    ensures !ChangesFeatures(CommandWord(command)) ==> r.state.features == a.features
    ensures !IsKnownCommand(CommandWord(command)) ==> r.reply == UnknownCommand(CommandWord(command))
    ensures CommandWord(command) == "/help" ==> r.reply == t.helpText
    ensures CommandWord(command) == "/clear" ==> r.reply == Cleared
    ensures CommandWord(command) == "/history" ==> r.reply == ChatMemoryJs.ConversationHistory(a.memory, t.timeOf)
    ensures CommandWord(command) == "/stats" ==> r.reply == SessionStats(a.memory, t)
    ensures CommandWord(command) == "/remind" ==>
              var s := DailyFeatures.SetReminder(a.features, CommandArgs(command), t.env.stampId, t.env.stampText);
              r.state.features == s.features && r.reply == s.reply
    ensures CommandWord(command) == "/habit" ==>
              var h := DailyFeatures.TrackHabit(a.features, CommandArgs(command), t.env.today);
              r.state.features == h.features && r.reply == h.reply
    ensures CommandWord(command) == "/tip" ==> r.reply == DailyFeatures.DailyTip(t.env.tipIndex)
    ensures CommandWord(command) == "/calc" ==> r.reply == t.env.calculate(CommandArgs(command))
    ensures CommandWord(command) == "/weather" ==> r.reply == DailyFeatures.WeatherAdvice(CommandArgs(command))
  {
    var cmd := CommandWord(command);
    var args := CommandArgs(command);
    var env := t.env;
    if cmd == "/help" then Outcome(a, t.helpText)
    else if IsExit(cmd) then Outcome(a.(running := false), Goodbye)
    else if cmd == "/clear" then Outcome(a, Cleared)
    else if cmd == "/history" then Outcome(a, ChatMemoryJs.ConversationHistory(a.memory, t.timeOf))
    else if cmd == "/stats" then Outcome(a, SessionStats(a.memory, t))
    else if cmd == "/remind" then
      var r := DailyFeatures.SetReminder(a.features, args, env.stampId, env.stampText);
      Outcome(a.(features := r.features), r.reply)
    else if cmd == "/habit" then
      var r := DailyFeatures.TrackHabit(a.features, args, env.today);
      Outcome(a.(features := r.features), r.reply)
    else if cmd == "/tip" then Outcome(a, DailyFeatures.DailyTip(env.tipIndex))
    else if cmd == "/calc" then Outcome(a, env.calculate(args))
    else if cmd == "/weather" then Outcome(a, DailyFeatures.WeatherAdvice(args))
    else Outcome(a, UnknownCommand(cmd))
  }

  // ---------------------------------------------------------------- one line

  /** How `processInput` classifies a line. */
  datatype Kind = Command | Feature | Chat

  function KindOf(input: string): Kind {
    if StartsWith(Lower(Trim(input)), "/") then Command
    else if DailyFeatures.CanHandle(input) then Feature
    else Chat
  }

  /** `processInput(input)`: a line whose trimmed form starts with `/` is a
      command (handled lower-cased), a line the feature engine accepts goes
      to it unchanged, anything else gets a general reply. */
  function ProcessInput(a: Assistant, input: string, t: Turn): (r: Outcome)
    requires TurnOk(t)
    ensures r.state.memory == a.memory
    ensures KindOf(input) == Command ==> r == HandleCommand(a, Lower(Trim(input)), t)
    ensures KindOf(input) != Command ==> r.state.running == a.running
    ensures KindOf(input) == Feature ==>
              r == Outcome(a.(features := DailyFeatures.Process(a.features, input, t.env).features),
                           DailyFeatures.Process(a.features, input, t.env).reply)
    ensures KindOf(input) == Chat ==> r.state == a && r.reply == GeneralReply(t.chatIndex)
  {
    var trimmed := Lower(Trim(input));
    if StartsWith(trimmed, "/") then HandleCommand(a, trimmed, t)
    else if DailyFeatures.CanHandle(input) then
      var r := DailyFeatures.Process(a.features, input, t.env);
      Outcome(a.(features := r.features), r.reply)
    else Outcome(a, GeneralReply(t.chatIndex))
  }

  /** The two `addMessage` calls after a reply is shown: the raw line as the
      user's message, then the reply.  Whatever was logged before, the log is
      the newest `maxMessages` of it followed by the pair, and each of the two
      that starts with `/` counts as a command. */
  function LogExchange(m: ChatMemoryJs.Memory, input: string, reply: string, t: Turn): (r: ChatMemoryJs.Memory)
    ensures r.messages
            == LastN(m.messages + [ChatMemoryJs.Message("user", input, t.userStamp),
                                   ChatMemoryJs.Message("assistant", reply, t.replyStamp)],
                     ChatMemoryJs.MaxMessages)
    ensures r.commandCount == m.commandCount + ChatMemoryJs.CommandWeight(input) + ChatMemoryJs.CommandWeight(reply)
    ensures r.startTime == m.startTime
  {
    var user := ChatMemoryJs.Message("user", input, t.userStamp);
    var said := ChatMemoryJs.Message("assistant", reply, t.replyStamp);
    var m1 := ChatMemoryJs.AddMessage(m, "user", input, t.userStamp);
    ChatMemoryJs.LastNOfAppend(m.messages + [user], [said], ChatMemoryJs.MaxMessages);
    assert m.messages + [user] + [said] == m.messages + [user, said];
    ChatMemoryJs.AddMessage(m1, "assistant", reply, t.replyStamp)
  }

  /** One pass of the `start()` loop over a line: a blank line is skipped;
      otherwise the reply is computed and then the line and the reply are
      logged, in that order. `None` means nothing was shown. */
  function Step(a: Assistant, input: string, t: Turn): (r: (Assistant, Option<string>))
    requires TurnOk(t)
    ensures IsBlank(input) ==> r == (a, None)
    ensures !IsBlank(input) ==> r.1.Some?
  {
    if Trim(input) == [] then (a, None)
    else
      var o := ProcessInput(a, input, t);
      (o.state.(memory := LogExchange(o.state.memory, input, o.reply, t)), Some(o.reply))
  }

  /** A handled line shows the reply and is logged as exactly two messages,
      the raw line and then the reply; the command count grows by one for
      each of the two that starts with `/`; only an exit command stops the
      session. */
  lemma StepLogsExchange(a: Assistant, input: string, t: Turn)
    requires TurnOk(t) && !IsBlank(input)
    ensures var r := Step(a, input, t).0;
            var reply := ProcessInput(a, input, t).reply;
            && Step(a, input, t).1 == Some(reply)
            && r.memory.messages
               == LastN(a.memory.messages + [ChatMemoryJs.Message("user", input, t.userStamp),
                                             ChatMemoryJs.Message("assistant", reply, t.replyStamp)],
                        ChatMemoryJs.MaxMessages)
            && r.memory.commandCount
               == a.memory.commandCount + ChatMemoryJs.CommandWeight(input) + ChatMemoryJs.CommandWeight(reply)
            && r.memory.startTime == a.memory.startTime
            && (r.running <==> a.running && !(KindOf(input) == Command && IsExit(CommandWord(Lower(Trim(input))))))
  {
  }

  /** The command count looks at the raw line while routing looks at the
      trimmed one: a command typed after a blank is handled as a command but
      is not counted. */
  lemma IndentedCommandNotCounted()
    ensures KindOf(" /tip") == Command
    ensures ChatMemoryJs.CommandWeight(" /tip") == 0
  {
    var raw := " /tip";
    assert IsSpace(raw[0]) && raw[1] == '/' && !IsSpace(raw[1]);
    var start := TrimStart(raw);
    assert |start| == 4;
    assert start == raw[1..] == "/tip";
    var word := TrimEnd(start);
    assert !IsSpace(start[3]);
    assert |word| == 4 && word == start;
    assert Trim(raw) == "/tip";
    var lower := Lower("/tip");
    assert lower[0] == LowerChar('/') == '/';
    assert lower[..1] == "/";
    assert StartsWith(lower, "/");
    assert !StartsWith(raw, "/");
  }

  /** `/clear` clears the screen only: the log, the counts and the features
      are untouched. */
  lemma ClearKeepsMemory(a: Assistant, t: Turn)
    requires TurnOk(t)
    ensures ProcessInput(a, "/clear", t) == Outcome(a, Cleared)
  {
    ClearIsCommand();
    HandleClear(a, t);
  }

  lemma ClearIsCommand()
    ensures Lower(Trim("/clear")) == "/clear" && KindOf("/clear") == Command
  {
    TrimOfTrimmed("/clear");
    assert Lower("/clear") == "/clear";
  }

  lemma HandleClear(a: Assistant, t: Turn)
    requires TurnOk(t)
    ensures HandleCommand(a, "/clear", t) == Outcome(a, Cleared)
  {
    WordAlone("/clear");
  }

  /** A line without a blank is its own command word. */
  lemma WordAlone(command: string)
    requires ' ' !in command
    ensures CommandWord(command) == command
  {
  }

  /** A reminder set through `/remind` is stored lower-cased, because the
      command line is lower-cased before its arguments are taken: the stored
      text is the lower-cased, trimmed text after the command word. */
  lemma SlashRemindStoresLowerCase(a: Assistant, input: string, t: Turn)
    requires TurnOk(t)
    requires KindOf(input) == Command && CommandWord(Lower(Trim(input))) == "/remind"
    requires !IsBlank(AfterFirst(Trim(input), ' '))
    ensures ProcessInput(a, input, t).state.features.reminders
            == a.features.reminders
               + [DailyFeatures.Reminder(t.env.stampId, Lower(Trim(AfterFirst(Trim(input), ' '))), t.env.stampText)]
  {
    var raw := AfterFirst(Trim(input), ' ');
    var command := Lower(Trim(input));
    HandleRemind(a, command, t);
    AfterFirstLower(Trim(input));
    assert CommandArgs(command) == Lower(raw);
    BlankLower(raw);
    TrimLower(raw);
  }

  /** Every command argument arrives lower-cased: `/remind`, `/habit`,
      `/calc` and `/weather` are given the lower-cased text after the command
      word, because the whole line is lower-cased before it is split. */
  lemma SlashArgumentsLowerCase(a: Assistant, input: string, t: Turn)
    requires TurnOk(t) && KindOf(input) == Command
    ensures var cmd := CommandWord(Lower(Trim(input)));
            var args := Lower(AfterFirst(Trim(input), ' '));
            var r := ProcessInput(a, input, t);
            && (cmd == "/remind" ==>
                  r.state.features == DailyFeatures.SetReminder(a.features, args, t.env.stampId, t.env.stampText).features)
            && (cmd == "/habit" ==>
                  r.state.features == DailyFeatures.TrackHabit(a.features, args, t.env.today).features)
            && (cmd == "/calc" ==> r.reply == t.env.calculate(args))
            && (cmd == "/weather" ==> r.reply == DailyFeatures.WeatherAdvice(args))
  {
    AfterFirstLower(Trim(input));
  }

  /** `/remind` hands its arguments to the reminder store. */
  lemma HandleRemind(a: Assistant, command: string, t: Turn)
    requires TurnOk(t) && CommandWord(command) == "/remind"
    ensures HandleCommand(a, command, t).state.features
            == DailyFeatures.SetReminder(a.features, CommandArgs(command), t.env.stampId, t.env.stampText).features
  {
  }

  lemma AfterFirstLower(s: string)
    ensures AfterFirst(Lower(s), ' ') == Lower(AfterFirst(s, ' '))
  {
    if ' ' in s {
      LowerFirstIndex(s);
      LowerSlice(s, FirstIndex(s, ' ') + 1, |s|);
    }
  }

  lemma LowerFirstIndex(s: string)
    requires ' ' in s
    ensures ' ' in Lower(s) && FirstIndex(Lower(s), ' ') == FirstIndex(s, ' ')
  {
    assert Lower(s)[FirstIndex(s, ' ')] == ' ';
  }

  // ---------------------------------------------------------------- the loop

  /** The `start()` loop over the lines read, while the session runs. */
  function Session(a: Assistant, inputs: seq<string>, turns: seq<Turn>): (r: Assistant)
    requires |turns| == |inputs| && forall k :: 0 <= k < |turns| ==> TurnOk(turns[k])
    decreases |inputs|
  {
    if inputs == [] || !a.running then a
    else Session(Step(a, inputs[0], turns[0]).0, inputs[1..], turns[1..])
  }

  /** Lines read after an exit command are never processed. */
  lemma {:induction false} SessionStopsAfterExit(a: Assistant, inputs: seq<string>, more: seq<string>,
                                                 turns: seq<Turn>, moreTurns: seq<Turn>)
    requires |turns| == |inputs| && forall k :: 0 <= k < |turns| ==> TurnOk(turns[k])
    requires |moreTurns| == |more| && forall k :: 0 <= k < |moreTurns| ==> TurnOk(moreTurns[k])
    requires !Session(a, inputs, turns).running
    ensures Session(a, inputs + more, turns + moreTurns) == Session(a, inputs, turns)
    decreases |inputs|
  {
    if inputs == [] {
      assert inputs + more == more && turns + moreTurns == moreTurns;
    } else if a.running {
      HeadTailAppend(inputs, more);
      HeadTailAppend(turns, moreTurns);
      SessionStopsAfterExit(Step(a, inputs[0], turns[0]).0, inputs[1..], more, turns[1..], moreTurns);
    }
  }

  /** The session stays running until a line whose command word is `/exit`
      or `/quit`, and stops on such a line. */
  lemma StepRunning(a: Assistant, input: string, t: Turn)
    requires TurnOk(t) && a.running
    ensures !Step(a, input, t).0.running <==>
            !IsBlank(input) && KindOf(input) == Command && IsExit(CommandWord(Lower(Trim(input))))
  {
    if !IsBlank(input) {
      StepLogsExchange(a, input, t);
    }
  }
}

=== FILE: chat_memory_js.dfy ===
/** The message log of src/chat_memory.js: a bounded list of role-tagged
    messages, the count of slash commands seen, and the texts it renders for
    `/history` and for a search. */
module ChatMemoryJs {
  import opened Sequences
  import opened Strings
  import opened Numerals

  /** `{ role, content, timestamp }`; the timestamp is the ISO text the clock
      gave when the message was added. */
  datatype Message = Message(role: string, content: string, timestamp: string)

  /** `messages` oldest first, `startTime` the clock reading at construction
      (milliseconds), `commandCount` the messages seen that began with `/`. */
  datatype Memory = Memory(messages: seq<Message>, startTime: int, commandCount: nat)

  /** `maxMessages`. */
  const MaxMessages: nat := 100

  const NoHistoryText := "No conversation history yet. Start chatting!"
  const HistoryHeader := "📝 Recent Conversation History:\n\n"

  /** What `getStats()` returns. */
  datatype Stats = Stats(total: nat, user: nat, assistant: nat, commands: nat, duration: int)

  /** The constructor, at clock reading `now`. */
  function NewMemory(now: int): (m: Memory)
    ensures m.messages == [] && m.commandCount == 0 && m.startTime == now
    ensures Bounded(m)
  {
    Memory([], now, 0)
  }

  predicate Bounded(m: Memory) {
    |m.messages| <= MaxMessages
  }

  /** 1 for a message that counts as a command, 0 otherwise. */
  function CommandWeight(content: string): nat {
    if StartsWith(content, "/") then 1 else 0
  }

  /** `addMessage(role, content)` with the clock's ISO text `timestamp`: the
      message goes last, only the newest `maxMessages` are kept, and content
      starting with `/` is counted as a command. */
  function AddMessage(m: Memory, role: string, content: string, timestamp: string): (r: Memory)
    ensures r.messages == LastN(m.messages + [Message(role, content, timestamp)], MaxMessages)
    ensures |r.messages| == Min(|m.messages| + 1, MaxMessages)
    ensures r.messages[|r.messages| - 1] == Message(role, content, timestamp)
    ensures r.commandCount == m.commandCount + (if StartsWith(content, "/") then 1 else 0)
    ensures r.startTime == m.startTime
    ensures Bounded(r)
  {
    var pushed := m.messages + [Message(role, content, timestamp)];
    var kept := if |pushed| > MaxMessages then SliceFrom(pushed, -(MaxMessages as int)) else pushed;
    Memory(kept, m.startTime, m.commandCount + CommandWeight(content))
  }

  /** Adding a series of messages one by one. */
  function AddAll(m: Memory, batch: seq<Message>): Memory
    decreases |batch|
  {
    if batch == [] then m
    else AddAll(AddMessage(m, batch[0].role, batch[0].content, batch[0].timestamp), batch[1..])
  }

  /** The commands among `batch`. */
  function CommandsIn(batch: seq<Message>): nat {
    if batch == [] then 0 else CommandWeight(batch[0].content) + CommandsIn(batch[1..])
  }

  /** However many messages arrive, the log holds exactly the newest
      `maxMessages` of everything it held and everything added, in order. */
  lemma {:induction false} AddAllKeepsNewest(m: Memory, batch: seq<Message>)
    requires Bounded(m)
    ensures AddAll(m, batch).messages == LastN(m.messages + batch, MaxMessages)
    decreases |batch|
  {
    if batch == [] {
      assert m.messages + batch == m.messages;
    } else {
      var msg := batch[0];
      var m' := AddMessage(m, msg.role, msg.content, msg.timestamp);
      assert AddAll(m, batch) == AddAll(m', batch[1..]);
      AddAllKeepsNewest(m', batch[1..]);
      LastNOfAppend(m.messages + [msg], batch[1..], MaxMessages);
      AppendHeadTail(m.messages, batch);
    }
  }

  /** Every command among the added messages is counted once, even those the
      window has since dropped, and the start time never changes. */
  lemma {:induction false} AddAllCountsCommands(m: Memory, batch: seq<Message>)
    ensures AddAll(m, batch).commandCount == m.commandCount + CommandsIn(batch)
    ensures AddAll(m, batch).startTime == m.startTime
    decreases |batch|
  {
    if batch != [] {
      var msg := batch[0];
      AddAllCountsCommands(AddMessage(m, msg.role, msg.content, msg.timestamp), batch[1..]);
    }
  }

  /** Taking the last `n` before appending does not change the last `n`
      after appending. */
  lemma LastNOfAppend<T>(xs: seq<T>, ys: seq<T>, n: nat)
    ensures LastN(LastN(xs, n) + ys, n) == LastN(xs + ys, n)
  {
    var k := Min(n, |xs|);
    assert LastN(xs, n) + ys == (xs + ys)[|xs| - k..];
  }

  /** `getRecentMessages(count)`: `messages.slice(-count)`. */
  function RecentMessages(m: Memory, count: int): (r: seq<Message>)
    ensures count >= 1 ==> r == LastN(m.messages, count)
    ensures count == 0 ==> r == m.messages
    ensures count < 0 ==> r == m.messages[Min(-count, |m.messages|)..]
  {
    SliceFromNegative(m.messages, count);
    SliceFrom(m.messages, -count)
  }

  /** How a role is labelled in the history: anything but `user` is shown as
      the assistant. */
  function HistoryRole(role: string): string {
    if role == "user" then "👤 You" else "🤖 Assistant"
  }

  function SearchRole(role: string): string {
    if role == "user" then "👤" else "🤖"
  }

  /** One rendered line, `[time] role: content`. */
  function Line(time: string, role: string, content: string): (r: string)
    ensures Contains(r, content)
  {
    ContainsMiddle("[" + time + "] " + role + ": ", content, "\n");
    "[" + time + "] " + role + ": " + content + "\n"
  }

  /** The lines of `msgs` in order, rendering a role with `roleText` and a
      timestamp with `timeOf` (`toLocaleTimeString`). */
  function Lines(msgs: seq<Message>, timeOf: string -> string, roleText: string -> string): (r: string)
    ensures forall k {:trigger Contains(r, msgs[k].content)} :: 0 <= k < |msgs| ==> Contains(r, msgs[k].content)
    decreases |msgs|
  {
    if msgs == [] then []
    else
      var head := Line(timeOf(msgs[0].timestamp), roleText(msgs[0].role), msgs[0].content);
      var rest := Lines(msgs[1..], timeOf, roleText);
      forall k | 0 <= k < |msgs| ensures Contains(head + rest, msgs[k].content) {
        if k == 0 {
          ContainsAppend(head, rest, msgs[0].content);
        } else {
          assert msgs[k] == msgs[1..][k - 1];
          ContainsAppend(head, rest, msgs[k].content);
        }
      }
      head + rest
  }

  /** `getConversationHistory()`: the fixed text for an empty log, otherwise
      the header followed by the ten newest messages. */
  function ConversationHistory(m: Memory, timeOf: string -> string): (r: string)
    ensures m.messages == [] <==> r == NoHistoryText
    ensures m.messages != [] ==> StartsWith(r, HistoryHeader)
    ensures forall k {:trigger Contains(r, LastN(m.messages, 10)[k].content)} ::
              0 <= k < |LastN(m.messages, 10)| ==> Contains(r, LastN(m.messages, 10)[k].content)
  {
    if m.messages == [] then NoHistoryText
    else
      var recent := RecentMessages(m, 10);
      var lines := Lines(recent, timeOf, HistoryRole);
      forall k | 0 <= k < |recent| ensures Contains(HistoryHeader + lines, recent[k].content) {
        ContainsAppend(HistoryHeader, lines, recent[k].content);
      }
      assert (HistoryHeader + lines)[..|HistoryHeader|] == HistoryHeader;
      assert NoHistoryText[0] != (HistoryHeader + lines)[0];
      HistoryHeader + lines
  }

  /** `clearHistory()`: the log and the command count are reset; the start
      time is kept. */
  function ClearHistory(m: Memory): (r: Memory)
    ensures r.startTime == m.startTime
    ensures forall now :: GetStats(r, now) == Stats(0, 0, 0, 0, now - m.startTime)
  {
    Memory([], m.startTime, 0)
  }

  // ---------------------------------------------------------------- search

  /** The message's content contains the query, both lower-cased. */
  predicate Mentions(msg: Message, query: string) {
    Contains(Lower(msg.content), Lower(query))
  }

  /** `Mentions` with the query fixed, as the callback `filter` is given. */
  function MentionsQuery(query: string): Message -> bool {
    (msg: Message) => Mentions(msg, query)
  }

  /** `messages.filter(...)`: the messages that mention the query. */
  function Matching(msgs: seq<Message>, query: string): (r: seq<Message>)
    ensures |r| <= |msgs|
    ensures forall k :: 0 <= k < |r| ==> r[k] in msgs && Mentions(r[k], query)
    ensures forall k :: 0 <= k < |msgs| && Mentions(msgs[k], query) ==> msgs[k] in r
    decreases |msgs|
  {
    if msgs == [] then []
    else
      var rest := Matching(msgs[1..], query);
      assert forall k :: 1 <= k < |msgs| ==> msgs[k] == msgs[1..][k - 1];
      if Mentions(msgs[0], query) then [msgs[0]] + rest else rest
  }

  /** Filtering keeps the log's order: a newer message that mentions the query
      comes after every older match. */
  lemma {:induction false} MatchingAppend(msgs: seq<Message>, x: Message, query: string)
    ensures Matching(msgs + [x], query) == Matching(msgs, query) + (if Mentions(x, query) then [x] else [])
    decreases |msgs|
  {
    if msgs != [] {
      assert (msgs + [x])[1..] == msgs[1..] + [x];
      MatchingAppend(msgs[1..], x, query);
    }
  }

  /** The number of matches is the number of positions whose message
      mentions the query. */
  lemma {:induction false} MatchingCount(msgs: seq<Message>, query: string)
    ensures |Matching(msgs, query)| == |Positions(msgs, MentionsQuery(query))|
    decreases |msgs|
  {
    if msgs != [] {
      var init, x := msgs[..|msgs| - 1], msgs[|msgs| - 1];
      assert msgs == init + [x];
      MatchingCount(init, query);
      MatchingAppend(init, x, query);
      PositionsAppend(init, x, MentionsQuery(query));
    }
  }

  function NoMatchText(query: string): string {
    "No messages found containing \"" + query + "\""
  }

  function FoundHeader(count: nat, query: string): string {
    "🔍 Found " + NatToString(count) + " messages containing \"" + query + "\":\n\n"
  }

  /** `searchMessages(query)`: a fixed text when nothing matches; otherwise
      the number of matches and the five newest of them. */
  function SearchMessages(m: Memory, query: string, timeOf: string -> string): (r: string)
    ensures Matching(m.messages, query) == [] ==> r == NoMatchText(query)
    ensures Matching(m.messages, query) != [] ==>
              StartsWith(r, FoundHeader(|Positions(m.messages, MentionsQuery(query))|, query))
    ensures var shown := LastN(Matching(m.messages, query), 5);
            forall k {:trigger Contains(r, shown[k].content)} :: 0 <= k < |shown| ==> Contains(r, shown[k].content)
  {
    var results := Matching(m.messages, query);
    MatchingCount(m.messages, query);
    if results == [] then NoMatchText(query)
    else
      var header := FoundHeader(|results|, query);
      SliceFromNegative(results, 5);
      var lines := Lines(SliceFrom(results, -5), timeOf, SearchRole);
      forall k | 0 <= k < |LastN(results, 5)| ensures Contains(header + lines, LastN(results, 5)[k].content) {
        ContainsAppend(header, lines, LastN(results, 5)[k].content);
      }
      assert (header + lines)[..|header|] == header;
      header + lines
  }

  // ---------------------------------------------------------------- statistics

  /** The number of messages whose role is exactly `role`. */
  function CountRole(msgs: seq<Message>, role: string): (c: nat)
    ensures c <= |msgs|
  {
    if msgs == [] then 0
    else (if msgs[0].role == role then 1 else 0) + CountRole(msgs[1..], role)
  }

  /** `msg.role === role` with the role fixed. */
  function HasRole(role: string): Message -> bool {
    (msg: Message) => msg.role == role
  }

  /** Counting a joined log counts each part. */
  lemma {:induction false} CountRoleAppend(a: seq<Message>, b: seq<Message>, role: string)
    ensures CountRole(a + b, role) == CountRole(a, role) + CountRole(b, role)
    decreases |a|
  {
    if a == [] {
      assert a + b == b;
    } else {
      assert (a + b)[0] == a[0] && (a + b)[1..] == a[1..] + b;
      CountRoleAppend(a[1..], b, role);
    }
  }

  /** `filter(msg => msg.role === role).length`: the count is the number of
      positions holding a message with that role. */
  lemma {:induction false} CountRolePositions(msgs: seq<Message>, role: string)
    ensures CountRole(msgs, role) == |Positions(msgs, HasRole(role))|
    decreases |msgs|
  {
    if msgs != [] {
      var init, x := msgs[..|msgs| - 1], msgs[|msgs| - 1];
      assert msgs == init + [x];
      CountRolePositions(init, role);
      CountRoleAppend(init, [x], role);
      PositionsAppend(init, x, HasRole(role));
    }
  }

  /** `getStats()` at clock reading `now`. */
  function GetStats(m: Memory, now: int): (s: Stats)
    ensures s.total == |m.messages| && s.commands == m.commandCount
    ensures s.user == |Positions(m.messages, HasRole("user"))|
    ensures s.assistant == |Positions(m.messages, HasRole("assistant"))|
    ensures s.user + s.assistant <= s.total
    ensures s.duration == now - m.startTime
  {
    RolesPartition(m.messages);
    CountRolePositions(m.messages, "user");
    CountRolePositions(m.messages, "assistant");
    Stats(|m.messages|, CountRole(m.messages, "user"), CountRole(m.messages, "assistant"),
          m.commandCount, now - m.startTime)
  }

  /** No message is counted both as a user and as an assistant message. */
  lemma {:induction false} RolesPartition(msgs: seq<Message>)
    ensures CountRole(msgs, "user") + CountRole(msgs, "assistant") <= |msgs|
    decreases |msgs|
  {
    if msgs != [] {
      RolesPartition(msgs[1..]);
    }
  }
}

=== FILE: chat_memory_py.dfy ===
/** The sliding-window conversation memory of chat_memory.py: the newest
    `window_size` exchanges, a turn counter that only `clear_history` resets,
    and the two prompt builders the Python chatbot feeds to its model. */
module ChatMemoryPy {
  import opened Sequences
  import opened Strings
  import opened Wrappers
  import opened Numerals

  /** One stored exchange: `{ 'turn', 'user', 'bot' }`. */
  datatype Exchange = Exchange(turn: int, user: string, bot: string)

  /** `window_size`, `conversation_history` oldest first, `turn_count`. */
  datatype Memory = Memory(windowSize: int, history: seq<Exchange>, turnCount: nat)

  /** What `get_history_summary()` returns. */
  datatype Summary = Summary(totalTurns: nat, storedExchanges: nat, windowSize: int, memoryUsage: string)

  /** The constructor's default window. */
  const DefaultWindow: int := 4

  /** `ChatMemory(window_size)`. */
  function NewMemory(windowSize: int): (m: Memory)
    ensures m.history == [] && m.turnCount == 0 && m.windowSize == windowSize
    ensures WellFormed(m)
  {
    Memory(windowSize, [], 0)
  }

  /** The stored turns are consecutive and end just before `turnCount`: the
      history is always the tail of the numbered conversation. */
  predicate WellFormed(m: Memory) {
    |m.history| <= m.turnCount &&
    forall k :: 0 <= k < |m.history| ==> m.history[k].turn == m.turnCount - |m.history| + k
  }

  /** The number of exchanges a window keeps: a window below 1 keeps none. */
  function Capacity(windowSize: int): nat {
    if windowSize > 0 then windowSize else 0
  }

  /** The exchange `add_exchange` records at turn `turn`. */
  function Record(turn: int, userInput: string, botResponse: string): (e: Exchange)
    ensures e.turn == turn && e.user == Trim(userInput) && e.bot == Trim(botResponse)
  {
    Exchange(turn, Trim(userInput), Trim(botResponse))
  }

  /** `add_exchange` exactly as written: append, count the turn, and when the
      history is longer than the window keep `history[-window_size:]`.  For a
      window of 0 that slice is the whole list, and for a negative window it
      drops the oldest entries instead of keeping the newest. */
  function AddExchangeAsWritten(m: Memory, userInput: string, botResponse: string): (r: Memory)
    ensures r.windowSize == m.windowSize && r.turnCount == m.turnCount + 1
    ensures m.windowSize >= 1 ==>
              r.history == LastN(m.history + [Record(m.turnCount, userInput, botResponse)], m.windowSize)
    ensures m.windowSize == 0 ==> r.history == m.history + [Record(m.turnCount, userInput, botResponse)]
    ensures m.windowSize < 0 ==>
              var pushed := m.history + [Record(m.turnCount, userInput, botResponse)];
              r.history == pushed[Min(-m.windowSize, |pushed|)..]
  {
    var pushed := m.history + [Record(m.turnCount, userInput, botResponse)];
    if |pushed| > m.windowSize then
      SliceFromNegative(pushed, m.windowSize);
      Memory(m.windowSize, SliceFrom(pushed, -m.windowSize), m.turnCount + 1)
    else
      assert LastN(pushed, m.windowSize) == pushed[0..] == pushed;
      Memory(m.windowSize, pushed, m.turnCount + 1)
  }

  /** `add_exchange` as intended: the new exchange, numbered with the turn
      count before the call, is kept together with the newest older ones, never
      more than the window holds, and the turn count rises by one whatever is
      evicted. */
  function AddExchange(m: Memory, userInput: string, botResponse: string): (r: Memory)
    ensures r.windowSize == m.windowSize && r.turnCount == m.turnCount + 1
    ensures r.history == LastN(m.history + [Record(m.turnCount, userInput, botResponse)], Capacity(m.windowSize))
    ensures |r.history| <= Capacity(m.windowSize)
    ensures m.windowSize >= 1 ==> r.history[|r.history| - 1] == Record(m.turnCount, userInput, botResponse)
  {
    var pushed := m.history + [Record(m.turnCount, userInput, botResponse)];
    var kept := if |pushed| > m.windowSize then LastN(pushed, Capacity(m.windowSize)) else pushed;
    assert |pushed| <= m.windowSize ==> kept == LastN(pushed, Capacity(m.windowSize));
    Memory(m.windowSize, kept, m.turnCount + 1)
  }

  /** For every window of at least one exchange the code as written and the
      intended version agree; they part only on a window of 0 or below. */
  lemma AddExchangeAgrees(m: Memory, userInput: string, botResponse: string)
    requires m.windowSize >= 1
    ensures AddExchangeAsWritten(m, userInput, botResponse) == AddExchange(m, userInput, botResponse)
  {
  }

  /** With `window_size` 0 the code as written keeps every exchange: after
      one exchange the history already holds more than the window allows, and
      it keeps growing. */
  lemma ZeroWindowKeepsEverything(userInput: string, botResponse: string)
    ensures var m := AddExchangeAsWritten(NewMemory(0), userInput, botResponse);
            |m.history| == 1 && |m.history| > m.windowSize
    ensures |AddExchange(NewMemory(0), userInput, botResponse).history| == 0
  {
  }

  /** A suffix of a consecutive run of turns is consecutive and ends at the
      same turn. */
  lemma ConsecutiveSuffix(h: seq<Exchange>, next: int, n: nat)
    requires n <= |h|
    requires forall k :: 0 <= k < |h| ==> h[k].turn == next - |h| + k
    ensures forall k :: 0 <= k < |h| - n ==> h[n..][k].turn == next - |h[n..]| + k
  {
    forall k | 0 <= k < |h| - n ensures h[n..][k].turn == next - |h[n..]| + k {
      assert h[n..][k] == h[n + k];
    }
  }

  /** The pushed history, numbered consecutively up to the new turn count. */
  lemma PushedConsecutive(m: Memory, e: Exchange)
    requires WellFormed(m) && e.turn == m.turnCount
    ensures forall k :: 0 <= k < |m.history + [e]| ==> (m.history + [e])[k].turn == (m.turnCount + 1) - |m.history + [e]| + k
  {
    var pushed := m.history + [e];
    forall k | 0 <= k < |pushed| ensures pushed[k].turn == (m.turnCount + 1) - |pushed| + k {
      if k < |m.history| {
        assert pushed[k] == m.history[k];
      }
    }
  }

  /** The intended `add_exchange` keeps the history the tail of the numbered
      conversation, within the window. */
  lemma AddExchangeWellFormed(m: Memory, userInput: string, botResponse: string)
    requires WellFormed(m)
    ensures WellFormed(AddExchange(m, userInput, botResponse))
  {
    var e := Record(m.turnCount, userInput, botResponse);
    var pushed := m.history + [e];
    PushedConsecutive(m, e);
    var r := AddExchange(m, userInput, botResponse);
    ConsecutiveSuffix(pushed, m.turnCount + 1, |pushed| - |r.history|);
    assert r.history == pushed[|pushed| - |r.history|..];
  }

  /** `add_exchange` as written also keeps the history the tail of the
      numbered conversation, whatever the window: every branch keeps a suffix
      of the pushed list. */
  lemma AddExchangeAsWrittenWellFormed(m: Memory, userInput: string, botResponse: string)
    requires WellFormed(m)
    ensures WellFormed(AddExchangeAsWritten(m, userInput, botResponse))
  {
    var e := Record(m.turnCount, userInput, botResponse);
    var pushed := m.history + [e];
    PushedConsecutive(m, e);
    var r := AddExchangeAsWritten(m, userInput, botResponse);
    assert r.history == pushed[|pushed| - |r.history|..];
    ConsecutiveSuffix(pushed, m.turnCount + 1, |pushed| - |r.history|);
  }

  /** `clear_history()`: no exchanges and the turn count back to 0; the window
      is kept. */
  function ClearHistory(m: Memory): (r: Memory)
    ensures r.history == [] && r.turnCount == 0 && r.windowSize == m.windowSize
    ensures WellFormed(r)
  {
    Memory(m.windowSize, [], 0)
  }

  /** After clearing, numbering starts again: the next exchange is turn 0 and
      is the only one stored. */
  lemma ClearThenAdd(m: Memory, userInput: string, botResponse: string)
    requires m.windowSize >= 1
    ensures AddExchangeAsWritten(ClearHistory(m), userInput, botResponse).history == [Exchange(0, Trim(userInput), Trim(botResponse))]
    ensures AddExchangeAsWritten(ClearHistory(m), userInput, botResponse).turnCount == 1
  {
  }

  // ---------------------------------------------------------------- prompts

  /** The speaker tags of `get_context_prompt` and the cue that ends it. */
  const HumanTag := "Human: "
  const BotTag := "Assistant: "
  const Cue := "Assistant:"

  /** The lines `get_context_prompt` collects: two per stored exchange, then
      the current input and the open `Assistant:` line. */
  function PromptLines(history: seq<Exchange>, input: string): (r: seq<string>)
    ensures |r| == 2 * |history| + 2
    ensures r[|r| - 2] == HumanTag + input && r[|r| - 1] == Cue
    ensures forall k :: 0 <= k < |history| ==>
              r[2 * k] == HumanTag + history[k].user && r[2 * k + 1] == BotTag + history[k].bot
    decreases |history|
  {
    if history == [] then [HumanTag + input, Cue]
    else
      var rest := PromptLines(history[1..], input);
      var lines := [HumanTag + history[0].user, BotTag + history[0].bot] + rest;
      forall k | 1 <= k < |history|
        ensures lines[2 * k] == HumanTag + history[k].user && lines[2 * k + 1] == BotTag + history[k].bot
      {
        assert history[k] == history[1..][k - 1];
        assert lines[2 * k] == rest[2 * (k - 1)] && lines[2 * k + 1] == rest[2 * (k - 1) + 1];
      }
      lines
  }

  /** `get_context_prompt(current_user_input)`. */
  function GetContextPrompt(m: Memory, input: string): (r: string)
    ensures m.history == [] ==> r == HumanTag + input + "\n" + Cue
    ensures StartsWith(r, HumanTag)
    ensures EndsWith(r, "\n" + Cue)
    ensures r == Join(PromptLines(m.history, input), "\n")
  {
    var lines := PromptLines(m.history, input);
    PromptShape(lines);
    if m.history == [] then
      assert Join(lines, "\n") == HumanTag + input + "\n" + Cue;
      Join(lines, "\n")
    else
      Join(lines, "\n")
  }

  /** Prompt lines that open with a `Human: ` line and close with the
      `Assistant:` line join into a text that opens and closes the same way. */
  lemma PromptShape(lines: seq<string>)
    requires |lines| >= 2 && StartsWith(lines[0], HumanTag) && lines[|lines| - 1] == Cue
    ensures StartsWith(Join(lines, "\n"), HumanTag)
    ensures EndsWith(Join(lines, "\n"), "\n" + Cue)
  {
    var text := Join(lines, "\n");
    JoinFirst(lines, "\n");
    StartsWithTrans(text, lines[0], HumanTag);
    JoinLast(lines, "\n");
  }

  /** No line break in the stored texts or the input. */
  predicate SingleLine(m: Memory, input: string) {
    '\n' !in input && forall k :: 0 <= k < |m.history| ==> '\n' !in m.history[k].user && '\n' !in m.history[k].bot
  }

  lemma NoBreakAfter(tag: string, text: string)
    requires '\n' !in tag && '\n' !in text
    ensures '\n' !in tag + text
  {
  }

  /** Splitting the prompt on line breaks gives back its lines: two per
      stored exchange and two more, provided the texts are single lines. */
  lemma ContextPromptLines(m: Memory, input: string)
    requires SingleLine(m, input)
    ensures Split(GetContextPrompt(m, input), '\n') == PromptLines(m.history, input)
    ensures |Split(GetContextPrompt(m, input), '\n')| == 2 * |m.history| + 2
  {
    var lines := PromptLines(m.history, input);
    PromptLinesSingle(m, input);
    SplitJoin(lines, '\n');
    assert GetContextPrompt(m, input) == Join(lines, "\n");
  }

  predicate NoBreaks(lines: seq<string>) {
    forall j :: 0 <= j < |lines| ==> '\n' !in lines[j]
  }

  /** Single-line texts make single-line prompt lines. */
  lemma PromptLinesSingle(m: Memory, input: string)
    requires SingleLine(m, input)
    ensures NoBreaks(PromptLines(m.history, input))
  {
    var lines := PromptLines(m.history, input);
    forall j | 0 <= j < |lines| ensures '\n' !in lines[j] {
      if j < 2 * |m.history| {
        var k := j / 2;
        if j == 2 * k {
          NoBreakAfter(HumanTag, m.history[k].user);
        } else {
          assert j == 2 * k + 1;
          NoBreakAfter(BotTag, m.history[k].bot);
        }
      } else if j == 2 * |m.history| {
        NoBreakAfter(HumanTag, input);
      }
    }
  }

  /** One exchange as `get_simple_context` shows it. */
  function QaPart(e: Exchange): string {
    "Q: " + e.user + " A: " + e.bot
  }

  function QaParts(h: seq<Exchange>): (r: seq<string>)
    ensures |r| == |h|
    ensures forall k :: 0 <= k < |h| ==> r[k] == QaPart(h[k])
  {
    seq(|h|, k requires 0 <= k < |h| => QaPart(h[k]))
  }

  /** `get_simple_context(current_user_input)`: the bare input on an empty
      history, otherwise the last two exchanges and the open question. */
  function GetSimpleContext(m: Memory, input: string): (r: string)
    ensures m.history == [] ==> r == input
    ensures m.history != [] ==> StartsWith(r, QaPart(LastN(m.history, 2)[0]))
    ensures m.history != [] ==> EndsWith(r, " Q: " + input + " A:")
    ensures |m.history| == 1 ==> r == QaPart(m.history[0]) + " Q: " + input + " A:"
    ensures |m.history| >= 2 ==>
              r == QaPart(m.history[|m.history| - 2]) + " " + QaPart(m.history[|m.history| - 1]) + " Q: " + input + " A:"
  {
    if m.history == [] then input
    else
      SliceFromNegative(m.history, 2);
      QaJoin(SliceFrom(m.history, -2), input)
  }

  /** The shown exchanges and the open question, joined by spaces. */
  function QaJoin(recent: seq<Exchange>, input: string): (r: string)
    requires recent != []
    ensures StartsWith(r, QaPart(recent[0]))
    ensures EndsWith(r, " Q: " + input + " A:")
    ensures |recent| == 1 ==> r == QaPart(recent[0]) + " Q: " + input + " A:"
    ensures |recent| == 2 ==> r == QaPart(recent[0]) + " " + QaPart(recent[1]) + " Q: " + input + " A:"
  {
    QaJoinEdges(recent, input);
    QaJoinShort(recent, input);
    Join(QaParts(recent) + ["Q: " + input + " A:"], " ")
  }

  /** The joined prompt opens with the first exchange and closes with the
      open question. */
  lemma QaJoinEdges(recent: seq<Exchange>, input: string)
    requires recent != []
    ensures StartsWith(Join(QaParts(recent) + ["Q: " + input + " A:"], " "), QaPart(recent[0]))
    ensures EndsWith(Join(QaParts(recent) + ["Q: " + input + " A:"], " "), " Q: " + input + " A:")
  {
    var question := "Q: " + input + " A:";
    var parts := QaParts(recent) + [question];
    assert parts[0] == QaPart(recent[0]);
    JoinFirst(parts, " ");
    QaJoinCloses(parts, question, input);
  }

  lemma QaJoinCloses(parts: seq<string>, question: string, input: string)
    requires |parts| >= 2 && question == "Q: " + input + " A:" && parts[|parts| - 1] == question
    ensures EndsWith(Join(parts, " "), " Q: " + input + " A:")
  {
    JoinLast(parts, " ");
    assert " " + question == " Q: " + input + " A:";
  }

  /** One or two exchanges and the open question, spelled out. */
  lemma QaJoinShort(recent: seq<Exchange>, input: string)
    requires recent != []
    ensures |recent| == 1 ==>
              Join(QaParts(recent) + ["Q: " + input + " A:"], " ") == QaPart(recent[0]) + " Q: " + input + " A:"
    ensures |recent| == 2 ==>
              Join(QaParts(recent) + ["Q: " + input + " A:"], " ")
              == QaPart(recent[0]) + " " + QaPart(recent[1]) + " Q: " + input + " A:"
  {
    var question := "Q: " + input + " A:";
    var parts := QaParts(recent) + [question];
    assert " " + question == " Q: " + input + " A:";
    if |recent| == 1 {
      assert parts == [QaPart(recent[0]), question];
      assert Join(parts[1..], " ") == question;
    } else if |recent| == 2 {
      assert parts == [QaPart(recent[0]), QaPart(recent[1]), question];
      assert Join(parts[2..], " ") == question;
      assert Join(parts[1..], " ") == QaPart(recent[1]) + " " + question;
    }
  }

  /** Only the last two exchanges reach the simple prompt: memories that agree
      on them give the same prompt. */
  lemma SimpleContextReadsLastTwo(m: Memory, n: Memory, input: string)
    requires m.history != [] && n.history != []
    requires LastN(m.history, 2) == LastN(n.history, 2)
    ensures GetSimpleContext(m, input) == GetSimpleContext(n, input)
  {
    SliceFromNegative(m.history, 2);
    SliceFromNegative(n.history, 2);
  }

  // ---------------------------------------------------------------- summary

  /** `get_history_summary()`. */
  function GetHistorySummary(m: Memory): (s: Summary)
    ensures s.totalTurns == m.turnCount && s.storedExchanges == |m.history| && s.windowSize == m.windowSize
    ensures WellFormed(m) ==> s.storedExchanges <= s.totalTurns
  {
    Summary(m.turnCount, |m.history|, m.windowSize, NatToString(|m.history|) + "/" + IntToString(m.windowSize))
  }

  lemma NoSlashInDigits(s: string)
    requires AllDigits(s)
    ensures '/' !in s
  {
  }

  /** The usage text reads back as stored exchanges over window: splitting
      it on `/` gives the two numbers, which parse to the stored count and the
      window. */
  lemma MemoryUsageReadsBack(m: Memory)
    ensures var parts := Split(GetHistorySummary(m).memoryUsage, '/');
            |parts| == 2 && AllDigits(parts[0]) &&
            ParseDigits(parts[0]) == |m.history| && ParseInt(parts[1]) == Some(m.windowSize)
  {
    var a := NatToString(|m.history|);
    var b := IntToString(m.windowSize);
    NoSlashInDigits(a);
    if m.windowSize >= 0 {
      NoSlashInDigits(b);
    } else {
      NoSlashInDigits(b[1..]);
      assert b == [b[0]] + b[1..];
    }
    assert Join([a, b], "/") == a + "/" + b;
    SplitJoin([a, b], '/');
    ParseNatToString(|m.history|);
    ParseIntToString(m.windowSize);
  }
}

=== FILE: daily_features.dfy ===
/** The daily-utility engine of src/daily_features.js: the keyword trigger and
    router, the reminder store, the habit tracker with its streaks, the tip
    pool and the weather-advice table.  The engine state is an immutable
    record and every operation returns the next state with its reply. */
module DailyFeatures {
  import opened Wrappers
  import opened Strings
  import opened Numerals
  import Streak

  datatype Reminder = Reminder(id: int, text: string, created: string)

  /** One entry of the `habits` map: `key` is the map key (trimmed and
      lower-cased), `name` the display name stored on first tracking, `dates`
      the tracked calendar days in tracking order. */
  datatype Habit = Habit(key: string, name: string, dates: seq<int>, streak: nat)

  /** `reminders` in creation order and the `habits` map in insertion order
      (the order a JavaScript `Map` iterates in). */
  datatype Features = Features(reminders: seq<Reminder>, habits: seq<Habit>)

  /** What the engine reads from the clock, from `Math.random()` and from the
      operations this model leaves abstract. */
  datatype Env = Env(
    today: int,                   // the calendar day `new Date().toDateString()` names
    stampId: int,                 // `Date.now()`, the id of a new reminder
    stampText: string,            // `new Date().toLocaleString()`
    tipIndex: nat,                // `Math.floor(Math.random() * tips.length)`
    timeText: string,             // the text of `getCurrentTime()`
    calculate: string -> string)  // `calculate(expression)`

  /** The state after an operation and the text it returns. */
  datatype Answer = Answer(features: Features, reply: string)

  const Empty := Features([], [])

  // ---------------------------------------------------------------- texts

  const Keywords: seq<string> :=
    ["remind", "reminder", "habit", "track", "tip", "advice",
     "calculate", "calc", "weather", "time", "schedule"]

  const HelpReply := "I can help with reminders, habits, tips, calculations, and more! Type /help for commands."
  const RemindUsage := "Please specify what you'd like to be reminded about. Example: /remind Call mom at 3pm"
  const NoHabitsText := "📊 No habits tracked yet. Start tracking with: /habit [habit name]"
  const NoRemindersText := "📝 No reminders set yet."
  const TipSuffix := "\n\n💪 You've got this! Small daily actions lead to big results."
  const WeatherDefault := "🌤️ Whatever the weather, make it a great day! Stay prepared and enjoy the moment."

  /** The fifteen entries of `tips`, the daily tip pool. */
  const TipCount: nat := 15

  /** Entry `i` of the tip pool. */
  function Tip(i: nat): string
    requires i < TipCount
  {
    match i
    case 0 => "💡 Start your day with a glass of water to stay hydrated!"
    case 1 => "🌅 Try the 2-minute rule: if something takes less than 2 minutes, do it now!"
    case 2 => "📱 Take regular breaks from screens to rest your eyes."
    case 3 => "🚶‍♀️ A 10-minute walk can boost your energy and mood."
    case 4 => "📝 Write down 3 things you're grateful for each day."
    case 5 => "🧘‍♂️ Take 5 deep breaths when feeling stressed."
    case 6 => "🛏️ Make your bed first thing in the morning for an instant win!"
    case 7 => "🥗 Prep healthy snacks in advance to avoid junk food."
    case 8 => "📚 Read for 15 minutes before bed instead of scrolling."
    case 9 => "🎯 Set 3 priorities for tomorrow before ending your day."
    case 10 => "☀️ Get some sunlight exposure in the morning to regulate sleep."
    case 11 => "🧹 Clean as you go to maintain a tidy space."
    case 12 => "💪 Do 10 push-ups or stretches during work breaks."
    case 13 => "📞 Call a friend or family member you haven't spoken to recently."
    case _ => "🎵 Listen to uplifting music to boost your mood."
  }

  /** The weather-advice table, in the order `Object.entries` visits it. */
  const WeatherKeys: seq<string> := ["sunny", "rainy", "cloudy", "cold", "hot", "windy", "snowy"]
  /** The advice for `WeatherKeys[k]`. */
  function WeatherTip(k: nat): string
    requires k < |WeatherKeys|
  {
    match k
    case 0 => "☀️ Great weather! Don't forget sunscreen and stay hydrated."
    case 1 => "🌧️ Perfect day for indoor activities! Maybe catch up on reading or organize your space."
    case 2 => "☁️ Nice mild weather - great for a walk or outdoor errands."
    case 3 => "🥶 Bundle up! Hot drinks and warm meals will keep you cozy."
    case 4 => "🔥 Stay cool and hydrated! Seek shade and avoid peak sun hours."
    case 5 => "💨 Secure loose items and maybe skip the outdoor workout today."
    case _ => "❄️ Beautiful but be careful! Hot cocoa weather for sure."
  }

  // ---------------------------------------------------------------- trigger and router

  /** `canHandle(input)`: some keyword occurs in the lower-cased input. */
  predicate CanHandle(input: string)
    ensures CanHandle(input) <==> exists k :: 0 <= k < |Keywords| && Contains(Lower(input), Keywords[k])
  {
    FirstContained(Lower(input), Keywords).Some?
  }

  /** The branch `process` takes, in the order of its `if` chain. */
  datatype Route = RemindRoute | HabitRoute | TipRoute | CalcRoute | WeatherRoute | TimeRoute | HelpRoute

  function RouteOf(input: string): Route {
    var lower := Lower(input);
    if Contains(lower, "remind") then RemindRoute
    else if Contains(lower, "habit") then HabitRoute
    else if Contains(lower, "tip") || Contains(lower, "advice") then TipRoute
    else if Contains(lower, "calc") || Contains(lower, "calculate") then CalcRoute
    else if Contains(lower, "weather") then WeatherRoute
    else if Contains(lower, "time") then TimeRoute
    else HelpRoute
  }

  /** `process(input)`: the first matching branch handles the original
      (not lower-cased) input. */
  function Process(f: Features, input: string, env: Env): (r: Answer)
    requires env.tipIndex < TipCount
    ensures RouteOf(input) !in {RemindRoute, HabitRoute} ==> r.features == f
    ensures RouteOf(input) == RemindRoute ==> r == HandleReminderRequest(f, input, env.stampId, env.stampText)
    ensures RouteOf(input) == HabitRoute ==> r == HandleHabitRequest(f, input, env.today)
    ensures RouteOf(input) == TipRoute ==> r.reply == DailyTip(env.tipIndex)
    ensures RouteOf(input) == CalcRoute ==> r.reply == env.calculate(CalcExpression(input))
    ensures RouteOf(input) == WeatherRoute ==> r.reply == WeatherAdvice(input)
    ensures RouteOf(input) == TimeRoute ==> r.reply == env.timeText
    ensures RouteOf(input) == HelpRoute ==> r.reply == HelpReply
    ensures Valid(f) ==> Valid(r.features)
  {
    match RouteOf(input)
    case RemindRoute => HandleReminderRequest(f, input, env.stampId, env.stampText)
    case HabitRoute => HandleHabitRequest(f, input, env.today)
    case TipRoute => Answer(f, DailyTip(env.tipIndex))
    case CalcRoute => Answer(f, env.calculate(CalcExpression(input)))
    case WeatherRoute => Answer(f, WeatherAdvice(input))
    case TimeRoute => Answer(f, env.timeText)
    case HelpRoute => Answer(f, HelpReply)
  }

  /** The router's first-match order: reminders, then habits, tips, the
      calculator, weather and time.  A line naming both reminders and habits
      is a reminder request; "calculate" adds nothing to "calc"; and a line
      whose only keywords are "track" or "schedule" passes `canHandle` but
      gets the help reply. */
  lemma RouterPriority(input: string)
    ensures Contains(Lower(input), "remind") ==> RouteOf(input) == RemindRoute
    ensures RouteOf(input) == HabitRoute <==>
              !Contains(Lower(input), "remind") && Contains(Lower(input), "habit")
    ensures RouteOf(input) == TipRoute <==>
              !Contains(Lower(input), "remind") && !Contains(Lower(input), "habit")
              && (Contains(Lower(input), "tip") || Contains(Lower(input), "advice"))
    ensures RouteOf(input) == WeatherRoute <==>
              !Contains(Lower(input), "remind") && !Contains(Lower(input), "habit")
              && !Contains(Lower(input), "tip") && !Contains(Lower(input), "advice")
              && !Contains(Lower(input), "calc") && Contains(Lower(input), "weather")
    ensures RouteOf(input) == TimeRoute <==>
              !Contains(Lower(input), "remind") && !Contains(Lower(input), "habit")
              && !Contains(Lower(input), "tip") && !Contains(Lower(input), "advice")
              && !Contains(Lower(input), "calc") && !Contains(Lower(input), "weather")
              && Contains(Lower(input), "time")
    ensures RouteOf(input) == CalcRoute <==>
              !Contains(Lower(input), "remind") && !Contains(Lower(input), "habit")
              && !Contains(Lower(input), "tip") && !Contains(Lower(input), "advice")
              && Contains(Lower(input), "calc")
    ensures CanHandle(input) && RouteOf(input) == HelpRoute <==>
              RouteOf(input) == HelpRoute
              && (Contains(Lower(input), "track") || Contains(Lower(input), "schedule"))
  {
    var lower := Lower(input);
    if Contains(lower, "calculate") {
      assert Contains("calculate", "calc") by { ContainsWhenOccurs("calculate", "calc", 0); }
      ContainsInfix(lower, "calculate", "calc");
    }
    if Contains(lower, "reminder") {
      assert Contains("reminder", "remind") by { ContainsWhenOccurs("reminder", "remind", 0); }
      ContainsInfix(lower, "reminder", "remind");
    }
    if CanHandle(input) && RouteOf(input) == HelpRoute {
      var k :| 0 <= k < |Keywords| && Contains(lower, Keywords[k]);
      assert Keywords[k] == "track" || Keywords[k] == "schedule";
    }
    if RouteOf(input) == HelpRoute && Contains(lower, "track") {
      assert Keywords[3] == "track";
    }
    if RouteOf(input) == HelpRoute && Contains(lower, "schedule") {
      assert Keywords[10] == "schedule";
    }
  }

  // ---------------------------------------------------------------- keyword stripping

  /** `w` (lower-case) starts `s`, ignoring case. */
  predicate StartsWithIgnoringCase(s: string, w: string) {
    |w| <= |s| && Lower(s[..|w|]) == w
  }

  /** `s.replace(/a|b/gi, '')`: scanning left to right, delete a match of `a`
      if one starts here, else a match of `b`, else keep the character.  The
      alternation tries `a` first, so when `a` is a prefix of `b` the longer
      word is never deleted whole. */
  function StripEither(s: string, a: string, b: string): (r: string)
    requires a != [] && b != []
    ensures |r| <= |s|
    decreases |s|
  {
    if s == [] then []
    else if StartsWithIgnoringCase(s, a) then StripEither(s[|a|..], a, b)
    else if StartsWithIgnoringCase(s, b) then StripEither(s[|b|..], a, b)
    else [s[0]] + StripEither(s[1..], a, b)
  }

  /** An alternative that extends the first one is dead: `/remind|reminder/`
      deletes exactly what `/remind/` deletes, and `/calc|calculate/` what
      `/calc/` deletes. */
  lemma {:induction false} ShadowedAlternative(s: string, a: string, b: string)
    requires a != [] && b != [] && StartsWith(b, a)
    ensures StripEither(s, a, b) == StripEither(s, a, a)
    decreases |s|
  {
    if s != [] {
      if StartsWithIgnoringCase(s, b) {
        assert s[..|b|][..|a|] == s[..|a|];
        LowerSlice(s[..|b|], 0, |a|);
        assert StartsWithIgnoringCase(s, a);
      }
      if StartsWithIgnoringCase(s, a) {
        ShadowedAlternative(s[|a|..], a, b);
      } else {
        ShadowedAlternative(s[1..], a, b);
      }
    }
  }

  /** "reminder x" becomes "er x": the regular expression deletes "remind". */
  lemma ReminderWordQuirk()
    ensures StripEither("reminder x", "remind", "reminder") == "er x"
  {
    var s := "reminder x";
    assert StartsWithIgnoringCase(s, "remind");
    var t := "er x";
    assert s[6..] == t;
    assert !StartsWithIgnoringCase(t, "remind");
    assert !StartsWithIgnoringCase(t[1..], "remind") && !StartsWithIgnoringCase(t[1..], "reminder");
    assert StripEither(t[3..], "remind", "reminder") == "x";
    assert StripEither(t[2..], "remind", "reminder") == " x";
    assert StripEither(t[1..], "remind", "reminder") == "r x";
  }

  /** The reminder text `handleReminderRequest` passes on. */
  function ReminderText(input: string): string {
    Trim(StripEither(input, "remind", "reminder"))
  }

  /** The habit name `handleHabitRequest` passes on. */
  function HabitText(input: string): string {
    Trim(StripEither(input, "habit", "track"))
  }

  /** The expression `handleCalculation` passes on. */
  function CalcExpression(input: string): string {
    Trim(StripEither(input, "calc", "calculate"))
  }

  /** `handleReminderRequest(input)`: the line without its keyword becomes
      the reminder, stored exactly as stripped; a line that is nothing but the
      keyword gets the usage hint. */
  function HandleReminderRequest(f: Features, input: string, id: int, created: string): (r: Answer)
    ensures r.features.habits == f.habits
    ensures IsBlank(ReminderText(input)) ==> r == Answer(f, RemindUsage)
    ensures !IsBlank(ReminderText(input)) ==>
              r.features.reminders == f.reminders + [Reminder(id, ReminderText(input), created)]
  {
    TrimIdempotent(StripEither(input, "remind", "reminder"));
    SetReminder(f, ReminderText(input), id, created)
  }

  /** `handleHabitRequest(input)`: the line without its keyword names the
      habit; a line that is nothing but the keyword gets the summary. */
  function HandleHabitRequest(f: Features, input: string, today: int): (r: Answer)
    ensures r.features.reminders == f.reminders
    ensures IsBlank(HabitText(input)) ==> r == Answer(f, HabitSummary(f))
    ensures Valid(f) ==> Valid(r.features)
    ensures Valid(f) && !IsBlank(HabitText(input)) ==>
              var h := HabitFor(r.features, Lower(HabitText(input)));
              h.Some? && today in h.value.dates
  {
    TrimIdempotent(StripEither(input, "habit", "track"));
    TrackHabit(f, HabitText(input), today)
  }

  /** "calculate 2+2" becomes "ulate 2+2": the regular expression deletes
      "calc". */
  lemma CalculateWordQuirk()
    ensures StripEither("calculate", "calc", "calculate") == "ulate"
  {
    var s := "calculate";
    assert StartsWithIgnoringCase(s, "calc");
    var t := "ulate";
    assert s[4..] == t;
    forall k | 0 <= k < |t|
      ensures StripEither(t[k..], "calc", "calculate") == [t[k]] + StripEither(t[k + 1..], "calc", "calculate")
    {
      KeptCharacter(t[k..], "calc", "calculate");
      assert t[k..][1..] == t[k + 1..];
    }
    assert t[5..] == [];
  }

  /** A text whose first character, lower-cased, starts neither word keeps
      that character. */
  lemma KeptCharacter(s: string, a: string, b: string)
    requires s != [] && a != [] && b != []
    requires LowerChar(s[0]) != a[0] && LowerChar(s[0]) != b[0]
    ensures StripEither(s, a, b) == [s[0]] + StripEither(s[1..], a, b)
  {
    if |a| <= |s| {
      assert Lower(s[..|a|])[0] == LowerChar(s[0]);
    }
    if |b| <= |s| {
      assert Lower(s[..|b|])[0] == LowerChar(s[0]);
    }
  }

  // ---------------------------------------------------------------- reminders

  const ReminderSetHead := "✅ Reminder set: \""
  const ReminderSetTail := "\"\n📅 Created: "
  const ReminderSetNote := "\n💡 Tip: I'll remember this for our conversation, but for actual notifications, consider using your phone's reminder app!"

  /** `setReminder(text)`: blank text is refused with the usage hint; any other
      text is stored trimmed, and echoed as given. */
  function SetReminder(f: Features, text: string, id: int, created: string): (r: Answer)
    ensures r.features.habits == f.habits
    ensures IsBlank(text) ==> r == Answer(f, RemindUsage)
    ensures !IsBlank(text) ==> r.features.reminders == f.reminders + [Reminder(id, Trim(text), created)]
  {
    if IsBlank(text) then Answer(f, RemindUsage)
    else
      Answer(f.(reminders := f.reminders + [Reminder(id, Trim(text), created)]),
             ReminderSetHead + text + (ReminderSetTail + created + ReminderSetNote))
  }

  /** The confirmation of a stored reminder repeats the text as the user gave
      it. */
  lemma SetReminderEchoes(f: Features, text: string, id: int, created: string)
    requires !IsBlank(text)
    ensures Contains(SetReminder(f, text, id, created).reply, text)
  {
    ContainsMiddle(ReminderSetHead, text, ReminderSetTail + created + ReminderSetNote);
  }

  function ReminderEntries(rs: seq<Reminder>, first: nat): (r: string)
    ensures forall k {:trigger Contains(r, rs[k].text)} :: 0 <= k < |rs| ==> Contains(r, rs[k].text)
    decreases |rs|
  {
    if rs == [] then []
    else
      var head := NatToString(first) + ". " + rs[0].text + "\n   📅 Created: " + rs[0].created + "\n\n";
      var rest := ReminderEntries(rs[1..], first + 1);
      assert Contains(head, rs[0].text) by {
        ContainsMiddle(NatToString(first) + ". ", rs[0].text, "\n   📅 Created: " + rs[0].created + "\n\n");
        assert head == NatToString(first) + ". " + rs[0].text + ("\n   📅 Created: " + rs[0].created + "\n\n");
      }
      forall k | 0 <= k < |rs| ensures Contains(head + rest, rs[k].text) {
        if k == 0 {
          ContainsAppend(head, rest, rs[0].text);
        } else {
          assert rs[k] == rs[1..][k - 1];
          ContainsAppend(head, rest, rs[k].text);
        }
      }
      head + rest
  }

  /** `getReminders()`: the fixed text when there are none, otherwise a
      numbered list that names every stored reminder. */
  function GetReminders(f: Features): (r: string)
    ensures f.reminders == [] ==> r == NoRemindersText
    ensures forall k {:trigger Contains(r, f.reminders[k].text)} :: 0 <= k < |f.reminders| ==> Contains(r, f.reminders[k].text)
  {
    if f.reminders == [] then NoRemindersText
    else
      var entries := ReminderEntries(f.reminders, 1);
      forall k | 0 <= k < |f.reminders| ensures Contains("📝 Your Reminders:\n\n" + entries, f.reminders[k].text) {
        ContainsAppend("📝 Your Reminders:\n\n", entries, f.reminders[k].text);
      }
      "📝 Your Reminders:\n\n" + entries
  }

  // ---------------------------------------------------------------- habits

  /** What every habit entry satisfies: the key is the lower-cased display
      name, the days are distinct and non-empty, and the stored streak is the
      streak of those days. */
  ghost predicate HabitValid(h: Habit) {
    h.key == Lower(h.name) && h.dates != [] && Streak.NoDuplicates(h.dates)
    && h.streak == Streak.StreakOf(h.dates)
  }

  /** At most one entry per key, as in a `Map`. */
  predicate DistinctKeys(hs: seq<Habit>) {
    forall i, j :: 0 <= i < j < |hs| ==> hs[i].key != hs[j].key
  }

  ghost predicate ValidHabits(hs: seq<Habit>) {
    && DistinctKeys(hs)
    && (forall i :: 0 <= i < |hs| ==> HabitValid(hs[i]))
  }

  ghost predicate Valid(f: Features) {
    ValidHabits(f.habits)
  }

  /** The position of the entry for `key` (`habits.has(key)` / `get(key)`). */
  function FindHabit(habits: seq<Habit>, key: string): (r: Option<nat>)
    ensures r.Some? ==> r.value < |habits| && habits[r.value].key == key
    ensures r.None? <==> forall k :: 0 <= k < |habits| ==> habits[k].key != key
    ensures r.Some? ==> forall k :: 0 <= k < r.value ==> habits[k].key != key
  {
    if habits == [] then None
    else if habits[0].key == key then Some(0)
    else
      match FindHabit(habits[1..], key)
      case None => None
      case Some(k) => Some(k + 1)
  }

  /** The entry stored for `key`, if any. */
  function HabitFor(f: Features, key: string): Option<Habit> {
    match FindHabit(f.habits, key)
    case None => None
    case Some(i) => Some(f.habits[i])
  }

  lemma FindHabitUnique(habits: seq<Habit>, key: string, i: nat)
    requires DistinctKeys(habits)
    requires i < |habits| && habits[i].key == key
    ensures FindHabit(habits, key) == Some(i)
  {
  }

  /** `FindHabit` only looks at the keys. */
  lemma {:induction false} FindHabitSameKeys(a: seq<Habit>, b: seq<Habit>, key: string)
    requires |a| == |b| && forall k :: 0 <= k < |a| ==> a[k].key == b[k].key
    ensures FindHabit(a, key) == FindHabit(b, key)
    decreases |a|
  {
    if a != [] && a[0].key != key {
      FindHabitSameKeys(a[1..], b[1..], key);
    }
  }

  lemma {:induction false} FindHabitAppend(hs: seq<Habit>, h: Habit, key: string)
    requires h.key != key
    ensures FindHabit(hs + [h], key) == FindHabit(hs, key)
    decreases |hs|
  {
    if hs != [] {
      assert (hs + [h])[1..] == hs[1..] + [h];
      FindHabitAppend(hs[1..], h, key);
    }
  }

  function TrackedReply(h: Habit): string {
    "🎯 Habit \"" + h.name + "\" tracked for today!\n🔥 Current streak: " + NatToString(h.streak)
    + " days\n📊 Total completions: " + NatToString(|h.dates|)
  }

  function AlreadyTrackedReply(h: Habit): string {
    "✅ You've already tracked \"" + h.name + "\" today!\n🔥 Current streak: " + NatToString(h.streak) + " days"
  }

  /** The habit key of a name: `habitName.trim().toLowerCase()`. */
  function HabitKey(habitName: string): string {
    Lower(Trim(habitName))
  }

  /** `trackHabit(habitName)` on calendar day `today`: a blank name shows the
      summary; otherwise the entry for the name's key is created if missing
      and today is recorded on it. */
  function TrackHabit(f: Features, habitName: string, today: int): (r: Answer)
    ensures r.features.reminders == f.reminders
    ensures IsBlank(habitName) ==> r == Answer(f, HabitSummary(f))
    ensures Valid(f) ==> Valid(r.features)
    ensures Valid(f) && !IsBlank(habitName) ==>
              var h := HabitFor(r.features, HabitKey(habitName));
              h.Some? && today in h.value.dates
  {
    if IsBlank(habitName) then Answer(f, HabitSummary(f))
    else
      var r := TrackKey(f, HabitKey(habitName), Trim(habitName), today);
      assert Valid(f) ==> Valid(r.features) by {
        if Valid(f) { TrackKeyValid(f, HabitKey(habitName), Trim(habitName), today); }
      }
      r
  }

  /** The habit an entry for `key` starts from: the stored one, or a fresh
      one named `name` with no days. */
  function Prior(f: Features, key: string, name: string): Habit {
    match HabitFor(f, key)
    case Some(h) => h
    case None => Habit(key, name, [], 0)
  }

  /** In a zone whose UTC offset does not change over the tracked days, the
      streak a recorded day stores is the one `calculateStreak` computes from
      the local-midnight millisecond values of the days. */
  lemma MarkDoneAtFixedOffset(h: Habit, today: int, utcOffsetMs: int)
    ensures MarkDone(h, today).streak
            == Streak.StreakAsWritten(Streak.Midnights(h.dates + [today], utcOffsetMs))
  {
    Streak.AsWrittenAgreesAtFixedOffset(h.dates + [today], utcOffsetMs);
  }

  /** Recording `today` on the entry for `key` (created as `name` if
      missing). If today is already recorded the features are unchanged and
      the reply reports the stored streak; otherwise today is appended to the
      entry's days, the streak is recomputed, and the reply reports the new
      entry. */
  function TrackKey(f: Features, key: string, name: string, today: int): (r: Answer)
    ensures r.features.reminders == f.reminders
    ensures DistinctKeys(f.habits) ==> DistinctKeys(r.features.habits)
    ensures DistinctKeys(f.habits) && today in Prior(f, key, name).dates ==>
              r == Answer(f, AlreadyTrackedReply(Prior(f, key, name)))
    ensures DistinctKeys(f.habits) && today !in Prior(f, key, name).dates ==>
              && HabitFor(r.features, key) == Some(MarkDone(Prior(f, key, name), today))
              && r.reply == TrackedReply(MarkDone(Prior(f, key, name), today))
  {
    var habits := WithEntry(f.habits, key, name);
    var i := FindHabit(habits, key).value;
    var h := habits[i];
    assert DistinctKeys(f.habits) ==> DistinctKeys(habits) && h == Prior(f, key, name) by {
      if DistinctKeys(f.habits) && FindHabit(f.habits, key).Some? {
        FindHabitUnique(f.habits, key, i);
      }
    }
    if today !in h.dates then
      var g := f.(habits := habits[i := MarkDone(h, today)]);
      assert DistinctKeys(f.habits) ==> HabitFor(g, key) == Some(MarkDone(h, today)) by {
        if DistinctKeys(f.habits) { FindHabitUnique(g.habits, key, i); }
      }
      Answer(g, TrackedReply(MarkDone(h, today)))
    else
      Answer(f, AlreadyTrackedReply(h))
  }

  /** `habits` with a fresh entry (no days, streak 0) appended for `key` when
      none exists yet. */
  function WithEntry(habits: seq<Habit>, key: string, name: string): (r: seq<Habit>)
    ensures FindHabit(r, key).Some?
    ensures FindHabit(habits, key).Some? ==> r == habits
    ensures FindHabit(habits, key).None? ==> r == habits + [Habit(key, name, [], 0)]
    ensures FindHabit(habits, key).None? ==> FindHabit(r, key) == Some(|habits|)
  {
    if FindHabit(habits, key).None? then
      var r := habits + [Habit(key, name, [], 0)];
      assert r[|habits|].key == key;
      r
    else habits
  }

  /** A habit with `today` appended to its days and its streak recomputed. */
  function MarkDone(h: Habit, today: int): (r: Habit)
    ensures r.key == h.key && r.name == h.name
    ensures r.dates == h.dates + [today] && |r.dates| == |h.dates| + 1
    ensures r.streak == Streak.StreakOf(r.dates)
  {
    h.(dates := h.dates + [today], streak := Streak.StreakOf(h.dates + [today]))
  }

  /** Recording a day keeps every entry valid when the key is the lower-cased
      name. */
  lemma TrackKeyValid(f: Features, key: string, name: string, today: int)
    requires Valid(f) && key == Lower(name)
    ensures Valid(TrackKey(f, key, name, today).features)
  {
    var habits := WithEntry(f.habits, key, name);
    var i := FindHabit(habits, key).value;
    if today !in habits[i].dates {
      if FindHabit(f.habits, key).None? {
        TrackNewEntry(f.habits, key, name, today, habits, i);
      } else {
        TrackExistingValid(f.habits, i, today);
      }
    }
  }

  lemma TrackNewEntry(hs: seq<Habit>, key: string, name: string, today: int, habits: seq<Habit>, i: nat)
    requires ValidHabits(hs) && key == Lower(name)
    requires forall k :: 0 <= k < |hs| ==> hs[k].key != key
    requires habits == hs + [Habit(key, name, [], 0)]
    requires i < |habits| && habits[i].key == key
    ensures ValidHabits(habits[i := MarkDone(habits[i], today)])
  {
    assert i == |hs|;
    assert [] + [today] == [today];
    assert habits[i := MarkDone(habits[i], today)]
           == hs + [Habit(key, name, [today], Streak.StreakOf([today]))];
    TrackNewValid(hs, key, name, today);
  }

  lemma TrackExistingValid(hs: seq<Habit>, i: nat, today: int)
    requires ValidHabits(hs)
    requires i < |hs| && today !in hs[i].dates
    ensures ValidHabits(hs[i := MarkDone(hs[i], today)])
  {
    var h := hs[i];
    assert HabitValid(h);
    AppendFreshDay(h.dates, today);
  }

  lemma TrackNewValid(hs: seq<Habit>, key: string, name: string, today: int)
    requires ValidHabits(hs) && key == Lower(name)
    requires forall k :: 0 <= k < |hs| ==> hs[k].key != key
    ensures ValidHabits(hs + [Habit(key, name, [today], Streak.StreakOf([today]))])
  {
  }

  lemma AppendFreshDay(dates: seq<int>, today: int)
    requires Streak.NoDuplicates(dates) && today !in dates
    ensures Streak.NoDuplicates(dates + [today])
  {
  }

  // ---------------------------------------------------------------- habit properties

  /** Recording a day on one key leaves every other key's entry as it was. */
  lemma TrackKeyOthersUnchanged(f: Features, key: string, name: string, today: int, other: string)
    requires other != key
    ensures HabitFor(TrackKey(f, key, name, today).features, other) == HabitFor(f, other)
  {
    var habits := WithEntry(f.habits, key, name);
    var i := FindHabit(habits, key).value;
    if today !in habits[i].dates {
      var hs := habits[i := MarkDone(habits[i], today)];
      FindHabitSameKeys(hs, habits, other);
      if FindHabit(f.habits, key).None? {
        FindHabitAppend(f.habits, Habit(key, name, [], 0), other);
        assert forall k :: 0 <= k < |f.habits| ==> hs[k] == f.habits[k];
      }
    }
  }

  /** One `trackHabit` call: an entry for the name's key exists afterwards;
      if the habit was already tracked today nothing changes; otherwise
      today is appended to its days (exactly one more completion), its streak
      is recomputed, the display name of an existing entry is kept (a new
      entry takes the trimmed name), and no other habit changes. */
  lemma TrackHabitEffect(f: Features, habitName: string, today: int)
    requires Valid(f) && !IsBlank(habitName)
    ensures var key := HabitKey(habitName);
            var before := HabitFor(f, key);
            var r := TrackHabit(f, habitName, today);
            var after := HabitFor(r.features, key);
            && after.Some?
            && (before.Some? && today in before.value.dates ==>
                  r == Answer(f, AlreadyTrackedReply(before.value)))
            && (!(before.Some? && today in before.value.dates) ==>
                  && after.value.dates == (if before.Some? then before.value.dates else []) + [today]
                  && |after.value.dates| == (if before.Some? then |before.value.dates| else 0) + 1
                  && after.value.name == (if before.Some? then before.value.name else Trim(habitName))
                  && after.value.streak == Streak.StreakOf(after.value.dates)
                  && r.reply == TrackedReply(after.value))
            && (forall other :: other != key ==> HabitFor(r.features, other) == HabitFor(f, other))
  {
    var key := HabitKey(habitName);
    assert DistinctKeys(f.habits);
    forall other | other != key
      ensures HabitFor(TrackHabit(f, habitName, today).features, other) == HabitFor(f, other)
    {
      TrackKeyOthersUnchanged(f, key, Trim(habitName), today, other);
    }
  }

  /** Tracking the same habit twice on one day changes nothing the second
      time, and the second reply reports the unchanged streak. */
  lemma TrackHabitIdempotent(f: Features, habitName: string, today: int)
    requires Valid(f)
    ensures var g := TrackHabit(f, habitName, today).features;
            TrackHabit(g, habitName, today).features == g
    ensures !IsBlank(habitName) ==>
            var g := TrackHabit(f, habitName, today).features;
            TrackHabit(g, habitName, today).reply == AlreadyTrackedReply(HabitFor(g, HabitKey(habitName)).value)
  {
    if !IsBlank(habitName) {
      var g := TrackHabit(f, habitName, today).features;
      TrackHabitEffect(g, habitName, today);
    }
  }

  /** Names that differ only in case or surrounding blanks share one entry:
      once the entry exists they track identically, and the display name is
      the one given first. */
  lemma TrackHabitIgnoresCase(f: Features, n1: string, n2: string, today: int)
    requires Valid(f) && !IsBlank(n1) && HabitKey(n1) == HabitKey(n2)
    ensures !IsBlank(n2)
    ensures HabitFor(f, HabitKey(n1)).Some? ==> TrackHabit(f, n1, today) == TrackHabit(f, n2, today)
    ensures HabitFor(f, HabitKey(n1)).None? ==>
              var g := TrackHabit(f, n1, today).features;
              HabitFor(TrackHabit(g, n2, today).features, HabitKey(n1)).value.name == Trim(n1)
  {
    assert |Trim(n2)| == |Lower(Trim(n2))| == |Lower(Trim(n1))| == |Trim(n1)|;
    TrackHabitEffect(f, n1, today);
    if HabitFor(f, HabitKey(n1)).None? {
      var g := TrackHabit(f, n1, today).features;
      TrackHabitEffect(g, n2, today);
    }
  }

  /** Tracking a habit on each of the days `first .. first + n - 1`. */
  function TrackDays(f: Features, habitName: string, first: int, n: nat): Features
    decreases n
  {
    if n == 0 then f else TrackHabit(TrackDays(f, habitName, first, n - 1), habitName, first + n - 1).features
  }

  lemma TrackDaysValid(f: Features, habitName: string, first: int, n: nat)
    requires Valid(f)
    ensures Valid(TrackDays(f, habitName, first, n))
    ensures DistinctKeys(TrackDays(f, habitName, first, n).habits)
  {
    if n > 0 { TrackDaysValid(f, habitName, first, n - 1); }
  }

  /** The last of `n` tracked days records that day on the entry. */
  lemma TrackDaysStep(f: Features, habitName: string, first: int, n: nat)
    requires !IsBlank(habitName) && n >= 1
    ensures TrackDays(f, habitName, first, n)
            == TrackKey(TrackDays(f, habitName, first, n - 1), HabitKey(habitName), Trim(habitName), first + n - 1).features
  {
  }

  /** Recording a day not yet among an entry's days appends it. */
  lemma TrackKeyFreshDay(g: Features, key: string, name: string, day: int, dates: seq<int>, k: nat)
    requires DistinctKeys(g.habits)
    requires Prior(g, key, name) == Habit(key, name, dates, k)
    requires day !in dates
    ensures HabitFor(TrackKey(g, key, name, day).features, key)
            == Some(Habit(key, name, dates + [day], Streak.StreakOf(dates + [day])))
  {
  }

  /** Recording the day after a run of `n - 1` days extends it to `n`. */
  lemma ExtendRun(g: Features, key: string, name: string, first: int, n: nat)
    requires DistinctKeys(g.habits) && n >= 1
    requires HabitFor(g, key) == (if n == 1 then None else Some(Habit(key, name, Streak.DayRange(first, n - 1), n - 1)))
    ensures HabitFor(TrackKey(g, key, name, first + n - 1).features, key)
            == Some(Habit(key, name, Streak.DayRange(first, n), n))
  {
    Streak.DayRangeLast(first, n);
    if n == 1 {
      TrackKeyFreshDay(g, key, name, first, [], 0);
    } else {
      TrackKeyFreshDay(g, key, name, first + n - 1, Streak.DayRange(first, n - 1), n - 1);
    }
    Streak.StreakOfDayRange(first, n);
  }

  /** One more consecutive day, stated on `TrackDays`. */
  lemma TrackDaysExtendRun(f: Features, habitName: string, first: int, n: nat, key: string, name: string)
    requires n >= 1 && key == HabitKey(habitName) && name == Trim(habitName)
    requires DistinctKeys(TrackDays(f, habitName, first, n - 1).habits)
    requires TrackDays(f, habitName, first, n)
             == TrackKey(TrackDays(f, habitName, first, n - 1), key, name, first + n - 1).features
    requires HabitFor(TrackDays(f, habitName, first, n - 1), key)
             == (if n == 1 then None else Some(Habit(key, name, Streak.DayRange(first, n - 1), n - 1)))
    ensures HabitFor(TrackDays(f, habitName, first, n), key) == Some(Habit(key, name, Streak.DayRange(first, n), n))
  {
    ExtendRun(TrackDays(f, habitName, first, n - 1), key, name, first, n);
  }

  /** A new habit tracked on `n` consecutive days has those `n` days and a
      streak of `n`. */
  lemma {:induction false} ConsecutiveDaysStreak(f: Features, habitName: string, first: int, n: nat)
    requires Valid(f) && !IsBlank(habitName) && HabitFor(f, HabitKey(habitName)).None? && n >= 1
    ensures HabitFor(TrackDays(f, habitName, first, n), HabitKey(habitName))
            == Some(Habit(HabitKey(habitName), Trim(habitName), Streak.DayRange(first, n), n))
    decreases n
  {
    if n > 1 {
      ConsecutiveDaysStreak(f, habitName, first, n - 1);
    }
    TrackDaysValid(f, habitName, first, n - 1);
    TrackDaysStep(f, habitName, first, n);
    TrackDaysExtendRun(f, habitName, first, n, HabitKey(habitName), Trim(habitName));
  }

  /** After a gap of at least one untracked day, tracking again starts a new
      streak of 1. */
  lemma GapResetsStreak(f: Features, habitName: string, today: int)
    requires Valid(f) && !IsBlank(habitName)
    requires HabitFor(f, HabitKey(habitName)).Some?
    requires forall d :: d in HabitFor(f, HabitKey(habitName)).value.dates ==> d < today - 1
    ensures HabitFor(TrackHabit(f, habitName, today).features, HabitKey(habitName)).value.streak == 1
  {
    var key, name := HabitKey(habitName), Trim(habitName);
    var h := HabitFor(f, key).value;
    assert h == f.habits[FindHabit(f.habits, key).value];
    assert HabitValid(h);
    assert h == Prior(f, key, name);
    assert DistinctKeys(f.habits);
    assert HabitFor(TrackHabit(f, habitName, today).features, key) == Some(MarkDone(h, today));
    Streak.StreakAfterGap(h.dates, today);
  }

  function SummaryEntries(hs: seq<Habit>): (r: string)
    ensures forall k {:trigger Contains(r, hs[k].name)} :: 0 <= k < |hs| ==> Contains(r, hs[k].name)
    decreases |hs|
  {
    if hs == [] then []
    else
      var tail := "\n   🔥 Streak: " + NatToString(hs[0].streak) + " days\n   📈 Total: "
                  + NatToString(|hs[0].dates|) + " completions\n\n";
      var head := "🎯 " + hs[0].name + tail;
      var rest := SummaryEntries(hs[1..]);
      assert Contains(head, hs[0].name) by { ContainsMiddle("🎯 ", hs[0].name, tail); }
      forall k | 0 <= k < |hs| ensures Contains(head + rest, hs[k].name) {
        if k == 0 {
          ContainsAppend(head, rest, hs[0].name);
        } else {
          assert hs[k] == hs[1..][k - 1];
          ContainsAppend(head, rest, hs[k].name);
        }
      }
      head + rest
  }

  /** `getHabitSummary()`: the fixed text when no habit exists, otherwise one
      block per habit, in insertion order, naming each one. */
  function HabitSummary(f: Features): (r: string)
    ensures f.habits == [] ==> r == NoHabitsText
    ensures forall k {:trigger Contains(r, f.habits[k].name)} :: 0 <= k < |f.habits| ==> Contains(r, f.habits[k].name)
  {
    if f.habits == [] then NoHabitsText
    else
      var entries := SummaryEntries(f.habits);
      forall k | 0 <= k < |f.habits| ensures Contains("📊 Your Habit Summary:\n\n" + entries, f.habits[k].name) {
        ContainsAppend("📊 Your Habit Summary:\n\n", entries, f.habits[k].name);
      }
      "📊 Your Habit Summary:\n\n" + entries
  }

  // ---------------------------------------------------------------- tips and weather

  /** `getDailyTip()` with the random pick as an index. */
  function DailyTip(index: nat): (r: string)
    requires index < TipCount
    ensures exists k :: 0 <= k < TipCount && r == Tip(k) + TipSuffix
  {
    Tip(index) + TipSuffix
  }

  /** `getWeatherAdvice(condition)`: the advice of the first table key, in
      table order, that the lower-cased condition contains, else the default. */
  function WeatherAdvice(condition: string): (r: string)
    ensures (forall k :: 0 <= k < |WeatherKeys| ==> !Contains(Lower(condition), WeatherKeys[k]))
            ==> r == WeatherDefault
    ensures forall k :: (0 <= k < |WeatherKeys| && Contains(Lower(condition), WeatherKeys[k])
                         && (forall j :: 0 <= j < k ==> !Contains(Lower(condition), WeatherKeys[j])))
                        ==> r == WeatherTip(k)
  {
    match FirstContained(Lower(condition), WeatherKeys)
    case None => WeatherDefault
    case Some(k) =>
      assert forall i :: (0 <= i < |WeatherKeys| && Contains(Lower(condition), WeatherKeys[i])
                          && (forall j :: 0 <= j < i ==> !Contains(Lower(condition), WeatherKeys[j])))
                         ==> i == k by {
        forall i | 0 <= i < |WeatherKeys| && Contains(Lower(condition), WeatherKeys[i])
                   && (forall j :: 0 <= j < i ==> !Contains(Lower(condition), WeatherKeys[j]))
          ensures i == k
        {
          FirstContainedIsFirst(Lower(condition), WeatherKeys, i);
        }
      }
      WeatherTip(k)
  }
}

=== FILE: interface_py.dfy ===
/** One line typed into the Python chatbot (`ChatInterface.process_user_input`
    in interface.py): the commands, the empty-line check, and a generated
    reply that is cleaned up and remembered.  The model call is a function
    from prompt to outcome; the model loader's own state never changes here. */
module ChatInterfacePy {
  import opened Wrappers
  import opened Strings
  import opened ChatMemoryPy
  import ModelLoaderPy

  const ExitWords: seq<string> := ["/exit", "/quit", "exit", "quit"]
  const ClearWords: seq<string> := ["/clear", "/reset"]
  const HistoryWords: seq<string> := ["/history", "/memory"]
  const HelpWord := "/help"

  const Cleared := "🔄 Conversation history cleared!"
  const EmptyPrompt := "Please enter a message or type '/help' for commands."
  const ErrorPrefix := "Sorry, I encountered an error: "
  const Understood := "I understand, but I'm not sure how to respond."

  /** `get_help_text()`, already stripped. */
  const HelpText :=
    "Available commands:\n" +
    "• /exit or /quit - Exit the chatbot\n" +
    "• /clear or /reset - Clear conversation history\n" +
    "• /history or /memory - Show conversation history\n" +
    "• /help - Show this help message\n" +
    "\n" +
    "Just type naturally to chat with the bot!"

  /** What a processed line leaves behind: the memory and the reply, `None`
      when the line asks to leave. */
  datatype Outcome = Outcome(memory: Memory, reply: Option<string>)

  /** The reply to `/history`: `📊 Memory: <stored>/<window> turns stored`. */
  function HistoryReply(m: Memory): string {
    "📊 Memory: " + GetHistorySummary(m).memoryUsage + " turns stored"
  }

  /** The stripped, lower-cased line names one of the commands. */
  predicate IsCommand(line: string) {
    var word := Lower(Trim(line));
    word in ExitWords || word in ClearWords || word in HistoryWords || word == HelpWord
  }

  /** A line that goes to the model: not blank and not a command. */
  predicate IsChat(line: string) {
    Trim(line) != [] && !IsCommand(line)
  }

  // ---------------------------------------------------------------- clean-up

  /** The four `replace(marker, "")` calls, in order. */
  function StripMarkers(s: string): (r: string)
    ensures |r| <= |s|
  {
    RemoveAll(RemoveAll(RemoveAll(RemoveAll(s, "Q:"), "A:"), "Human:"), "Assistant:")
  }

  /** A reply with no marker in it passes the marker removal untouched. */
  lemma StripMarkersKeepsPlain(s: string)
    requires !Contains(s, "Q:") && !Contains(s, "A:") && !Contains(s, "Human:") && !Contains(s, "Assistant:")
    ensures StripMarkers(s) == s
  {
  }

  /** The echo removal: when the lower-cased reply contains the lower-cased
      input, every occurrence of the input as typed (case matters here) is
      deleted and the rest stripped. */
  function DropEcho(s: string, userInput: string): (r: string)
    ensures !Contains(Lower(s), Lower(userInput)) ==> r == s
    ensures Contains(Lower(s), Lower(userInput)) ==> r == Trim(RemoveAll(s, userInput))
    ensures Contains(Lower(s), Lower(userInput)) ==> |r| <= |s| && (r == [] || !IsSpace(r[0]))
    ensures userInput != [] && Contains(s, userInput) ==> |r| <= |s| - |userInput|
    ensures IsBlank(s) ==> IsBlank(r)
  {
    if Contains(Lower(s), Lower(userInput)) then
      TrimInfix(RemoveAll(s, userInput));
      Trim(RemoveAll(s, userInput))
    else
      ContainsLower(s, userInput);
      s
  }

  /** Text that occurs in `s` occurs in it ignoring case too. */
  lemma ContainsLower(s: string, p: string)
    ensures Contains(s, p) ==> Contains(Lower(s), Lower(p))
  {
    if Contains(s, p) {
      var k :| 0 <= k <= |s| - |p| && OccursAt(s, p, k);
      LowerSlice(s, k, k + |p|);
      ContainsWhenOccurs(Lower(s), Lower(p), k);
    }
  }

  /** A reply that only repeats the input loses it entirely. */
  lemma EchoDropped(userInput: string)
    requires userInput != []
    ensures DropEcho(userInput, userInput) == []
  {
    ContainsWhenOccurs(Lower(userInput), Lower(userInput), 0);
    assert OccursAt(userInput, userInput, 0);
    RemoveAllAtFirst(userInput, userInput, 0);
    assert userInput[|userInput|..] == [];
  }

  /** An input echoed at the head of a reply, with no further copy after it,
      leaves the rest of the reply, stripped. */
  lemma EchoAtHeadDropped(userInput: string, rest: string)
    requires userInput != [] && !Contains(rest, userInput)
    ensures DropEcho(userInput + rest, userInput) == Trim(rest)
  {
    var s := userInput + rest;
    assert s[..|userInput|] == userInput && s[|userInput|..] == rest;
    assert OccursAt(s, userInput, 0);
    ContainsWhenOccurs(s, userInput, 0);
    ContainsLower(s, userInput);
    RemoveAllAtFirst(s, userInput, 0);
    assert s[..0] + RemoveAll(rest, userInput) == rest;
  }

  /** `response.capitalize()` when the first character is not upper-case;
      `capitalize` also lower-cases everything after the first character. */
  function CapitalizeFirst(s: string): (r: string)
    ensures |r| == |s|
    ensures s != [] ==> !IsLower(r[0])
    ensures s != [] && IsUpper(s[0]) ==> r == s
    ensures s != [] && !IsUpper(s[0]) ==> r[1..] == Lower(s[1..])
  {
    if s != [] && !IsUpper(s[0]) then Capitalize(s) else s
  }

  /** The length limit: a reply over 200 characters with a full stop in it is
      cut to its first two `.`-pieces joined by `. `, plus a full stop. */
  function Shorten(s: string): (r: string)
    ensures |s| <= 200 || '.' !in s ==> r == s
    ensures |s| > 200 && '.' in s ==> r == Split(s, '.')[0] + ". " + Split(s, '.')[1] + "."
  {
    if |s| > 200 then
      var pieces := Split(s, '.');
      if |pieces| > 1 then
        assert Join(pieces[..2], ". ") == pieces[0] + ". " + pieces[1];
        Join(pieces[..2], ". ") + "."
      else s
    else s
  }

  /** A shortened reply holds exactly two sentences: it splits on `.` into the
      first piece of the original, the second piece after a space, and the
      empty rest after the final full stop. */
  lemma ShortenKeepsTwoSentences(s: string)
    requires |s| > 200 && '.' in s
    ensures var pieces := Split(s, '.');
            Split(Shorten(s), '.') == [pieces[0], " " + pieces[1], ""]
  {
    var pieces := Split(s, '.');
    TwoSentencesSplit(pieces[0], pieces[1]);
  }

  lemma TwoSentencesSplit(first: string, second: string)
    requires '.' !in first && '.' !in second
    ensures Split(first + ". " + second + ".", '.') == [first, " " + second, ""]
  {
    var parts := [first, " " + second, ""];
    assert Join(parts[2..], ".") == "";
    assert Join(parts[1..], ".") == " " + second + "." + "";
    assert Join(parts, ".") == first + "." + (" " + second + "." + "");
    assert first + ". " + second + "." == first + "." + (" " + second + "." + "");
    SplitJoin(parts, '.');
  }

  /** `clean_response(response, user_input)`. */
  function CleanResponse(response: string, userInput: string): (r: string)
    ensures response == [] ==> r == ModelLoaderPy.NotSure
    ensures response != [] && IsBlank(response) ==> r == Understood
    ensures r != [] && Trim(r) == r
    ensures response != [] ==>
              var shaped := Shorten(CapitalizeFirst(DropEcho(StripMarkers(response), userInput)));
              r == (if Trim(shaped) != [] then Trim(shaped) else Understood)
  {
    if response == [] then
      TrimmedReply(ModelLoaderPy.NotSure);
      ModelLoaderPy.NotSure
    else
      var shaped := Shorten(CapitalizeFirst(DropEcho(StripMarkers(response), userInput)));
      BlankStaysBlank(response, userInput);
      if Trim(shaped) != [] then
        TrimIdempotent(shaped);
        Trim(shaped)
      else
        TrimmedReply(Understood);
        Understood
  }

  /** Every clean-up step maps whitespace to whitespace. */
  lemma BlankStaysBlank(response: string, userInput: string)
    ensures IsBlank(response) ==>
              IsBlank(Shorten(CapitalizeFirst(DropEcho(StripMarkers(response), userInput))))
  {
    if IsBlank(response) {
      var t := DropEcho(StripMarkers(response), userInput);
      var c := CapitalizeFirst(t);
      if t != [] && !IsUpper(t[0]) {
        BlankLower(t[1..]);
        assert c == [UpperChar(t[0])] + Lower(t[1..]);
      }
      assert '.' !in c;
    }
  }

  /** A reply that is nothing but the (stripped, non-blank, marker-free)
      input gets the fallback text: the echo is removed and nothing is left. */
  lemma EchoOnlyReply(userInput: string)
    requires userInput != [] && Trim(userInput) == userInput
    requires !Contains(userInput, "Q:") && !Contains(userInput, "A:") && !Contains(userInput, "Human:") && !Contains(userInput, "Assistant:")
    ensures CleanResponse(userInput, userInput) == Understood
  {
    StripMarkersKeepsPlain(userInput);
    EchoDropped(userInput);
  }

  /** The two fixed replies have no surrounding whitespace. */
  lemma TrimmedReply(reply: string)
    requires reply == ModelLoaderPy.NotSure || reply == Understood
    ensures reply != [] && Trim(reply) == reply
  {
    if reply == Understood {
      var head, tail := "I understand, but I'm not sure", " how to respond.";
      assert Understood == head + tail;
      assert Understood[0] == head[0] && Understood[|Understood| - 1] == tail[|tail| - 1];
    } else {
      assert ModelLoaderPy.NotSure[0] == 'I' && ModelLoaderPy.NotSure[|ModelLoaderPy.NotSure| - 1] == '.';
    }
    TrimOfTrimmed(reply);
  }

  /** A reply that is already clean comes back unchanged: it starts with a
      capital, carries no marker and no echo of the input, is at most 200
      characters and has no surrounding whitespace. */
  lemma CleanReplyUnchanged(reply: string, userInput: string)
    requires reply != [] && IsUpper(reply[0]) && Trim(reply) == reply && |reply| <= 200
    requires !Contains(reply, "Q:") && !Contains(reply, "A:") && !Contains(reply, "Human:") && !Contains(reply, "Assistant:")
    requires !Contains(Lower(reply), Lower(userInput))
    ensures CleanResponse(reply, userInput) == reply
  {
    StripMarkersKeepsPlain(reply);
  }

  // ---------------------------------------------------------------- routing

  /** `process_user_input(user_input)` on memory `m`, with `generate` the
      model call on the prompt it is given. */
  function ProcessUserInput(m: Memory, input: string, generate: string -> Attempt<string>): (r: Outcome)
    ensures r.reply.None? <==> Lower(Trim(input)) in ExitWords
    ensures r.reply.None? ==> r.memory == m
    ensures Lower(Trim(input)) in ClearWords ==> r == Outcome(ClearHistory(m), Some(Cleared))
    ensures Lower(Trim(input)) in HistoryWords ==> r == Outcome(m, Some(HistoryReply(m)))
    ensures Lower(Trim(input)) == HelpWord ==> r == Outcome(m, Some(HelpText))
    ensures Trim(input) == [] ==> r == Outcome(m, Some(EmptyPrompt))
    ensures IsChat(input) ==>
              match generate(GetSimpleContext(m, Trim(input)))
              case Threw(e) => r == Outcome(m, Some(ErrorPrefix + e))
              case Done(raw) =>
                var reply := CleanResponse(raw, Trim(input));
                r == Outcome(AddExchangeAsWritten(m, Trim(input), reply), Some(reply))
  {
    var line := Trim(input);
    var word := Lower(line);
    if word in ExitWords then Outcome(m, None)
    else if word in ClearWords then Outcome(ClearHistory(m), Some(Cleared))
    else if word in HistoryWords then Outcome(m, Some(HistoryReply(m)))
    else if word == HelpWord then Outcome(m, Some(HelpText))
    else if line == [] then Outcome(m, Some(EmptyPrompt))
    else
      match generate(GetSimpleContext(m, line))
      case Threw(e) => Outcome(m, Some(ErrorPrefix + e))
      case Done(raw) =>
        var reply := CleanResponse(raw, line);
        Outcome(AddExchangeAsWritten(m, line, reply), Some(reply))
  }

  /** Only clearing and a successful reply touch the memory. */
  lemma MemoryChangesOnlyOnClearOrReply(m: Memory, input: string, generate: string -> Attempt<string>)
    requires ProcessUserInput(m, input, generate).memory != m
    ensures Lower(Trim(input)) in ClearWords ||
            (IsChat(input) && generate(GetSimpleContext(m, Trim(input))).Done?)
  {
  }

  /** A successful reply is remembered exactly: the newest stored exchange is
      the stripped input with the reply as shown, numbered with the turn count
      before the line, and the count rises by one. */
  lemma ReplyIsRemembered(m: Memory, input: string, generate: string -> Attempt<string>)
    requires m.windowSize >= 1 && IsChat(input)
    requires generate(GetSimpleContext(m, Trim(input))).Done?
    ensures var r := ProcessUserInput(m, input, generate);
            r.reply.Some? &&
            r.memory.history[|r.memory.history| - 1] == Exchange(m.turnCount, Trim(input), r.reply.value) &&
            r.memory.turnCount == m.turnCount + 1
  {
    var line := Trim(input);
    var reply := CleanResponse(generate(GetSimpleContext(m, line)).value, line);
    TrimIdempotent(input);
    AddExchangeAgrees(m, line, reply);
    assert Record(m.turnCount, line, reply) == Exchange(m.turnCount, line, reply);
  }

  /** With a window of at least one exchange a line is remembered exactly as
      the intended `add_exchange` would remember it. */
  lemma ProcessUsesIntendedWindow(m: Memory, input: string, generate: string -> Attempt<string>)
    requires m.windowSize >= 1 && IsChat(input)
    requires generate(GetSimpleContext(m, Trim(input))).Done?
    ensures var line := Trim(input);
            ProcessUserInput(m, input, generate).memory
            == AddExchange(m, line, CleanResponse(generate(GetSimpleContext(m, line)).value, line))
  {
    var line := Trim(input);
    AddExchangeAgrees(m, line, CleanResponse(generate(GetSimpleContext(m, line)).value, line));
  }

  /** With a window of 0 every reply stays in memory: the history grows by
      one exchange per chat line. */
  lemma ZeroWindowGrows(m: Memory, input: string, generate: string -> Attempt<string>)
    requires m.windowSize == 0 && IsChat(input)
    requires generate(GetSimpleContext(m, Trim(input))).Done?
    ensures |ProcessUserInput(m, input, generate).memory.history| == |m.history| + 1
  {
  }

  /** Every line keeps the memory the numbered tail of the conversation. */
  lemma ProcessKeepsWellFormed(m: Memory, input: string, generate: string -> Attempt<string>)
    requires WellFormed(m)
    ensures WellFormed(ProcessUserInput(m, input, generate).memory)
  {
    var line := Trim(input);
    if IsChat(input) && generate(GetSimpleContext(m, line)).Done? {
      AddExchangeAsWrittenWellFormed(m, line, CleanResponse(generate(GetSimpleContext(m, line)).value, line));
    }
  }
}

=== FILE: model_loader_js.dfy ===
/** The response side of src/model_loader.js: the hosted model when it is
    available, and otherwise a fixed chain of rules that answer a few kinds of
    question locally (capitals, sums and differences, colours, days, boiling
    and freezing water, planets) before falling back to a canned reply. */
module ModelLoaderJs {
  import opened Wrappers
  import opened Strings
  import opened Numerals

  /** `isInitialized`: whether the test query of `initialize()` succeeded. */
  datatype Loader = Loader(initialized: bool)

  /** What the country lookup (`fetch` of the countries service) gives: the
      first listed capital, no capital in the answer, or a failed request. */
  datatype Capital = Found(name: string) | NotFound | FetchFailed

  /** What `cleanResponse` shows when nothing is left of the reply. */
  const CleanDefault := "I understand what you're saying. Could you tell me more?"

  const DefaultResponses: seq<string> := [
    "That's interesting! Can you tell me more about that?",
    "I see what you mean. How does that make you feel?",
    "That's a great point. What would you like to explore about this topic?",
    "Thanks for sharing that with me. What's your next step?",
    "I understand. Is there a specific aspect you'd like to focus on?"
  ]

  /** `initialize()`, given how the test query went. */
  function Initialize(probe: Attempt<string>): (l: Loader)
    ensures l.initialized <==> probe.Done?
  {
    Loader(probe.Done?)
  }

  // ---------------------------------------------------------------- generation

  /** The prompt sent to the model: the context (when non-empty) on its own
      line before the user's turn, which ends with the cue `Bot:`. */
  function FullPrompt(context: string, prompt: string): (r: string)
    ensures EndsWith(r, "User: " + prompt + "\nBot:")
    ensures context != [] ==> StartsWith(r, context + "\n")
    ensures |r| == (if context != [] then |context| + 1 else 0) + |prompt| + 11
  {
    var turn := "User: " + prompt + "\nBot:";
    if context != [] then
      assert (context + "\n" + turn)[|context + "\n"|..] == turn;
      assert (context + "\n" + turn)[..|context + "\n"|] == context + "\n";
      context + "\n" + turn
    else turn
  }

  /** `generateResponse(prompt, context)`, with `generate` standing for the
      model call on the full prompt and `lookup`/`pick` for the fallback's
      country lookup and random pick. */
  function GenerateResponse(l: Loader, prompt: string, context: string, generate: string -> Attempt<string>,
                            lookup: string -> Capital, pick: nat): (r: string)
    requires pick < |DefaultResponses|
    ensures !l.initialized ==> r == FallbackResponse(prompt, lookup, pick)
    ensures l.initialized && generate(FullPrompt(context, prompt)).Threw? ==> r == FallbackResponse(prompt, lookup, pick)
    ensures l.initialized && generate(FullPrompt(context, prompt)).Done? ==>
              r == CleanResponse(generate(FullPrompt(context, prompt)).value, FullPrompt(context, prompt))
  {
    if !l.initialized then FallbackResponse(prompt, lookup, pick)
    else
      var full := FullPrompt(context, prompt);
      match generate(full)
      case Threw(_) => FallbackResponse(prompt, lookup, pick)
      case Done(text) => CleanResponse(text, full)
  }

  /** Whatever happens, the user is shown some text. */
  lemma GenerateNeverEmpty(l: Loader, prompt: string, context: string, generate: string -> Attempt<string>,
                           lookup: string -> Capital, pick: nat)
    requires pick < |DefaultResponses|
    ensures GenerateResponse(l, prompt, context, generate, lookup, pick) != []
  {
    FallbackNeverEmpty(prompt, lookup, pick);
  }

  /** `cleanResponse(response, prompt)`: the first occurrence of the prompt is
      cut out, the rest trimmed, and only its first line kept (trimmed); an
      empty result becomes a fixed text.  The result is one line, never
      empty, and (unless it is the fixed text) a piece of what the model said
      after the prompt. */
  function CleanResponse(response: string, prompt: string): (r: string)
    ensures r != [] && '\n' !in r
    ensures Trim(r) == r
    ensures r == CleanDefault || Contains(Trim(ReplaceFirst(response, prompt, [])), r)
    ensures StartsWith(response, prompt) ==> r == FirstLineOrDefault(Trim(response[|prompt|..]))
    ensures !Contains(response, prompt) ==> r == FirstLineOrDefault(Trim(response))
    ensures Contains(response, prompt) ==>
              exists i :: FirstOccurrence(response, prompt, i) &&
                r == FirstLineOrDefault(Trim(response[..i] + response[i + |prompt|..]))
  {
    ReplaceAtStart(response, prompt);
    CutFirst(response, prompt);
    FirstLineOrDefault(Trim(ReplaceFirst(response, prompt, [])))
  }

  /** A prompt the text starts with is the occurrence `replace` cuts out. */
  lemma ReplaceAtStart(response: string, prompt: string)
    ensures StartsWith(response, prompt) ==> ReplaceFirst(response, prompt, []) == response[|prompt|..]
  {
    if StartsWith(response, prompt) {
      assert OccursAt(response, prompt, 0);
      IndexOfContains(response, prompt);
      assert response[..0] + [] + response[|prompt|..] == response[|prompt|..];
    }
  }

  /** Replacing by nothing cuts the first occurrence out. */
  lemma CutFirst(response: string, prompt: string)
    ensures forall i :: FirstOccurrence(response, prompt, i) ==>
              ReplaceFirst(response, prompt, []) == response[..i] + response[i + |prompt|..]
  {
    forall i | FirstOccurrence(response, prompt, i)
      ensures ReplaceFirst(response, prompt, []) == response[..i] + response[i + |prompt|..]
    {
      assert response[..i] + [] == response[..i];
    }
  }

  /** The trimmed first line of `body`, or the fixed text when that line is
      blank: the result is the first line with only whitespace cut from
      either side. */
  function FirstLineOrDefault(body: string): (r: string)
    ensures r != [] && '\n' !in r && Trim(r) == r
    ensures IsBlank(FirstLine(body)) ==> r == CleanDefault
    ensures !IsBlank(FirstLine(body)) ==> exists i :: TrimmedAt(FirstLine(body), r, i)
    ensures '\n' !in body && !IsBlank(body) ==> r == Trim(body)
    ensures r == CleanDefault || Contains(body, r)
  {
    var line := Trim(FirstLine(body));
    FirstLineWithin(body);
    TrimShape(FirstLine(body));
    if line != [] then line
    else
      CleanDefaultShape();
      CleanDefault
  }

  /** The trimmed first line of a text is a single line, already trimmed,
      and a piece of the text. */
  lemma FirstLineWithin(body: string)
    ensures var line := Trim(FirstLine(body));
            '\n' !in line && Trim(line) == line && Contains(body, line)
  {
    var first := FirstLine(body);
    TrimInfix(first);
    TrimIdempotent(first);
    StartsWithContains(body, first);
    ContainsInfix(body, first, Trim(first));
  }

  /** The fixed text is one line without surrounding whitespace. */
  lemma CleanDefaultShape()
    ensures CleanDefault != [] && '\n' !in CleanDefault && Trim(CleanDefault) == CleanDefault
  {
    CleanDefaultEdges();
    TrimOfTrimmed(CleanDefault);
  }

  /** The fixed text starts with `I`, ends with `?` and has no line break. */
  lemma CleanDefaultEdges()
    ensures |CleanDefault| > 1 && CleanDefault[0] == 'I' && CleanDefault[|CleanDefault| - 1] == '?'
    ensures '\n' !in CleanDefault
  {
    var a := "I understand what you're saying.";
    var b := " Could you tell me more?";
    assert CleanDefault == a + b;
    assert '\n' !in a;
    assert '\n' !in b;
    assert a[0] == 'I' && b[|b| - 1] == '?';
    assert (a + b)[0] == a[0] && (a + b)[|a + b| - 1] == b[|b| - 1];
  }

  /** Cleaning an already cleaned reply, with nothing to cut out, changes
      nothing. */
  lemma CleanResponseIdempotent(response: string, prompt: string)
    ensures CleanResponse(CleanResponse(response, prompt), []) == CleanResponse(response, prompt)
  {
    var r := CleanResponse(response, prompt);
    ReplaceEmpty(r);
    assert Split(r, '\n') == [r];
    assert FirstLine(r) == r;
  }

  /** Replacing the empty pattern by nothing changes nothing. */
  lemma ReplaceEmpty(s: string)
    ensures ReplaceFirst(s, [], []) == s
  {
    ContainsWhenOccurs(s, [], 0);
    IndexOfContains(s, []);
    assert s[..0] + [] + s[0..] == s;
  }

  /** A non-empty text ending with a full stop. */
  predicate Sentence(s: string) {
    s != [] && s[|s| - 1] == '.'
  }

  // ---------------------------------------------------------------- capital rule

  /** A character of the class `[a-zA-Z ]`. */
  predicate IsNameChar(c: char) {
    IsLetter(c) || c == ' '
  }

  /** Every character of `s` is one of `[a-zA-Z ]`. */
  predicate IsName(s: string) {
    forall i :: 0 <= i < |s| ==> IsNameChar(s[i])
  }

  /** The end of the run of `[a-zA-Z ]` characters that starts at `k`. */
  function NameEnd(p: string, k: nat): (e: nat)
    requires k <= |p|
    ensures k <= e <= |p|
    ensures forall j :: k <= j < e ==> IsNameChar(p[j])
    ensures e == |p| || !IsNameChar(p[e])
    decreases |p| - k
  {
    if k < |p| && IsNameChar(p[k]) then NameEnd(p, k + 1) else k
  }

  /** The largest `k` with `j < k <= e` where a `[a-zA-Z ]` character
      stands: where the greedy `\s+` gives back just enough for the name. */
  function NameStart(p: string, j: nat, k: nat): (r: Option<nat>)
    ensures r.Some? ==> j < r.value <= k && r.value < |p| && IsNameChar(p[r.value])
    ensures r.Some? ==> forall m :: r.value < m <= k && m < |p| ==> !IsNameChar(p[m])
    ensures r.None? ==> forall m :: j < m <= k && m < |p| ==> !IsNameChar(p[m])
    decreases k
  {
    if k <= j then None
    else if k < |p| && IsNameChar(p[k]) then Some(k)
    else NameStart(p, j, k - 1)
  }

  /** The group `([a-zA-Z ]+)` of `\s+([a-zA-Z ]+)` matched at `j`, right
      after the words `capital of`: at least one whitespace character, then
      the longest whitespace run that still leaves a name character, then
      the name, as long as it goes. */
  function NameAfter(p: string, j: nat): (r: Option<string>)
    requires j <= |p|
    ensures r.Some? ==> r.value != [] && IsName(r.value)
    ensures r.Some? ==> exists k :: GroupAt(p, j, k, r.value) && NoStartAfter(p, j, k)
    ensures r.None? ==> NoStartAfter(p, j, j)
  {
    var e := SpacesFrom(p, j);
    NoStartPastSpaces(p, j, e);
    match NameStart(p, j, e)
    case None => None
    case Some(k) =>
      var name := p[k..NameEnd(p, k)];
      forall m | 0 <= m < |name| ensures IsNameChar(name[m]) {
        assert name[m] == p[k + m];
      }
      assert IsBlank(p[j..k]) by {
        forall m | 0 <= m < k - j ensures IsSpace(p[j..k][m]) {
          assert p[j..k][m] == p[j + m];
        }
      }
      assert GroupAt(p, j, k, name);
      Some(name)
  }

  /** The group `name` starts at `k`, after nothing but whitespace from `j`
      (at least one character of it), and runs until a character outside
      `[a-zA-Z ]` or the end of the text. */
  ghost predicate GroupAt(p: string, j: nat, k: nat, name: string) {
    j < k && k + |name| <= |p| && p[k..k + |name|] == name
    && IsBlank(p[j..k])
    && (k + |name| == |p| || !IsNameChar(p[k + |name|]))
  }

  /** No later position, reached from `j` over whitespace alone, holds a
      `[a-zA-Z ]` character: the greedy `\s+` could not have stopped later. */
  ghost predicate NoStartAfter(p: string, j: nat, k: nat) {
    j <= k && forall m :: k < m < |p| ==> (IsBlank(p[j..m]) ==> !IsNameChar(p[m]))
  }

  /** Past the whitespace run that ends at `e` the text from `j` is no longer
      blank, so only positions up to `e` can start the group. */
  lemma NoStartPastSpaces(p: string, j: nat, e: nat)
    requires j <= e <= |p| && (e == |p| || !IsSpace(p[e]))
    ensures forall m :: e < m < |p| ==> !IsBlank(p[j..m])
  {
    forall m | e < m < |p| ensures !IsBlank(p[j..m]) {
      assert p[j..m][e - j] == p[e];
    }
  }

  /** `capital of` at `i`, letters compared without case. */
  predicate CapitalOfAt(p: string, i: nat) {
    i + 10 <= |p| && Lower(p[i..i + 10]) == "capital of"
  }

  /** The regular expression matches at `i`. */
  predicate MatchAt(p: string, i: nat) {
    CapitalOfAt(p, i) && NameAfter(p, i + 10).Some?
  }

  /** `prompt.match(/capital of\s+([a-zA-Z ]+)/i)`, searching from `i`: the
      group of the leftmost match. */
  function CapitalMatchFrom(p: string, i: nat): (r: Option<string>)
    ensures r.Some? ==> r.value != [] && IsName(r.value)
    ensures r.Some? ==> exists k :: i <= k && MatchAt(p, k) && NameAfter(p, k + 10) == r
                                    && forall m :: i <= m < k ==> !MatchAt(p, m)
    decreases |p| - i
  {
    if i + 10 > |p| then None
    else if MatchAt(p, i) then NameAfter(p, i + 10)
    else CapitalMatchFrom(p, i + 1)
  }

  /** A search that finds nothing means no position starts a match. */
  lemma {:induction false} CapitalMatchNone(p: string, i: nat)
    requires CapitalMatchFrom(p, i).None?
    ensures forall k :: i <= k && CapitalOfAt(p, k) ==> NameAfter(p, k + 10).None?
    decreases |p| - i
  {
    if i + 10 <= |p| {
      CapitalMatchNone(p, i + 1);
    }
  }

  /** `str.replace(/[?.,!]/g, '')`. */
  function DropPunctuation(s: string): (r: string)
    ensures |r| <= |s|
    ensures forall i :: 0 <= i < |r| ==> r[i] !in "?.,!"
  {
    if s == [] then []
    else
      var rest := DropPunctuation(s[1..]);
      if s[0] in "?.,!" then rest
      else
        assert forall i :: 1 <= i < |rest| + 1 ==> ([s[0]] + rest)[i] == rest[i - 1];
        [s[0]] + rest
  }

  /** The captured name can hold no punctuation, so removing it never
      changes the name. */
  lemma {:induction false} DropPunctuationOfName(s: string)
    requires IsName(s)
    ensures DropPunctuation(s) == s
    decreases |s|
  {
    if s != [] {
      assert IsNameChar(s[0]) && IsName(s[1..]);
      assert s[0] !in "?.,!";
      DropPunctuationOfName(s[1..]);
      assert [s[0]] + s[1..] == s;
    }
  }

  const CapitalIs := "The capital of "
  const CapitalMissing := "Sorry, I couldn't find the capital of "
  const CapitalTrouble := "Sorry, I had trouble fetching the capital of "

  /** The sentence for each lookup outcome: it names the country, and a
      found capital ends it. */
  function CapitalReply(country: string, outcome: Capital): (r: string)
    ensures Sentence(r)
    ensures outcome.Found? ==> StartsWith(r, CapitalIs + country) && EndsWith(r, " is " + outcome.name + ".")
    ensures outcome.Found? ==> |r| == |CapitalIs + country| + |" is " + outcome.name + "."|
    ensures outcome.NotFound? ==> r == CapitalMissing + country + "."
    ensures outcome.FetchFailed? ==> r == CapitalTrouble + country + "."
  {
    match outcome
    case Found(c) =>
      var head, tail := CapitalIs + country, " is " + c + ".";
      assert CapitalIs + country + " is " + c + "." == head + tail;
      assert (head + tail)[..|head|] == head && (head + tail)[|head|..] == tail;
      head + tail
    case NotFound => CapitalMissing + country + "."
    case FetchFailed => CapitalTrouble + country + "."
  }
  /** The capital rule: a line mentioning `capital` whose text matches
      `capital of <name>` is answered from the lookup of the trimmed name. */
  function CapitalRule(prompt: string, lookup: string -> Capital): (r: Option<string>)
    ensures r.Some? <==> Contains(Lower(prompt), "capital") && CapitalMatchFrom(prompt, 0).Some?
    ensures r.Some? ==> Sentence(r.value)
  {
    if Contains(Lower(prompt), "capital") then
      match CapitalMatchFrom(prompt, 0)
      case None => None
      case Some(name) =>
        var country := Trim(DropPunctuation(name));
        Some(CapitalReply(country, lookup(country)))
    else None
  }

  /** The lookup is asked about the captured name, trimmed. */
  lemma CapitalRuleAsks(prompt: string, lookup: string -> Capital)
    requires Contains(Lower(prompt), "capital") && CapitalMatchFrom(prompt, 0).Some?
    ensures var country := Trim(CapitalMatchFrom(prompt, 0).value);
            CapitalRule(prompt, lookup) == Some(CapitalReply(country, lookup(country)))
  {
    DropPunctuationOfName(CapitalMatchFrom(prompt, 0).value);
  }

  /** The three outcomes of the lookup are told apart in the reply. */
  lemma CapitalRepliesDiffer(country: string, c: string)
    ensures CapitalReply(country, Found(c)) != CapitalReply(country, NotFound)
    ensures CapitalReply(country, NotFound) != CapitalReply(country, FetchFailed)
    ensures CapitalReply(country, Found(c)) != CapitalReply(country, FetchFailed)
  {
    assert CapitalReply(country, Found(c))[0] == 'T';
    assert CapitalReply(country, NotFound)[0] == 'S';
    assert CapitalReply(country, FetchFailed)[0] == 'S';
    assert CapitalReply(country, NotFound)[9] == 'c';
    assert CapitalReply(country, FetchFailed)[9] == 'h';
  }

  /** The words are matched in any case, and the name stops at the first
      character outside `[a-zA-Z ]`. */
  lemma CapitalOfFrance()
    ensures CapitalMatchFrom("Capital of France?", 0) == Some("France")
  {
    var p := "Capital of France?";
    assert Lower(p[0..10]) == "capital of";
    assert SpacesFrom(p, 10) == 11 by {
      assert IsSpace(p[10]) && !IsSpace(p[11]);
    }
    assert NameStart(p, 10, 11) == Some(11);
    assert NameEnd(p, 11) == 17 by {
      assert NameEnd(p, 17) == 17;
      assert NameEnd(p, 16) == 17;
      assert NameEnd(p, 15) == 17;
      assert NameEnd(p, 14) == 17;
      assert NameEnd(p, 13) == 17;
      assert NameEnd(p, 12) == 17;
    }
    assert p[11..17] == "France";
  }

  /** The leftmost match wins: a later `capital of` is never looked at. */
  lemma LeftmostCapitalWins()
    ensures CapitalMatchFrom("capital of Peru? capital of Chile", 0) == Some("Peru")
  {
    var p := "capital of Peru? capital of Chile";
    assert Lower(p[0..10]) == "capital of";
    assert SpacesFrom(p, 10) == 11 by {
      assert IsSpace(p[10]) && !IsSpace(p[11]);
    }
    assert NameStart(p, 10, 11) == Some(11);
    assert NameEnd(p, 11) == 15 by {
      assert NameEnd(p, 15) == 15;
      assert NameEnd(p, 14) == 15;
      assert NameEnd(p, 13) == 15;
      assert NameEnd(p, 12) == 15;
    }
    assert p[11..15] == "Peru";
  }

  // ---------------------------------------------------------------- arithmetic rules

  /** `parseInt` of a run of digits. */
  function Value(run: string): nat
    requires AllDigits(run)
  {
    ParseDigits(run)
  }

  /** The sum rule: `what is`, a plus sign or the word `plus`, and at least
      two runs of digits; the first two runs are added. */
  function PlusRule(lower: string): (r: Option<string>)
    ensures r.Some? <==> Contains(lower, "what is") && (Contains(lower, "+") || Contains(lower, "plus"))
                         && |DigitRuns(lower)| >= 2
    ensures r.Some? ==> var a := DigitRuns(lower)[0]; var b := DigitRuns(lower)[1];
                        StartsWith(r.value, a + " plus " + b + " equals ")
    ensures r.Some? ==> Sentence(r.value)
  {
    if Contains(lower, "what is") && (Contains(lower, "+") || Contains(lower, "plus")) then
      var numbers := DigitRuns(lower);
      if |numbers| >= 2 then
        var head := numbers[0] + " plus " + numbers[1] + " equals ";
        var r := head + NatToString(Value(numbers[0]) + Value(numbers[1])) + ".";
        assert r[..|head|] == head;
        Some(r)
      else None
    else None
  }

  /** The difference rule, the same with a minus sign or the word `minus`;
      the difference may be negative. */
  function MinusRule(lower: string): (r: Option<string>)
    ensures r.Some? <==> Contains(lower, "what is") && (Contains(lower, "-") || Contains(lower, "minus"))
                         && |DigitRuns(lower)| >= 2
    ensures r.Some? ==> var a := DigitRuns(lower)[0]; var b := DigitRuns(lower)[1];
                        StartsWith(r.value, a + " minus " + b + " equals ")
    ensures r.Some? ==> Sentence(r.value)
  {
    if Contains(lower, "what is") && (Contains(lower, "-") || Contains(lower, "minus")) then
      var numbers := DigitRuns(lower);
      if |numbers| >= 2 then
        var head := numbers[0] + " minus " + numbers[1] + " equals ";
        var r := head + IntToString(Value(numbers[0]) - Value(numbers[1])) + ".";
        assert r[..|head|] == head;
        Some(r)
      else None
    else None
  }

  /** The number stated by the sum rule reads back as the sum of the first
      two numbers of the line. */
  lemma PlusRuleAdds(lower: string)
    requires PlusRule(lower).Some?
    ensures var a := DigitRuns(lower)[0]; var b := DigitRuns(lower)[1];
            var head := a + " plus " + b + " equals ";
            var n := PlusRule(lower).value[|head|..|PlusRule(lower).value| - 1];
            AllDigits(n) && ParseDigits(n) == Value(a) + Value(b)
  {
    var a := DigitRuns(lower)[0];
    var b := DigitRuns(lower)[1];
    var head := a + " plus " + b + " equals ";
    var sum := NatToString(Value(a) + Value(b));
    assert PlusRule(lower).value[|head|..|PlusRule(lower).value| - 1] == sum;
    ParseNatToString(Value(a) + Value(b));
  }

  /** The number stated by the difference rule reads back as the first
      number minus the second. */
  lemma MinusRuleSubtracts(lower: string)
    requires MinusRule(lower).Some?
    ensures var a := DigitRuns(lower)[0]; var b := DigitRuns(lower)[1];
            var head := a + " minus " + b + " equals ";
            var n := MinusRule(lower).value[|head|..|MinusRule(lower).value| - 1];
            ParseInt(n) == Some(Value(a) - Value(b))
  {
    var a := DigitRuns(lower)[0];
    var b := DigitRuns(lower)[1];
    var head := a + " minus " + b + " equals ";
    var diff := IntToString(Value(a) - Value(b));
    assert MinusRule(lower).value[|head|..|MinusRule(lower).value| - 1] == diff;
    ParseIntToString(Value(a) - Value(b));
  }

  // ---------------------------------------------------------------- fixed-answer rules

  const SkyAnswer := "The sky is typically blue during the day."
  const GrassAnswer := "Grass is typically green."
  const SunAnswer := "The sun appears yellow or white."

  predicate AboutColour(lower: string) {
    Contains(lower, "color") || Contains(lower, "colour")
  }

  /** The colour rule: a line about a colour is answered only when it names
      the sky, grass or the sun, tried in that order. */
  function ColourRule(lower: string): (r: Option<string>)
    ensures r.Some? <==> AboutColour(lower)
                         && (Contains(lower, "sky") || Contains(lower, "grass") || Contains(lower, "sun"))
    ensures r.Some? ==> Sentence(r.value)
    ensures AboutColour(lower) && Contains(lower, "sky") ==> r == Some(SkyAnswer)
    ensures AboutColour(lower) && !Contains(lower, "sky") && Contains(lower, "grass") ==> r == Some(GrassAnswer)
    ensures AboutColour(lower) && !Contains(lower, "sky") && !Contains(lower, "grass") && Contains(lower, "sun") ==>
              r == Some(SunAnswer)
  {
    if AboutColour(lower) then
      if Contains(lower, "sky") then Some(SkyAnswer)
      else if Contains(lower, "grass") then Some(GrassAnswer)
      else if Contains(lower, "sun") then Some(SunAnswer)
      else None
    else None
  }

  const WeekAnswer := "There are 7 days in a week."
  const YearAnswer := "There are 365 days in a regular year, and 366 days in a leap year."
  const MonthAnswer := "Most months have 30 or 31 days, except February which has 28 days (29 in leap years)."

  predicate AboutDays(lower: string) {
    Contains(lower, "days in") || Contains(lower, "how many days")
  }

  /** The calendar rule: a question about days is answered only for a week,
      a year or a month, tried in that order. */
  function DaysRule(lower: string): (r: Option<string>)
    ensures r.Some? <==> AboutDays(lower)
                         && (Contains(lower, "week") || Contains(lower, "year") || Contains(lower, "month"))
    ensures r.Some? ==> Sentence(r.value)
    ensures AboutDays(lower) && Contains(lower, "week") ==> r == Some(WeekAnswer)
    ensures AboutDays(lower) && !Contains(lower, "week") && Contains(lower, "year") ==> r == Some(YearAnswer)
    ensures AboutDays(lower) && !Contains(lower, "week") && !Contains(lower, "year") && Contains(lower, "month") ==>
              r == Some(MonthAnswer)
  {
    if AboutDays(lower) then
      if Contains(lower, "week") then Some(WeekAnswer)
      else if Contains(lower, "year") then Some(YearAnswer)
      else if Contains(lower, "month") then Some(MonthAnswer)
      else None
    else None
  }

  const BoilAnswer := "Water boils at 100°C (212°F) at sea level."
  const FreezeAnswer := "Water freezes at 0°C (32°F) at sea level."

  /** The water rule: boiling is answered before freezing. */
  function WaterRule(lower: string): (r: Option<string>)
    ensures r.Some? <==> Contains(lower, "water") && (Contains(lower, "boil") || Contains(lower, "freeze"))
    ensures r.Some? ==> Sentence(r.value)
    ensures Contains(lower, "water") && Contains(lower, "boil") ==> r == Some(BoilAnswer)
    ensures Contains(lower, "water") && !Contains(lower, "boil") && Contains(lower, "freeze") ==> r == Some(FreezeAnswer)
  {
    if Contains(lower, "water") && Contains(lower, "boil") then Some(BoilAnswer)
    else if Contains(lower, "water") && Contains(lower, "freeze") then Some(FreezeAnswer)
    else None
  }

  const ClosestAnswer := "Mercury is the planet closest to the Sun."
  const LargestAnswer := "Jupiter is the largest planet in our solar system."
  const PlanetCountAnswer := "There are 8 planets in our solar system."

  predicate AsksClosest(lower: string) {
    Contains(lower, "closest to sun") || Contains(lower, "nearest to sun")
  }

  /** The planet rule: the closest planet, the largest one or how many
      there are, tried in that order. */
  function PlanetRule(lower: string): (r: Option<string>)
    ensures r.Some? <==> Contains(lower, "planet")
                         && (AsksClosest(lower) || Contains(lower, "largest") || Contains(lower, "how many"))
    ensures r.Some? ==> Sentence(r.value)
    ensures Contains(lower, "planet") && AsksClosest(lower) ==> r == Some(ClosestAnswer)
    ensures Contains(lower, "planet") && !AsksClosest(lower) && Contains(lower, "largest") ==> r == Some(LargestAnswer)
    ensures Contains(lower, "planet") && !AsksClosest(lower) && !Contains(lower, "largest") && Contains(lower, "how many") ==>
              r == Some(PlanetCountAnswer)
  {
    if Contains(lower, "planet") then
      if AsksClosest(lower) then Some(ClosestAnswer)
      else if Contains(lower, "largest") then Some(LargestAnswer)
      else if Contains(lower, "how many") then Some(PlanetCountAnswer)
      else None
    else None
  }

  // ---------------------------------------------------------------- the chain

  /** The first of `answers` that is present. */
  function FirstPresent(answers: seq<Option<string>>): (r: Option<string>)
    ensures r.None? <==> forall k :: 0 <= k < |answers| ==> answers[k].None?
    ensures r.Some? ==> exists k :: 0 <= k < |answers| && answers[k] == r
                                    && forall m :: 0 <= m < k ==> answers[m].None?
  {
    if answers == [] then None
    else if answers[0].Some? then answers[0]
    else
      var rest := FirstPresent(answers[1..]);
      assert forall k :: 1 <= k < |answers| ==> answers[k] == answers[1..][k - 1];
      rest
  }

  /** The answers of the rules, in the order `getFallbackResponse` tries
      them. */
  function RuleAnswers(prompt: string, lookup: string -> Capital): (r: seq<Option<string>>)
    ensures |r| == 7
    ensures forall k :: 0 <= k < 7 && r[k].Some? ==> Sentence(r[k].value)
  {
    var lower := Lower(prompt);
    [CapitalRule(prompt, lookup), PlusRule(lower), MinusRule(lower), ColourRule(lower),
     DaysRule(lower), WaterRule(lower), PlanetRule(lower)]
  }

  /** `getFallbackResponse(prompt)`: the answer of the first rule that claims
      the line, otherwise the canned reply at the random index `pick`. */
  function FallbackResponse(prompt: string, lookup: string -> Capital, pick: nat): (r: string)
    requires pick < |DefaultResponses|
    ensures FirstPresent(RuleAnswers(prompt, lookup)).None? ==> r == DefaultResponses[pick]
    ensures FirstPresent(RuleAnswers(prompt, lookup)).Some? ==> r == FirstPresent(RuleAnswers(prompt, lookup)).value
  {
    match FirstPresent(RuleAnswers(prompt, lookup))
    case Some(answer) => answer
    case None => DefaultResponses[pick]
  }

  lemma FallbackNeverEmpty(prompt: string, lookup: string -> Capital, pick: nat)
    requires pick < |DefaultResponses|
    ensures FallbackResponse(prompt, lookup, pick) != []
  {
    var answers := RuleAnswers(prompt, lookup);
    if FirstPresent(answers).Some? {
      var k :| 0 <= k < |answers| && answers[k] == FirstPresent(answers);
    }
  }

  /** When both signs are present the sum wins: a line that the sum rule
      claims (and the capital rule does not) is always summed. */
  lemma PlusBeforeMinus(prompt: string, lookup: string -> Capital, pick: nat)
    requires pick < |DefaultResponses|
    requires CapitalRule(prompt, lookup).None? && PlusRule(Lower(prompt)).Some?
    ensures FallbackResponse(prompt, lookup, pick) == PlusRule(Lower(prompt)).value
  {
    var answers := RuleAnswers(prompt, lookup);
    assert answers[0].None? && answers[1].Some?;
    var k :| 0 <= k < |answers| && answers[k] == FirstPresent(answers) && forall m :: 0 <= m < k ==> answers[m].None?;
  }

  /** With fewer than two runs of digits neither arithmetic rule claims the
      line, and the later rules are tried. */
  lemma ArithmeticNeedsTwoNumbers(prompt: string, lookup: string -> Capital)
    requires |DigitRuns(Lower(prompt))| < 2
    ensures FirstPresent(RuleAnswers(prompt, lookup))
            == FirstPresent([CapitalRule(prompt, lookup)] + RuleAnswers(prompt, lookup)[3..])
  {
    var answers := RuleAnswers(prompt, lookup);
    var shorter := [CapitalRule(prompt, lookup)] + answers[3..];
    assert answers[1].None? && answers[2].None?;
    if answers[0].None? {
      assert answers[1..] == [answers[1], answers[2]] + answers[3..];
      assert FirstPresent(answers) == FirstPresent(answers[1..]);
      assert FirstPresent(answers[1..]) == FirstPresent(answers[2..]);
      assert answers[2..][1..] == answers[3..];
      assert FirstPresent(answers[2..]) == FirstPresent(answers[3..]);
      assert shorter[1..] == answers[3..];
    }
  }

  /** A line no rule claims gets one of the canned replies, and a canned
      reply is only given when no rule claims the line. */
  lemma DefaultOnlyWhenUnclaimed(prompt: string, lookup: string -> Capital, pick: nat)
    requires pick < |DefaultResponses|
    ensures FallbackResponse(prompt, lookup, pick) in DefaultResponses
            <==> forall k :: 0 <= k < 7 ==> RuleAnswers(prompt, lookup)[k].None?
  {
    var answers := RuleAnswers(prompt, lookup);
    if FirstPresent(answers).Some? {
      var k :| 0 <= k < |answers| && answers[k] == FirstPresent(answers);
      RuleAnswerNotDefault(prompt, lookup, k);
    }
  }

  /** No rule's answer is one of the canned replies: the rules answer with a
      full stop, the canned replies all ask a question. */
  lemma RuleAnswerNotDefault(prompt: string, lookup: string -> Capital, k: nat)
    requires k < 7 && RuleAnswers(prompt, lookup)[k].Some?
    ensures RuleAnswers(prompt, lookup)[k].value !in DefaultResponses
  {
    DefaultsAskQuestions();
  }

  /** Every canned reply ends with a question mark. */
  lemma DefaultsAskQuestions()
    ensures forall s :: s in DefaultResponses ==> s != [] && s[|s| - 1] == '?'
  {
  }
}

=== FILE: model_loader_py.dfy ===
/** What model_loader.py does with the text its generation pipeline returns:
    cut the prompt off, strip it, drop an unfinished last sentence and end the
    reply with a full stop.  The pipeline itself is the outcome of one call,
    given as a parameter. */
module ModelLoaderPy {
  import opened Wrappers
  import opened Sequences
  import opened Strings

  const NotLoaded := "Model not loaded. Please load the model first."
  const NotSure := "I'm not sure how to respond to that."
  const GenerationError := "Sorry, I encountered an error generating a response."

  /** The generated text without its first `|prompt|` characters, stripped:
      `generated_text[len(prompt):].strip()`. */
  function AfterPrompt(generated: string, prompt: string): (r: string)
    ensures r == [] || (!IsSpace(r[0]) && !IsSpace(r[|r| - 1]))
    ensures |prompt| >= |generated| ==> r == []
    ensures |prompt| <= |generated| ==> exists i :: TrimmedAt(generated[|prompt|..], r, i)
    ensures |prompt| <= |generated| ==> (r == [] <==> IsBlank(generated[|prompt|..]))
  {
    SliceShape(generated, |prompt|);
    Trim(SliceFrom(generated, |prompt|))
  }

  lemma SliceShape(generated: string, n: nat)
    ensures n <= |generated| ==> exists i :: TrimmedAt(generated[n..], Trim(SliceFrom(generated, n)), i)
    ensures n <= |generated| ==> (Trim(SliceFrom(generated, n)) == [] <==> IsBlank(generated[n..]))
  {
    if n <= |generated| {
      assert SliceFrom(generated, n) == generated[n..];
      TrimShape(generated[n..]);
      TrimWitness(generated[n..]);
    }
  }

  /** The cut is by length alone: whatever the first `|prompt|` characters
      are, what is left is the rest of the text, stripped. */
  lemma AfterPromptCutsByLength(head: string, continuation: string, prompt: string)
    requires |head| == |prompt|
    ensures AfterPrompt(head + continuation, prompt) == Trim(continuation)
  {
    assert SliceFrom(head + continuation, |prompt|) == continuation;
  }

  /** When the pipeline echoes the prompt, what is left is exactly the
      continuation, stripped. */
  lemma AfterEchoedPrompt(prompt: string, continuation: string)
    ensures AfterPrompt(prompt + continuation, prompt) == Trim(continuation)
  {
    AfterPromptCutsByLength(prompt, continuation, prompt);
  }

  /** The `.`-pieces that survive: a blank piece after the final full stop is
      dropped, and then a non-blank last piece shorter than 10 characters is
      dropped when another piece remains. */
  function KeptSentences(response: string): (r: seq<string>)
    ensures 1 <= |r| <= |Split(response, '.')| && r == Split(response, '.')[..|r|]
    ensures |r| >= |Split(response, '.')| - 2
    ensures var pieces := Split(response, '.');
            |pieces| > 1 && IsBlank(pieces[|pieces| - 1]) ==> |r| < |pieces|
    ensures var pieces := Split(response, '.');
            |pieces| > 1 && !IsBlank(pieces[|pieces| - 1]) ==>
              (|r| < |pieces| <==> |pieces[|pieces| - 1]| < 10)
    ensures var pieces := Split(response, '.');
            |pieces| > 1 && IsBlank(pieces[|pieces| - 1]) ==>
              (|r| == |pieces| - 2 <==>
                 |pieces| > 2 && !IsBlank(pieces[|pieces| - 2]) && |pieces[|pieces| - 2]| < 10)
  {
    DropShortTail(DropBlankTail(Split(response, '.')))
  }

  /** Drops the last piece when it is blank and not the only one. */
  function DropBlankTail(pieces: seq<string>): (r: seq<string>)
    requires |pieces| >= 1
    ensures 1 <= |r| <= |pieces| && r == pieces[..|r|] && |r| >= |pieces| - 1
    ensures |r| < |pieces| <==> |pieces| > 1 && IsBlank(pieces[|pieces| - 1])
  {
    var n := |pieces|;
    if n > 1 && Trim(pieces[n - 1]) == [] then pieces[..n - 1] else pieces
  }

  /** Drops the last piece when it is a non-blank fragment shorter than 10
      characters and not the only one. */
  function DropShortTail(pieces: seq<string>): (r: seq<string>)
    requires |pieces| >= 1
    ensures 1 <= |r| <= |pieces| && r == pieces[..|r|] && |r| >= |pieces| - 1
    ensures |r| < |pieces| <==> |pieces| > 1 && !IsBlank(pieces[|pieces| - 1]) && |pieces[|pieces| - 1]| < 10
  {
    var n := |pieces|;
    if Trim(pieces[n - 1]) != [] && n > 1 && |pieces[n - 1]| < 10 then pieces[..n - 1] else pieces
  }

  /** The sentence clean-up of `generate_response`: the kept pieces joined
      with `. `, and a full stop added when the result does not end in one. */
  function TrimSentences(response: string): (r: string)
    ensures response == [] ==> r == []
    ensures r == [] || EndsWith(r, ".")
    ensures response != [] ==> StartsWith(r, Split(response, '.')[0])
    ensures response != [] ==>
              var joined := Join(KeptSentences(response), ". ");
              r == (if joined != [] && !EndsWith(joined, ".") then joined + "." else joined)
  {
    if response == [] then []
    else
      var kept := KeptSentences(response);
      var joined := Join(kept, ". ");
      JoinFirst(kept, ". ");
      assert kept[0] == Split(response, '.')[0];
      if joined != [] && !EndsWith(joined, ".") then
        assert (joined + ".")[..|joined|] == joined;
        assert (joined + ".")[..|kept[0]|] == joined[..|kept[0]|];
        joined + "."
      else joined
  }

  /** `generate_response(prompt, ...)` after the pipeline ran with outcome
      `run`; `loaded` says whether a pipeline exists at all. */
  function GenerateResponse(loaded: bool, prompt: string, run: Attempt<string>): (r: string)
    ensures !loaded ==> r == NotLoaded
    ensures loaded && run.Threw? ==> r == GenerationError
    ensures loaded && run.Done? ==> r != [] && EndsWith(r, ".")
    ensures loaded && run.Done? && TrimSentences(AfterPrompt(run.value, prompt)) == [] ==> r == NotSure
    ensures loaded && run.Done? && TrimSentences(AfterPrompt(run.value, prompt)) != [] ==>
              r == TrimSentences(AfterPrompt(run.value, prompt))
  {
    if !loaded then NotLoaded
    else match run
      case Threw(_) => GenerationError
      case Done(generated) =>
        var response := TrimSentences(AfterPrompt(generated, prompt));
        if response != [] then response
        else
          NotSureIsSentence();
          NotSure
  }

  lemma NotSureIsSentence()
    ensures NotSure != [] && EndsWith(NotSure, ".")
  {
    assert NotSure[|NotSure| - 1] == '.';
  }

  /** A reply without a full stop gets one and is otherwise kept. */
  lemma NoStopGetsOne(response: string)
    requires response != [] && '.' !in response
    ensures TrimSentences(response) == response + "."
  {
    assert Split(response, '.') == [response];
    assert response[|response| - 1] != '.';
  }

  /** Two stop-free pieces around one full stop split back into the two. */
  lemma SplitAtStop(a: string, b: string)
    requires '.' !in a && '.' !in b
    ensures Split(a + "." + b, '.') == [a, b]
  {
    assert Join([a, b], ".") == a + "." + b;
    SplitJoin([a, b], '.');
  }

  /** A single finished sentence is returned as it is. */
  lemma FinishedSentenceKept(sentence: string)
    requires sentence != [] && '.' !in sentence
    ensures TrimSentences(sentence + ".") == sentence + "."
  {
    SplitAtStop(sentence, "");
    assert sentence + "." + "" == sentence + ".";
    OnlyFirstKept(sentence + ".", sentence, "");
    OneSentenceClosed(sentence + ".", sentence);
  }

  /** A short unfinished tail after a sentence is cut off. */
  lemma ShortTailDropped(sentence: string, tail: string)
    requires sentence != [] && '.' !in sentence
    requires !IsBlank(tail) && '.' !in tail && |tail| < 10
    ensures TrimSentences(sentence + "." + tail) == sentence + "."
  {
    SplitAtStop(sentence, tail);
    OnlyFirstKept(sentence + "." + tail, sentence, tail);
    OneSentenceClosed(sentence + "." + tail, sentence);
  }

  /** A short sentence after the first one is dropped too, once the empty
      piece after the final full stop is gone. */
  lemma ShortLastSentenceDropped(sentence: string, tail: string)
    requires sentence != [] && '.' !in sentence
    requires !IsBlank(tail) && '.' !in tail && |tail| < 10
    ensures TrimSentences(sentence + "." + tail + ".") == sentence + "."
  {
    var parts := [sentence, tail, ""];
    assert Join(parts[2..], ".") == "";
    assert Join(parts[1..], ".") == tail + "." + "";
    assert Join(parts, ".") == sentence + "." + (tail + "." + "");
    assert sentence + "." + tail + "." == sentence + "." + (tail + "." + "");
    SplitJoin(parts, '.');
    var kept := KeptSentences(sentence + "." + tail + ".");
    assert |kept| == 1;
    assert kept == parts[..1];
    OneSentenceClosed(sentence + "." + tail + ".", sentence);
  }

  /** "Hello there. Hi." is cut to its first sentence. */
  lemma HelloThereHi()
    ensures TrimSentences("Hello there. Hi.") == "Hello there."
  {
    var sentence, tail := "Hello there", " Hi";
    assert '.' !in sentence;
    assert '.' !in tail && !IsSpace(tail[1]);
    ShortLastSentenceDropped(sentence, tail);
    HelloThereHiText(sentence, tail);
  }

  lemma HelloThereHiText(sentence: string, tail: string)
    requires sentence == "Hello there" && tail == " Hi"
    ensures sentence + "." + tail + "." == "Hello there. Hi."
    ensures sentence + "." == "Hello there."
  {
    var whole, built := "Hello there. Hi.", sentence + "." + tail + ".";
    forall k | 0 <= k < |whole|
      ensures built[k] == whole[k]
    {
      if k < |sentence| { assert built[k] == sentence[k]; }
      else if k == |sentence| { assert built[k] == '.'; }
      else if k < |sentence| + 1 + |tail| { assert built[k] == tail[k - |sentence| - 1]; }
    }
  }

  /** Of two pieces, only the first survives when the second is blank or a
      short fragment. */
  lemma OnlyFirstKept(response: string, sentence: string, tail: string)
    requires Split(response, '.') == [sentence, tail]
    requires IsBlank(tail) || |tail| < 10
    ensures KeptSentences(response) == [sentence]
  {
    var kept := KeptSentences(response);
    assert |kept| == 1;
    assert kept == [sentence, tail][..1];
  }

  /** When one stop-free sentence is kept, the reply is that sentence and a
      full stop. */
  lemma OneSentenceClosed(response: string, sentence: string)
    requires response != [] && KeptSentences(response) == [sentence]
    requires sentence != [] && '.' !in sentence
    ensures TrimSentences(response) == sentence + "."
  {
    assert Join([sentence], ". ") == sentence;
    assert !EndsWith(sentence, ".") by {
      assert sentence[|sentence| - 1] != '.';
    }
  }
}

=== FILE: numerals.dfy ===
/** Decimal numerals: how JavaScript template literals and Python f-strings
    print integers, how `parseInt` reads a run of digits, and how the regular
    expression `/\d+/g` cuts a line into digit runs. */
module Numerals {
  import opened Wrappers
  import opened Strings

  function DigitChar(d: nat): (c: char)
    requires d < 10
    ensures IsDigit(c)
  {
    ('0' as int + d) as char
  }

  function DigitValue(c: char): (d: nat)
    requires IsDigit(c)
    ensures d < 10 && DigitChar(d) == c
  {
    c as int - '0' as int
  }

  predicate AllDigits(s: string) {
    forall i :: 0 <= i < |s| ==> IsDigit(s[i])
  }

  /** The decimal text of a natural number, as `${n}` / `str(n)` print it. */
  function NatToString(n: nat): (r: string)
    ensures |r| >= 1 && AllDigits(r)
    ensures r[0] == '0' ==> n == 0
    decreases n
  {
    if n < 10 then [DigitChar(n)] else NatToString(n / 10) + [DigitChar(n % 10)]
  }

  /** `parseInt` / `int` applied to a string of decimal digits (leading zeros
      are accepted and ignored). */
  function ParseDigits(s: string): nat
    requires AllDigits(s)
    decreases |s|
  {
    if s == [] then 0 else ParseDigits(s[..|s| - 1]) * 10 + DigitValue(s[|s| - 1])
  }

  /** Printing a natural number and parsing it back gives the number. */
  lemma {:induction false} ParseNatToString(n: nat)
    ensures ParseDigits(NatToString(n)) == n
    decreases n
  {
    if n >= 10 {
      var s := NatToString(n);
      assert s[..|s| - 1] == NatToString(n / 10);
      ParseNatToString(n / 10);
    }
  }

  /** The decimal text of an integer, with a leading '-' when negative. */
  function IntToString(i: int): (r: string)
    ensures |r| >= 1
    ensures i >= 0 ==> r == NatToString(i)
    ensures i < 0 ==> r[0] == '-' && r[1..] == NatToString(-i)
  {
    if i < 0 then "-" + NatToString(-i) else NatToString(i)
  }

  /** Reads back an optional '-' followed by at least one digit. */
  function ParseInt(s: string): Option<int> {
    if |s| >= 2 && s[0] == '-' && AllDigits(s[1..]) then Some(-(ParseDigits(s[1..]) as int))
    else if |s| >= 1 && AllDigits(s) then Some(ParseDigits(s))
    else None
  }

  /** Printing an integer and parsing it back gives the integer. */
  lemma ParseIntToString(i: int)
    ensures ParseInt(IntToString(i)) == Some(i)
  {
    var s := IntToString(i);
    if i < 0 {
      var digits := NatToString(-i);
      ParseNatToString(-i);
      assert s == "-" + digits && s[1..] == digits;
      assert |s| >= 2 && s[0] == '-' && AllDigits(s[1..]);
    } else {
      ParseNatToString(i);
      assert s[0] != '-';
    }
  }

  // ---------------------------------------------------------------- /\d+/g

  /** The length of the run of digits that `s` starts with. */
  function DigitPrefix(s: string): (k: nat)
    ensures k <= |s| && AllDigits(s[..k])
    ensures k < |s| ==> !IsDigit(s[k])
  {
    if s == [] || !IsDigit(s[0]) then 0 else 1 + DigitPrefix(s[1..])
  }

  /** `s.match(/\d+/g)`: the maximal runs of digits, left to right (the empty
      sequence where JavaScript returns null). */
  function DigitRuns(s: string): (r: seq<string>)
    ensures forall k :: 0 <= k < |r| ==> r[k] != [] && AllDigits(r[k])
    decreases |s|
  {
    if s == [] then []
    else if !IsDigit(s[0]) then DigitRuns(s[1..])
    else
      var k := DigitPrefix(s);
      [s[..k]] + DigitRuns(s[k..])
  }

  /** The digits of `s` in order, everything else dropped. */
  function Digits(s: string): string {
    if s == [] then [] else (if IsDigit(s[0]) then [s[0]] else []) + Digits(s[1..])
  }

  function Concat(parts: seq<string>): string {
    if parts == [] then [] else parts[0] + Concat(parts[1..])
  }

  lemma {:induction false} DigitsOfDigitRun(s: string)
    requires AllDigits(s)
    ensures Digits(s) == s
    decreases |s|
  {
    if s != [] {
      DigitsOfDigitRun(s[1..]);
    }
  }

  lemma {:induction false} DigitsAppend(a: string, b: string)
    ensures Digits(a + b) == Digits(a) + Digits(b)
    decreases |a|
  {
    if a == [] {
      assert a + b == b;
    } else {
      var head := if IsDigit(a[0]) then [a[0]] else [];
      assert (a + b)[0] == a[0];
      assert (a + b)[1..] == a[1..] + b;
      assert Digits(a + b) == head + Digits(a[1..] + b);
      assert Digits(a) == head + Digits(a[1..]);
      DigitsAppend(a[1..], b);
      assert head + (Digits(a[1..]) + Digits(b)) == (head + Digits(a[1..])) + Digits(b);
    }
  }

  /** The digit runs together hold every digit of the line and nothing else:
      no digit is skipped and none is counted twice. */
  lemma {:induction false} DigitRunsCoverDigits(s: string)
    ensures Concat(DigitRuns(s)) == Digits(s)
    decreases |s|
  {
    if s != [] {
      if !IsDigit(s[0]) {
        DigitRunsCoverDigits(s[1..]);
      } else {
        var k := DigitPrefix(s);
        DigitRunsCoverDigits(s[k..]);
        assert s == s[..k] + s[k..];
        DigitsAppend(s[..k], s[k..]);
        DigitsOfDigitRun(s[..k]);
      }
    }
  }

  /** A run of digits with a non-digit (or nothing) on either side is one
      match of `/\d+/g`, whatever surrounds it: the runs are maximal, never
      cut short and never merged across a non-digit. */
  lemma {:induction false} DigitRunsIsolate(x: string, d: string, y: string)
    requires AllDigits(d) && d != []
    requires x == [] || !IsDigit(x[|x| - 1])
    requires y == [] || !IsDigit(y[0])
    ensures DigitRuns(x + d + y) == DigitRuns(x) + [d] + DigitRuns(y)
    decreases |x|
  {
    if x == [] {
      assert x + d + y == d + y;
      DigitRunsOfRun(d, y);
    } else if !IsDigit(x[0]) {
      var rest := x[1..];
      assert rest == [] || rest[|rest| - 1] == x[|x| - 1];
      SkipNonDigit(x, d + y);
      ConcatAssoc(x, d, y);
      ConcatAssoc(rest, d, y);
      DigitRunsIsolate(rest, d, y);
    } else {
      RunEndsInside(x);
      var k := DigitPrefix(x);
      var rest := x[k..];
      assert rest[|rest| - 1] == x[|x| - 1];
      TakeLeadingRun(x, d + y);
      ConcatAssoc(x, d, y);
      ConcatAssoc(rest, d, y);
      DigitRunsIsolate(rest, d, y);
      var runs, tail := DigitRuns(rest), [d] + DigitRuns(y);
      ConcatAssoc([x[..k]], runs, tail);
      ConcatAssoc(runs, [d], DigitRuns(y));
      ConcatAssoc([x[..k]] + runs, [d], DigitRuns(y));
    }
  }

  /** A leading non-digit is skipped, whatever follows. */
  lemma SkipNonDigit(x: string, z: string)
    requires x != [] && !IsDigit(x[0])
    ensures DigitRuns(x + z) == DigitRuns(x[1..] + z) && DigitRuns(x) == DigitRuns(x[1..])
  {
    assert (x + z)[0] == x[0] && (x + z)[1..] == x[1..] + z;
  }

  /** A leading run that ends inside `x` is the first match, whatever
      follows `x`. */
  lemma TakeLeadingRun(x: string, z: string)
    requires x != [] && IsDigit(x[0]) && DigitPrefix(x) < |x|
    ensures var k := DigitPrefix(x);
            DigitRuns(x + z) == [x[..k]] + DigitRuns(x[k..] + z) && DigitRuns(x) == [x[..k]] + DigitRuns(x[k..])
  {
    var k := DigitPrefix(x);
    DigitPrefixAppend(x, z);
    assert (x + z)[0] == x[0];
    assert (x + z)[..k] == x[..k] && (x + z)[k..] == x[k..] + z;
  }

  lemma RunEndsInside(x: string)
    requires x != [] && !IsDigit(x[|x| - 1])
    ensures DigitPrefix(x) < |x|
  {
  }

  /** A line that starts with the run `d`, followed by a non-digit or
      nothing, yields `d` first. */
  lemma DigitRunsOfRun(d: string, y: string)
    requires AllDigits(d) && d != []
    requires y == [] || !IsDigit(y[0])
    ensures DigitRuns(d + y) == [d] + DigitRuns(y)
  {
    DigitPrefixOfRun(d, y);
    assert (d + y)[..|d|] == d && (d + y)[|d|..] == y;
  }

  lemma {:induction false} DigitPrefixOfRun(d: string, y: string)
    requires AllDigits(d)
    requires y == [] || !IsDigit(y[0])
    ensures DigitPrefix(d + y) == |d|
    decreases |d|
  {
    if d == [] {
      assert d + y == y;
    } else {
      assert (d + y)[1..] == d[1..] + y;
      DigitPrefixOfRun(d[1..], y);
    }
  }

  /** The leading run stops inside `a` when `a` has a non-digit. */
  lemma {:induction false} DigitPrefixAppend(a: string, b: string)
    requires DigitPrefix(a) < |a|
    ensures DigitPrefix(a + b) == DigitPrefix(a)
    decreases |a|
  {
    if IsDigit(a[0]) {
      assert (a + b)[1..] == a[1..] + b;
      DigitPrefixAppend(a[1..], b);
    }
  }
}

=== FILE: sequences.dfy ===
/** Generic sequence helpers shared by the JavaScript and the Python models. */
module Sequences {

  function Min(a: int, b: int): int { if a <= b then a else b }
  function Max(a: int, b: int): int { if a <= b then b else a }

  /** `xs.slice(start)` in JavaScript and `xs[start:]` in Python: the two
      languages agree on a one-sided slice.  A negative start counts from the
      end and is clamped at 0; a start past the end gives the empty sequence. */
  function SliceFrom<T>(xs: seq<T>, start: int): (r: seq<T>)
    ensures |r| <= |xs|
    ensures r == xs[|xs| - |r|..]
    ensures start >= 0 ==> |r| == Max(|xs| - start, 0)
    ensures start < 0 ==> |r| == Min(-start, |xs|)
  {
    if start < 0 then xs[Max(|xs| + start, 0)..] else xs[Min(start, |xs|)..]
  }

  /** The last `n` elements of `xs` (all of them when there are fewer). */
  function LastN<T>(xs: seq<T>, n: nat): (r: seq<T>)
    ensures |r| == Min(n, |xs|)
    ensures r == xs[|xs| - |r|..]
  {
    xs[|xs| - Min(n, |xs|)..]
  }

  /** A positive count given to a negative one-sided slice keeps the last `n`
      elements in their original order; `-0` is `0` and keeps everything. */
  lemma SliceFromNegative<T>(xs: seq<T>, n: int)
    ensures n >= 1 ==> SliceFrom(xs, -n) == LastN(xs, n)
    ensures n == 0 ==> SliceFrom(xs, -n) == xs
  {
  }

  /** The first element and the rest of a non-empty list are unchanged by
      appending to it. */
  lemma HeadTailAppend<T>(xs: seq<T>, ys: seq<T>)
    requires xs != []
    ensures (xs + ys)[0] == xs[0] && (xs + ys)[1..] == xs[1..] + ys
  {
  }

  /** Moving the first element of `ys` across the `+` changes nothing. */
  lemma AppendHeadTail<T>(xs: seq<T>, ys: seq<T>)
    requires ys != []
    ensures xs + [ys[0]] + ys[1..] == xs + ys
  {
    assert [ys[0]] + ys[1..] == ys;
    assert xs + [ys[0]] + ys[1..] == xs + ([ys[0]] + ys[1..]);
  }

  /** The positions of `xs` whose element satisfies `p`: what
      `xs.filter(p).length` counts. */
  ghost function Positions<T>(xs: seq<T>, p: T -> bool): set<int> {
    set k | 0 <= k < |xs| && p(xs[k])
  }

  /** Appending an element adds its position exactly when it satisfies `p`. */
  lemma PositionsAppend<T>(xs: seq<T>, x: T, p: T -> bool)
    ensures |Positions(xs + [x], p)| == |Positions(xs, p)| + (if p(x) then 1 else 0)
  {
    var a := Positions(xs, p);
    var b := Positions(xs + [x], p);
    forall k | k in b && k < |xs| ensures k in a {
      assert (xs + [x])[k] == xs[k];
    }
    forall k | k in a ensures k in b {
      assert (xs + [x])[k] == xs[k];
    }
    assert |xs| !in a;
    if p(x) {
      assert b == a + {|xs|};
    } else {
      assert b == a;
    }
  }
}

=== FILE: streak.dfy ===
/** The habit-streak algorithm of `calculateStreak` (src/daily_features.js):
    sort the tracked days newest first and count the leading run whose
    neighbours are exactly one day apart.  Days are whole calendar-day numbers;
    the source's millisecond arithmetic on local-midnight `Date` values is
    modelled separately (`StreakAsWritten`) to show where the two differ. */
module Streak {

  /** Milliseconds per day: the divisor `1000 * 60 * 60 * 24`. */
  const MsPerDay: int := 86400000

  ghost predicate SortedDesc(s: seq<int>) {
    forall i, j :: 0 <= i < j < |s| ==> s[i] >= s[j]
  }

  predicate NoDuplicates(s: seq<int>) {
    forall i, j :: 0 <= i < j < |s| ==> s[i] != s[j]
  }

  function Insert(x: int, s: seq<int>): (r: seq<int>)
    requires SortedDesc(s)
    ensures |r| == |s| + 1
    ensures SortedDesc(r)
    ensures multiset(r) == multiset(s) + multiset{x}
  {
    if s == [] || x >= s[0] then
      SortedCons(x, s);
      [x] + s
    else
      var t := Insert(x, s[1..]);
      BoundedByHead(s, x, t);
      SortedCons(s[0], t);
      assert s == [s[0]] + s[1..];
      [s[0]] + t
  }

  /** A value at least as large as every element can go in front. */
  lemma SortedCons(h: int, t: seq<int>)
    requires SortedDesc(t)
    requires t == [] || h >= t[0]
    ensures SortedDesc([h] + t)
  {
  }

  /** Whatever holds the tail of a sorted list and a smaller value is
      bounded by the list's head. */
  lemma BoundedByHead(s: seq<int>, x: int, t: seq<int>)
    requires SortedDesc(s) && s != [] && x < s[0]
    requires multiset(t) == multiset(s[1..]) + multiset{x}
    ensures t == [] || t[0] <= s[0]
  {
    if t != [] {
      assert t[0] in multiset(t);
      if t[0] != x {
        assert t[0] in multiset(s[1..]);
        assert t[0] in s[1..];
      }
    }
  }

  /** `dates.sort((a, b) => b - a)`: the days, newest first. */
  function SortDesc(s: seq<int>): (r: seq<int>)
    ensures |r| == |s|
    ensures SortedDesc(r)
    ensures multiset(r) == multiset(s)
  {
    if s == [] then []
    else
      assert s == [s[0]] + s[1..];
      Insert(s[0], SortDesc(s[1..]))
  }

  lemma SameMembers(a: seq<int>, b: seq<int>)
    requires multiset(a) == multiset(b)
    ensures forall v :: v in a <==> v in b
  {
    forall v ensures v in a <==> v in b {
      assert v in a <==> v in multiset(a);
      assert v in b <==> v in multiset(b);
    }
  }

  lemma {:induction false} InsertNoDuplicates(x: int, s: seq<int>)
    requires SortedDesc(s) && x !in s && NoDuplicates(s)
    ensures NoDuplicates(Insert(x, s))
    decreases |s|
  {
    if s != [] && x < s[0] {
      assert s == [s[0]] + s[1..];
      InsertNoDuplicates(x, s[1..]);
      var t := Insert(x, s[1..]);
      SameMembers(t, s[1..] + [x]);
      assert s[0] !in t;
    }
  }

  /** Sorting a duplicate-free list keeps it duplicate-free. */
  lemma {:induction false} SortNoDuplicates(s: seq<int>)
    requires NoDuplicates(s)
    ensures NoDuplicates(SortDesc(s))
    decreases |s|
  {
    if s != [] {
      SortNoDuplicates(s[1..]);
      SameMembers(SortDesc(s[1..]), s[1..]);
      InsertNoDuplicates(s[0], SortDesc(s[1..]));
    }
  }

  /** The length of the leading run of a newest-first list whose neighbours
      differ by exactly one day. */
  function Run(s: seq<int>): (k: nat)
    ensures k <= |s|
    ensures s != [] ==> k >= 1
  {
    if |s| <= 1 then |s| else if s[0] - s[1] == 1 then 1 + Run(s[1..]) else 1
  }

  /** The streak reported for a list of tracked days. */
  function StreakOf(dates: seq<int>): (k: nat)
    ensures dates == [] ==> k == 0
    ensures dates != [] ==> 1 <= k <= |dates|
  {
    Run(SortDesc(dates))
  }

  /** `calculateStreak(dates)`: the imperative loop of the source, which stops
      at the first neighbour pair that is not one day apart. */
  method CalculateStreak(dates: seq<int>) returns (streak: nat)
    ensures streak == StreakOf(dates)
    ensures dates == [] ==> streak == 0
    ensures dates != [] ==> 1 <= streak <= |dates|
  {
    if |dates| == 0 {
      return 0;
    }
    var sorted := SortDesc(dates);
    streak := 1;
    var i := 1;
    while i < |sorted|
      invariant 1 <= i <= |sorted|
      invariant streak == i
      invariant Run(sorted) == i - 1 + Run(sorted[i - 1..])
    {
      if sorted[i - 1] - sorted[i] == 1 {
        assert sorted[i - 1..][1..] == sorted[i..];
        streak := streak + 1;
      } else {
        break;
      }
      i := i + 1;
    }
  }

  // ---------------------------------------------------------------- meaning

  /** The newest tracked day. */
  function Latest(dates: seq<int>): (m: int)
    requires dates != []
    ensures m in dates
    ensures forall k :: 0 <= k < |dates| ==> dates[k] <= m
  {
    if |dates| == 1 then dates[0]
    else
      var m := Latest(dates[1..]);
      if dates[0] >= m then dates[0] else m
  }

  /** The `k` days ending at `top` were all tracked and the day before them
      was not: a run of exactly `k` consecutive days ending at `top`. */
  ghost predicate RunEndingAt(dates: seq<int>, top: int, k: nat) {
    (forall d :: top - k < d <= top ==> d in dates) && top - k !in dates
  }

  /** At most one run length fits a given end day. */
  lemma RunEndingAtUnique(dates: seq<int>, top: int, k1: nat, k2: nat)
    requires RunEndingAt(dates, top, k1) && RunEndingAt(dates, top, k2)
    ensures k1 == k2
  {
  }

  ghost predicate StrictlyDesc(s: seq<int>) {
    forall i, j :: 0 <= i < j < |s| ==> s[i] > s[j]
  }

  lemma {:induction false} RunShape(s: seq<int>)
    requires s != [] && StrictlyDesc(s)
    ensures forall j :: 0 <= j < Run(s) ==> s[j] == s[0] - j
    ensures s[0] - Run(s) !in s
    decreases |s|
  {
    if |s| >= 2 {
      if s[0] - s[1] == 1 {
        RunShape(s[1..]);
        assert s == [s[0]] + s[1..];
        forall j | 1 <= j < Run(s) ensures s[j] == s[0] - j {
          assert s[j] == s[1..][j - 1];
        }
      } else {
        forall k | 0 <= k < |s| ensures s[k] != s[0] - 1 {
          if k >= 2 { assert s[k] < s[1]; }
        }
      }
    }
  }

  /** The streak of a duplicate-free list of days is the length of the run of
      consecutive days ending at the newest one: every day of the run was
      tracked and the day before the run was not. */
  lemma StreakIsRunEndingAtLatest(dates: seq<int>)
    requires dates != [] && NoDuplicates(dates)
    ensures RunEndingAt(dates, Latest(dates), StreakOf(dates))
  {
    var s := SortDesc(dates);
    SortNoDuplicates(dates);
    SortedHeadIsLatest(dates, s);
    StrictWhenDistinct(s);
    RunEndingAtHead(s);
    SameMembers(dates, s);
    RunEndingAtSameMembers(s, dates, s[0], Run(s));
  }

  lemma RunEndingAtHead(s: seq<int>)
    requires s != [] && StrictlyDesc(s)
    ensures RunEndingAt(s, s[0], Run(s))
  {
    RunShape(s);
    var n := Run(s);
    forall d | s[0] - n < d <= s[0] ensures d in s {
      assert s[s[0] - d] == d;
    }
  }

  lemma RunEndingAtSameMembers(a: seq<int>, b: seq<int>, top: int, k: nat)
    requires forall v :: v in a <==> v in b
    requires RunEndingAt(a, top, k)
    ensures RunEndingAt(b, top, k)
  {
  }

  lemma StrictWhenDistinct(s: seq<int>)
    requires SortedDesc(s) && NoDuplicates(s)
    ensures StrictlyDesc(s)
  {
  }

  lemma SortedHeadIsLatest(dates: seq<int>, s: seq<int>)
    requires dates != [] && s == SortDesc(dates)
    ensures s[0] == Latest(dates)
  {
    SameMembers(dates, s);
    var top := Latest(dates);
    var k :| 0 <= k < |s| && s[k] == top;
    assert s[0] in dates;
  }

  /** A run of `k` days ending at the newest day is the streak. */
  lemma StreakOfRun(dates: seq<int>, k: nat)
    requires dates != [] && NoDuplicates(dates)
    requires RunEndingAt(dates, Latest(dates), k)
    ensures StreakOf(dates) == k
  {
    StreakIsRunEndingAtLatest(dates);
    RunEndingAtUnique(dates, Latest(dates), k, StreakOf(dates));
  }

  /** A day later than every tracked day becomes the newest one. */
  lemma {:induction false} LatestAppend(s: seq<int>, x: int)
    requires forall k :: 0 <= k < |s| ==> s[k] < x
    ensures Latest(s + [x]) == x
    decreases |s|
  {
    if s != [] {
      assert (s + [x])[1..] == s[1..] + [x];
      LatestAppend(s[1..], x);
    }
  }

  /** A day more than one day after every tracked day starts a new streak
      of 1. */
  lemma StreakAfterGap(dates: seq<int>, today: int)
    requires NoDuplicates(dates)
    requires forall d :: d in dates ==> d < today - 1
    ensures NoDuplicates(dates + [today])
    ensures StreakOf(dates + [today]) == 1
  {
    var s := dates + [today];
    assert forall k :: 0 <= k < |dates| ==> dates[k] in dates;
    LatestAppend(dates, today);
    assert today - 1 !in s;
    assert s[|dates|] == today;
    StreakOfRun(s, 1);
  }

  /** The days `first, first + 1, ..., first + n - 1`. */
  function DayRange(first: int, n: nat): (r: seq<int>)
    ensures |r| == n
    ensures forall k :: 0 <= k < n ==> r[k] == first + k
  {
    if n == 0 then [] else DayRange(first, n - 1) + [first + n - 1]
  }

  lemma DayRangeLast(first: int, n: nat)
    requires n >= 1
    ensures DayRange(first, n) == DayRange(first, n - 1) + [first + n - 1]
    ensures first + n - 1 !in DayRange(first, n - 1)
  {
  }

  /** `n` consecutive days have streak `n`. */
  lemma StreakOfDayRange(first: int, n: nat)
    requires n >= 1
    ensures NoDuplicates(DayRange(first, n))
    ensures StreakOf(DayRange(first, n)) == n
  {
    var r := DayRange(first, n);
    var top := first + n - 1;
    forall i, j | 0 <= i < j < |r| ensures r[i] != r[j] {
      assert r[i] == first + i && r[j] == first + j;
    }
    assert r == DayRange(first, n - 1) + [top];
    LatestAppend(DayRange(first, n - 1), top);
    forall d | top - n < d <= top ensures d in r {
      assert r[d - first] == d;
    }
    assert forall k :: 0 <= k < |r| ==> r[k] > top - n;
    assert RunEndingAt(r, top, n);
    StreakOfRun(r, n);
  }

  // ---------------------------------------------------------------- as written

  /** Epoch milliseconds of local midnight starting `day` in a zone whose
      offset from UTC that day is `utcOffsetMs`: what `new Date(d)` gives for a
      `toDateString()` value `d`. */
  function LocalMidnight(day: int, utcOffsetMs: int): int {
    day * MsPerDay - utcOffsetMs
  }

  /** The source's loop over millisecond values: `(a - b) / 86400000 === 1`
      holds, for integral millisecond values, exactly when `a - b` is 86400000. */
  function RunAsWritten(ms: seq<int>): (k: nat)
    ensures k <= |ms|
  {
    if |ms| <= 1 then |ms| else if ms[0] - ms[1] == MsPerDay then 1 + RunAsWritten(ms[1..]) else 1
  }

  /** `calculateStreak` as written, on the `Date` values of the tracked days. */
  function StreakAsWritten(ms: seq<int>): nat {
    RunAsWritten(SortDesc(ms))
  }

  /** The local midnights of `days` in a zone with a fixed UTC offset. */
  function Midnights(days: seq<int>, utcOffsetMs: int): (r: seq<int>)
    ensures |r| == |days|
    ensures forall k :: 0 <= k < |days| ==> r[k] == LocalMidnight(days[k], utcOffsetMs)
  {
    if days == [] then [] else [LocalMidnight(days[0], utcOffsetMs)] + Midnights(days[1..], utcOffsetMs)
  }

  lemma {:induction false} InsertMidnights(x: int, s: seq<int>, off: int)
    requires SortedDesc(s)
    ensures SortedDesc(Midnights(s, off))
    ensures Insert(LocalMidnight(x, off), Midnights(s, off)) == Midnights(Insert(x, s), off)
    decreases |s|
  {
    MidnightsSorted(s, off);
    var ms := Midnights(s, off);
    var mx := LocalMidnight(x, off);
    if s == [] {
      MidnightsCons(x, [], off);
    } else if x >= s[0] {
      MidnightsLater(x, s[0], off);
      assert Insert(mx, ms) == [mx] + ms;
      assert Insert(x, s) == [x] + s;
      MidnightsCons(x, s, off);
    } else {
      MidnightsLater(s[0], x, off);
      var t := Insert(x, s[1..]);
      assert Insert(x, s) == [s[0]] + t;
      InsertMidnights(x, s[1..], off);
      assert ms[0] == LocalMidnight(s[0], off) && ms[1..] == Midnights(s[1..], off);
      assert Insert(mx, ms) == [ms[0]] + Insert(mx, ms[1..]);
      MidnightsCons(s[0], t, off);
    }
  }

  /** Later days have later midnights. */
  lemma MidnightsLater(a: int, b: int, off: int)
    requires a >= b
    ensures LocalMidnight(a, off) >= LocalMidnight(b, off)
    ensures a > b ==> LocalMidnight(a, off) > LocalMidnight(b, off)
  {
  }

  lemma MidnightsSorted(s: seq<int>, off: int)
    requires SortedDesc(s)
    ensures SortedDesc(Midnights(s, off))
  {
    var ms := Midnights(s, off);
    forall i, j | 0 <= i < j < |ms| ensures ms[i] >= ms[j] {
      MidnightsLater(s[i], s[j], off);
    }
  }

  lemma MidnightsCons(h: int, t: seq<int>, off: int)
    ensures Midnights([h] + t, off) == [LocalMidnight(h, off)] + Midnights(t, off)
  {
    assert ([h] + t)[1..] == t;
  }

  lemma {:induction false} SortMidnights(days: seq<int>, off: int)
    ensures SortDesc(Midnights(days, off)) == Midnights(SortDesc(days), off)
    decreases |days|
  {
    if days != [] {
      SortMidnights(days[1..], off);
      assert Midnights(days, off)[1..] == Midnights(days[1..], off);
      InsertMidnights(days[0], SortDesc(days[1..]), off);
    }
  }

  lemma {:induction false} RunMidnights(s: seq<int>, off: int)
    ensures RunAsWritten(Midnights(s, off)) == Run(s)
    decreases |s|
  {
    if |s| >= 2 {
      assert Midnights(s, off)[1..] == Midnights(s[1..], off);
      RunMidnights(s[1..], off);
    }
  }

  /** While the zone's UTC offset stays the same over all tracked days, the
      source's millisecond test agrees with whole-day arithmetic. */
  lemma AsWrittenAgreesAtFixedOffset(days: seq<int>, utcOffsetMs: int)
    ensures StreakAsWritten(Midnights(days, utcOffsetMs)) == StreakOf(days)
  {
    SortMidnights(days, utcOffsetMs);
    RunMidnights(SortDesc(days), utcOffsetMs);
  }

  /** Across a daylight-saving change the local days are 23 hours apart, so
      the source's test fails: tracking on 2024-03-10 (day 19792) and
      2024-03-11 in a zone going from UTC-5 to UTC-4 reports a streak of 1,
      where the two consecutive days give 2. */
  lemma DstBreaksStreakAsWritten()
    ensures StreakAsWritten([LocalMidnight(19792, -18000000), LocalMidnight(19793, -14400000)]) == 1
    ensures StreakOf([19792, 19793]) == 2
  {
    var a := LocalMidnight(19792, -18000000);
    var b := LocalMidnight(19793, -14400000);
    assert b - a == MsPerDay - 3600000;
    SortTwo(a, b);
    assert RunAsWritten([b, a]) == 1;
    SortTwo(19792, 19793);
    assert Run([19793, 19792]) == 1 + Run([19792]);
  }

  /** Two distinct values sort larger first. */
  lemma SortTwo(x: int, y: int)
    requires x < y
    ensures SortDesc([x, y]) == [y, x]
  {
    assert [x, y][1..] == [y];
    assert SortDesc([y]) == Insert(y, SortDesc([])) == [y];
    assert Insert(x, [y]) == [y] + Insert(x, []);
  }
}

=== FILE: strings.dfy ===
/** Character classes and the string operations the JavaScript and Python
    sources call (`trim`/`strip`, `toLowerCase`/`lower`, `includes`/`in`,
    `split`, `join`, `replace`), over `string` = `seq<char>`.  Case mapping and
    whitespace are restricted to ASCII. */
module Strings {
  import opened Wrappers

  /** The six ASCII characters that JavaScript's `trim`, the regular-expression
      class `\s` and Python's `strip` all treat as whitespace.  Python's
      `strip` also removes the separators `\x1c`-`\x1f`, and all three remove
      non-ASCII spaces; neither kind is whitespace here. */
  predicate IsSpace(c: char) {
    c == ' ' || c == '\t' || c == '\n' || c == '\r' || c == '\U{000B}' || c == '\U{000C}'
  }

  predicate IsUpper(c: char) { 'A' <= c <= 'Z' }
  predicate IsLower(c: char) { 'a' <= c <= 'z' }
  predicate IsLetter(c: char) { IsUpper(c) || IsLower(c) }
  predicate IsDigit(c: char) { '0' <= c <= '9' }

  /** True when every character is whitespace, the empty string included. */
  predicate IsBlank(s: string) {
    forall i :: 0 <= i < |s| ==> IsSpace(s[i])
  }

  // ---------------------------------------------------------------- case

  function LowerChar(c: char): (r: char)
    ensures !IsUpper(r)
    ensures !IsUpper(c) ==> r == c
    ensures IsUpper(c) ==> IsLower(r) && r as int == c as int + 32
  {
    if IsUpper(c) then (c as int + 32) as char else c
  }

  function UpperChar(c: char): (r: char)
    ensures !IsLower(r)
    ensures !IsLower(c) ==> r == c
    ensures IsLower(c) ==> IsUpper(r) && r as int + 32 == c as int
  {
    if IsLower(c) then (c as int - 32) as char else c
  }

  /** `toLowerCase()` / `lower()`. */
  function Lower(s: string): (r: string)
    ensures |r| == |s|
    ensures forall i {:trigger r[i]} :: 0 <= i < |s| ==> r[i] == LowerChar(s[i])
  {
    seq(|s|, i requires 0 <= i < |s| => LowerChar(s[i]))
  }

  /** Python's `capitalize()`: the first character upper-cased, the rest lower-cased. */
  function Capitalize(s: string): (r: string)
    ensures |r| == |s|
    ensures s != [] ==> r[0] == UpperChar(s[0]) && r[1..] == Lower(s[1..])
  {
    if s == [] then [] else [UpperChar(s[0])] + Lower(s[1..])
  }

  lemma LowerIdempotent(s: string)
    ensures Lower(Lower(s)) == Lower(s)
  {
  }

  lemma LowerAppend(a: string, b: string)
    ensures Lower(a + b) == Lower(a) + Lower(b)
  {
  }

  lemma LowerSlice(s: string, i: int, j: int)
    requires 0 <= i <= j <= |s|
    ensures Lower(s[i..j]) == Lower(s)[i..j]
  {
  }

  // ---------------------------------------------------------------- trim

  /** The end of the run of whitespace that starts at `i`. */
  function SpacesFrom(s: string, i: nat): (k: nat)
    requires i <= |s|
    ensures i <= k <= |s|
    ensures forall j :: i <= j < k ==> IsSpace(s[j])
    ensures k == |s| || !IsSpace(s[k])
    decreases |s| - i
  {
    if i < |s| && IsSpace(s[i]) then SpacesFrom(s, i + 1) else i
  }

  /** The start of the run of whitespace that ends at `j`. */
  function TextEnd(s: string, j: nat): (k: nat)
    requires j <= |s|
    ensures k <= j
    ensures forall i :: k <= i < j ==> IsSpace(s[i])
    ensures k == 0 || !IsSpace(s[k - 1])
    decreases j
  {
    if j > 0 && IsSpace(s[j - 1]) then TextEnd(s, j - 1) else j
  }

  function TrimStart(s: string): (r: string)
    ensures |r| <= |s| && r == s[|s| - |r|..]
    ensures forall i :: 0 <= i < |s| - |r| ==> IsSpace(s[i])
    ensures r == [] || !IsSpace(r[0])
  {
    s[SpacesFrom(s, 0)..]
  }

  function TrimEnd(s: string): (r: string)
    ensures |r| <= |s| && r == s[..|r|]
    ensures forall i :: |r| <= i < |s| ==> IsSpace(s[i])
    ensures r == [] || !IsSpace(r[|r| - 1])
  {
    s[..TextEnd(s, |s|)]
  }

  /** JavaScript's `trim()` and Python's `strip()`: the longest infix of `s`
      that neither starts nor ends with whitespace, with only whitespace cut
      away on either side. */
  function Trim(s: string): (r: string)
    ensures r == [] <==> IsBlank(s)
    ensures r == [] || (!IsSpace(r[0]) && !IsSpace(r[|r| - 1]))
  {
    TrimEmptyIffBlank(s);
    TrimEnd(TrimStart(s))
  }

  lemma TrimEmptyIffBlank(s: string)
    ensures TrimEnd(TrimStart(s)) == [] <==> IsBlank(s)
  {
  }

  /** What `Trim` cuts away is whitespace on either side, and nothing else. */
  lemma TrimShape(s: string)
    ensures exists i :: TrimmedAt(s, Trim(s), i)
  {
    TrimWitness(s);
    assert TrimmedAt(s, Trim(s), |s| - |TrimStart(s)|);
  }

  /** `r` sits at offset `i` of `s` with only whitespace around it. */
  ghost predicate TrimmedAt(s: string, r: string, i: int) {
    0 <= i <= |s| - |r| && r == s[i..i + |r|] && IsBlank(s[..i]) && IsBlank(s[i + |r|..])
  }

  lemma TrimWitness(s: string)
    ensures TrimmedAt(s, TrimEnd(TrimStart(s)), |s| - |TrimStart(s)|)
    ensures TrimEnd(TrimStart(s)) == [] <==> IsBlank(s)
  {
    var t := TrimStart(s);
    var r := TrimEnd(t);
    var i := |s| - |t|;
    TrimSurroundings(s, t, r, i);
  }

  lemma TrimSurroundings(s: string, t: string, r: string, i: int)
    requires 0 <= i <= |s| && t == s[i..] && IsBlank(s[..i])
    requires |r| <= |t| && r == t[..|r|] && IsBlank(t[|r|..])
    ensures TrimmedAt(s, r, i)
    ensures r == [] ==> IsBlank(s)
  {
    assert s[i + |r|..] == t[|r|..];
    if r == [] {
      assert s == s[..i] + t[|r|..];
    }
  }

  /** A text that neither starts nor ends with whitespace is its own trim. */
  lemma TrimOfTrimmed(s: string)
    requires s != [] && !IsSpace(s[0]) && !IsSpace(s[|s| - 1])
    ensures Trim(s) == s
  {
    assert TrimStart(s) == s;
  }

  /** The trimmed text is a piece of the original, so it holds no character
      the original lacks. */
  lemma TrimInfix(s: string)
    ensures Contains(s, Trim(s))
    ensures forall c :: c in Trim(s) ==> c in s
  {
    var t := Trim(s);
    var i := |s| - |TrimStart(s)|;
    TrimWitness(s);
    ContainsWhenOccurs(s, t, i);
    SliceChars(s, t, i);
  }

  /** The characters of a slice all come from the text it is cut from. */
  lemma SliceChars(s: string, t: string, i: int)
    requires 0 <= i <= |s| - |t| && t == s[i..i + |t|]
    ensures forall c :: c in t ==> c in s
  {
    forall c | c in t ensures c in s {
      var k :| 0 <= k < |t| && t[k] == c;
      assert s[i + k] == c;
    }
  }

  lemma TrimIdempotent(s: string)
    ensures Trim(Trim(s)) == Trim(s)
  {
    var r := Trim(s);
    if r != [] {
      assert TrimStart(r) == r;
      assert TrimEnd(r) == r;
    }
  }

  lemma TrimLower(s: string)
    ensures Trim(Lower(s)) == Lower(Trim(s))
  {
    TrimStartLower(s);
    TrimEndLower(TrimStart(s));
  }

  /** Lower-casing never makes or unmakes whitespace. */
  lemma SpaceLower(c: char)
    ensures IsSpace(LowerChar(c)) <==> IsSpace(c)
  {
  }

  /** Lower-casing a text does not change whether it is blank. */
  lemma BlankLower(s: string)
    ensures IsBlank(Lower(s)) <==> IsBlank(s)
  {
    forall i | 0 <= i < |s| ensures IsSpace(Lower(s)[i]) <==> IsSpace(s[i]) {
      SpaceLower(s[i]);
    }
  }

  lemma {:induction false} SpacesFromLower(s: string, i: nat)
    requires i <= |s|
    ensures SpacesFrom(Lower(s), i) == SpacesFrom(s, i)
    decreases |s| - i
  {
    if i < |s| {
      SpaceLower(s[i]);
      if IsSpace(s[i]) {
        SpacesFromLower(s, i + 1);
      }
    }
  }

  lemma {:induction false} TextEndLower(s: string, j: nat)
    requires j <= |s|
    ensures TextEnd(Lower(s), j) == TextEnd(s, j)
    decreases j
  {
    if j > 0 {
      SpaceLower(s[j - 1]);
      if IsSpace(s[j - 1]) {
        TextEndLower(s, j - 1);
      }
    }
  }

  lemma TrimStartLower(s: string)
    ensures TrimStart(Lower(s)) == Lower(TrimStart(s))
  {
    SpacesFromLower(s, 0);
    LowerSlice(s, SpacesFrom(s, 0), |s|);
  }

  lemma TrimEndLower(s: string)
    ensures TrimEnd(Lower(s)) == Lower(TrimEnd(s))
  {
    TextEndLower(s, |s|);
    LowerSlice(s, 0, TextEnd(s, |s|));
  }

  // ---------------------------------------------------------------- search

  predicate StartsWith(s: string, p: string) {
    |p| <= |s| && s[..|p|] == p
  }

  predicate EndsWith(s: string, p: string) {
    |p| <= |s| && s[|s| - |p|..] == p
  }

  /** `p` occurs in `s` at position `i`. */
  predicate OccursAt(s: string, p: string, i: int) {
    0 <= i && i + |p| <= |s| && s[i..i + |p|] == p
  }

  /** `i` is where `p` first occurs in `s`. */
  predicate FirstOccurrence(s: string, p: string, i: int) {
    OccursAt(s, p, i) && forall m :: 0 <= m < i ==> !OccursAt(s, p, m)
  }

  /** The first occurrence of `p` in `s` at or after `from`. */
  function IndexFrom(s: string, p: string, from: nat): (r: Option<nat>)
    ensures r.Some? ==> from <= r.value && OccursAt(s, p, r.value)
    ensures r.Some? ==> forall j :: from <= j < r.value ==> !OccursAt(s, p, j)
    ensures r.None? ==> forall j :: from <= j ==> !OccursAt(s, p, j)
    decreases |s| - from
  {
    if from + |p| > |s| then None
    else if s[from..from + |p|] == p then Some(from)
    else IndexFrom(s, p, from + 1)
  }

  /** `s.indexOf(p)` / `s.find(p)`, with `None` for -1. */
  function IndexOf(s: string, p: string): (r: Option<nat>)
    ensures r.Some? ==> OccursAt(s, p, r.value)
    ensures r.Some? ==> forall j :: 0 <= j < r.value ==> !OccursAt(s, p, j)
    ensures r.None? ==> forall j :: !OccursAt(s, p, j)
  {
    IndexFrom(s, p, 0)
  }

  /** `s.includes(p)` / `p in s`: `p` occurs somewhere in `s`. */
  predicate Contains(s: string, p: string) {
    exists i :: 0 <= i <= |s| - |p| && OccursAt(s, p, i)
  }

  /** Searching finds an occurrence exactly when there is one. */
  lemma IndexOfContains(s: string, p: string)
    ensures IndexOf(s, p).Some? <==> Contains(s, p)
  {
    if IndexOf(s, p).Some? {
      ContainsWhenOccurs(s, p, IndexOf(s, p).value);
    }
  }

  lemma ContainsWhenOccurs(s: string, p: string, i: int)
    requires OccursAt(s, p, i)
    ensures Contains(s, p)
  {
  }

  /** A string containing `q` contains every infix of `q`. */
  lemma ContainsInfix(s: string, q: string, p: string)
    requires Contains(s, q) && Contains(q, p)
    ensures Contains(s, p)
  {
    var i :| 0 <= i <= |s| - |q| && OccursAt(s, q, i);
    var j :| 0 <= j <= |q| - |p| && OccursAt(q, p, j);
    forall k | 0 <= k < |p| ensures s[i + j + k] == p[k] {
      assert q[j..j + |p|][k] == p[k];
      assert s[i..i + |q|][j + k] == q[j + k];
    }
    assert s[i + j..i + j + |p|] == p;
    ContainsWhenOccurs(s, p, i + j);
  }

  lemma StartsWithTrans(s: string, p: string, q: string)
    requires StartsWith(s, p) && StartsWith(p, q)
    ensures StartsWith(s, q)
  {
    assert s[..|q|] == s[..|p|][..|q|];
  }

  lemma StartsWithContains(s: string, p: string)
    requires StartsWith(s, p)
    ensures Contains(s, p)
  {
    ContainsWhenOccurs(s, p, 0);
  }

  /** The index of the first of `keys` that occurs in `s`: the first-match
      lookup of an ordered keyword table. */
  function FirstContained(s: string, keys: seq<string>): (r: Option<nat>)
    ensures r.Some? ==> r.value < |keys| && Contains(s, keys[r.value])
    ensures r.Some? ==> forall j :: 0 <= j < r.value ==> !Contains(s, keys[j])
    ensures r.None? <==> forall j :: 0 <= j < |keys| ==> !Contains(s, keys[j])
  {
    if keys == [] then None
    else if Contains(s, keys[0]) then Some(0)
    else
      match FirstContained(s, keys[1..])
      case None => None
      case Some(k) => Some(k + 1)
  }
  /** The first key the text contains is the one `FirstContained` finds. */
  lemma FirstContainedIsFirst(s: string, keys: seq<string>, k: nat)
    requires k < |keys| && Contains(s, keys[k])
    requires forall j :: 0 <= j < k ==> !Contains(s, keys[j])
    ensures FirstContained(s, keys) == Some(k)
  {
  }


  /** `s` holds `b` starting at offset `|a|` of `a + b + c`. */
  lemma ContainsMiddle(a: string, b: string, c: string)
    ensures Contains(a + b + c, b)
  {
    assert (a + b + c)[|a|..|a| + |b|] == b;
    ContainsWhenOccurs(a + b + c, b, |a|);
  }

  /** Text contained in a prefix or a suffix is contained in the whole. */
  lemma ContainsAppend(a: string, b: string, p: string)
    ensures Contains(a, p) ==> Contains(a + b, p)
    ensures Contains(b, p) ==> Contains(a + b, p)
  {
    if Contains(a, p) {
      var i :| 0 <= i <= |a| - |p| && OccursAt(a, p, i);
      assert (a + b)[i..i + |p|] == a[i..i + |p|];
      ContainsWhenOccurs(a + b, p, i);
    }
    if Contains(b, p) {
      var i :| 0 <= i <= |b| - |p| && OccursAt(b, p, i);
      assert (a + b)[|a| + i..|a| + i + |p|] == b[i..i + |p|];
      ContainsWhenOccurs(a + b, p, |a| + i);
    }
  }

  // ---------------------------------------------------------------- replace

  /** JavaScript's `s.replace(p, q)` with a string pattern: only the first
      occurrence is replaced (the empty pattern "occurs" at 0). */
  function ReplaceFirst(s: string, p: string, q: string): (r: string)
    ensures !Contains(s, p) ==> r == s
    ensures Contains(s, p) ==> |r| == |s| - |p| + |q|
    ensures Contains(s, p) ==> exists i :: FirstOccurrence(s, p, i) && r == s[..i] + q + s[i + |p|..]
    ensures forall i :: FirstOccurrence(s, p, i) ==> r == s[..i] + q + s[i + |p|..]
  {
    IndexOfContains(s, p);
    match IndexOf(s, p)
    case None => s
    case Some(i) => s[..i] + q + s[i + |p|..]
  }

  /** Python's `s.replace(p, "")`: every non-overlapping occurrence, scanning
      left to right, is deleted.  Deleting the empty pattern changes nothing.
      When `p` occurs at least one copy of it goes, and what remains of a
      blank text is blank. */
  function RemoveAll(s: string, p: string): (r: string)
    ensures |r| <= |s|
    ensures !Contains(s, p) && p != [] ==> r == s
    ensures p != [] && Contains(s, p) ==> |r| <= |s| - |p|
    ensures IsBlank(s) ==> IsBlank(r)
  {
    RemovedBounds(s, p);
    Removed(s, p)
  }

  /** The left-to-right scan behind `RemoveAll`. */
  function Removed(s: string, p: string): string
    decreases |s|
  {
    if p == [] || s == [] then s
    else if StartsWith(s, p) then Removed(s[|p|..], p)
    else [s[0]] + Removed(s[1..], p)
  }

  lemma {:induction false} RemovedBounds(s: string, p: string)
    ensures |Removed(s, p)| <= |s|
    ensures !Contains(s, p) && p != [] ==> Removed(s, p) == s
    ensures p != [] && Contains(s, p) ==> |Removed(s, p)| <= |s| - |p|
    ensures IsBlank(s) ==> IsBlank(Removed(s, p))
    decreases |s|
  {
    if p == [] || s == [] {
    } else if StartsWith(s, p) {
      StartsWithContains(s, p);
      RemovedBounds(s[|p|..], p);
      assert IsBlank(s) ==> IsBlank(s[|p|..]);
    } else {
      RemovedBounds(s[1..], p);
      ContainsTail(s, p);
      ContainsNotAtHead(s, p);
      assert IsBlank(s) ==> IsBlank(s[1..]);
    }
  }

  /** Deletion proceeds occurrence by occurrence: everything before the
      first occurrence is kept, the occurrence goes, and the search resumes
      after it. */
  lemma RemoveAllAtFirst(s: string, p: string, i: int)
    requires p != [] && FirstOccurrence(s, p, i)
    ensures RemoveAll(s, p) == s[..i] + RemoveAll(s[i + |p|..], p)
  {
    RemovedAtFirst(s, p, i);
  }

  lemma {:induction false} RemovedAtFirst(s: string, p: string, i: int)
    requires p != [] && FirstOccurrence(s, p, i)
    ensures Removed(s, p) == s[..i] + Removed(s[i + |p|..], p)
    decreases i
  {
    if i == 0 {
      assert StartsWith(s, p);
      assert s[..0] + Removed(s[|p|..], p) == Removed(s[|p|..], p);
    } else {
      assert !StartsWith(s, p) by { assert !OccursAt(s, p, 0); }
      FirstOccurrenceInTail(s, p, i);
      var t := s[1..];
      RemovedAtFirst(t, p, i - 1);
      ConsStep(Removed(s, p), s[0], Removed(t, p), t[..i - 1], Removed(t[i - 1 + |p|..], p),
               Removed(s[i + |p|..], p), s[..i]);
    }
  }

  lemma ConsStep(whole: string, c: char, rest: string, pre: string, tail: string, after: string, prefix: string)
    requires whole == [c] + rest && rest == pre + tail && tail == after && prefix == [c] + pre
    ensures whole == prefix + after
  {
    ConcatAssoc([c], pre, after);
  }

  /** When `s` does not start with `p`, its first occurrence is one further
      on than the tail's, and the text around it is the tail's. */
  lemma FirstOccurrenceInTail(s: string, p: string, i: int)
    requires FirstOccurrence(s, p, i) && i >= 1
    ensures FirstOccurrence(s[1..], p, i - 1)
    ensures s[..i] == [s[0]] + s[1..][..i - 1] && s[i + |p|..] == s[1..][i - 1 + |p|..]
  {
    assert s[1..][i - 1..i - 1 + |p|] == s[i..i + |p|];
    forall m | 0 <= m < i - 1
      ensures !OccursAt(s[1..], p, m)
    {
      assert !OccursAt(s, p, m + 1);
      if m + |p| <= |s[1..]| {
        assert s[1..][m..m + |p|] == s[m + 1..m + 1 + |p|];
      }
    }
  }

  lemma ConcatAssoc<T>(a: seq<T>, b: seq<T>, c: seq<T>)
    ensures a + b + c == a + (b + c)
  {
  }

  /** An occurrence that is not at the head lies in the tail. */
  lemma ContainsNotAtHead(s: string, p: string)
    requires s != [] && !StartsWith(s, p)
    ensures Contains(s, p) ==> Contains(s[1..], p)
  {
    if Contains(s, p) {
      var k :| 0 <= k <= |s| - |p| && OccursAt(s, p, k);
      assert k != 0;
      assert s[1..][k - 1..k - 1 + |p|] == s[k..k + |p|];
      ContainsWhenOccurs(s[1..], p, k - 1);
    }
  }

  /** What the tail of a text contains, the text contains. */
  lemma ContainsTail(s: string, p: string)
    requires s != []
    ensures Contains(s[1..], p) ==> Contains(s, p)
  {
    if Contains(s[1..], p) {
      var k :| 0 <= k <= |s[1..]| - |p| && OccursAt(s[1..], p, k);
      assert s[1 + k..1 + k + |p|] == s[1..][k..k + |p|];
      ContainsWhenOccurs(s, p, 1 + k);
    }
  }

  // ---------------------------------------------------------------- split / join

  /** The position of the first `c` in `s`. */
  function FirstIndex(s: string, c: char): (i: nat)
    requires c in s
    ensures i < |s| && s[i] == c && c !in s[..i]
  {
    if s[0] == c then 0 else 1 + FirstIndex(s[1..], c)
  }

  /** `s.split(c)` in both languages with a one-character separator: the
      pieces between separators, always at least one (possibly empty) piece. */
  function Split(s: string, c: char): (r: seq<string>)
    ensures |r| >= 1
    ensures forall k :: 0 <= k < |r| ==> c !in r[k]
    ensures c !in s <==> r == [s]
    decreases |s|
  {
    if c !in s then [s]
    else
      var i := FirstIndex(s, c);
      [s[..i]] + Split(s[i + 1..], c)
  }

  /** `parts.join(sep)` / `sep.join(parts)`. */
  function Join(parts: seq<string>, sep: string): (r: string)
    ensures parts == [] ==> r == []
    ensures |parts| == 1 ==> r == parts[0]
  {
    if |parts| == 0 then []
    else if |parts| == 1 then parts[0]
    else parts[0] + sep + Join(parts[1..], sep)
  }

  /** The text before the first line break, or all of it when there is none:
      the longest prefix without a break. */
  function FirstLine(s: string): (l: string)
    ensures |l| <= |s| && '\n' !in l && l == s[..|l|]
    ensures |l| == |s| || s[|l|] == '\n'
  {
    Split(s, '\n')[0]
  }

  /** The first piece of a split is a prefix of the text. */
  lemma SplitFirstPrefix(s: string, c: char)
    ensures StartsWith(s, Split(s, c)[0])
  {
  }

  /** Splitting on `c` and joining on `c` restores the original string. */
  lemma {:induction false} JoinSplit(s: string, c: char)
    ensures Join(Split(s, c), [c]) == s
    decreases |s|
  {
    if c in s {
      var i := FirstIndex(s, c);
      JoinSplit(s[i + 1..], c);
      assert s == s[..i] + [c] + s[i + 1..];
    }
  }

  /** Joining separator-free pieces on `c` and splitting on `c` gives the
      pieces back. */
  lemma {:induction false} SplitJoin(parts: seq<string>, c: char)
    requires |parts| >= 1
    requires forall k :: 0 <= k < |parts| ==> c !in parts[k]
    ensures Split(Join(parts, [c]), c) == parts
    decreases |parts|
  {
    if |parts| > 1 {
      var rest := Join(parts[1..], [c]);
      assert Join(parts, [c]) == parts[0] + [c] + rest;
      SplitAtFirst(parts[0], rest, c);
      SplitJoin(parts[1..], c);
      assert parts == [parts[0]] + parts[1..];
    }
  }

  /** A separator-free head, the separator, and anything after it split into
      the head and the split of the rest. */
  lemma SplitAtFirst(head: string, rest: string, c: char)
    requires c !in head
    ensures Split(head + [c] + rest, c) == [head] + Split(rest, c)
  {
    var s := head + [c] + rest;
    var i := |head|;
    assert s[i] == c && s[..i] == head && s[i + 1..] == rest;
    FirstIndexAt(s, c, i);
  }

  /** The first `c` is the one with no `c` before it. */
  lemma FirstIndexAt(s: string, c: char, i: nat)
    requires i < |s| && s[i] == c && c !in s[..i]
    ensures FirstIndex(s, c) == i
  {
  }

  /** The text after the first `c`, or the empty string when there is none. */
  function AfterFirst(s: string, c: char): string {
    if c in s then s[FirstIndex(s, c) + 1..] else []
  }

  /** Splitting on `c`, dropping the first piece and joining the rest with `c`
      gives exactly the text after the first `c`: JavaScript's
      `const [head, ...rest] = s.split(' '); rest.join(' ')` loses nothing. */
  lemma SplitTailJoin(s: string, c: char)
    ensures Join(Split(s, c)[1..], [c]) == AfterFirst(s, c)
  {
    if c in s {
      var i := FirstIndex(s, c);
      assert Split(s, c)[1..] == Split(s[i + 1..], c);
      JoinSplit(s[i + 1..], c);
    }
  }

  /** A suffix of `b` is a suffix of anything ending in `b`. */
  lemma EndsWithAppend(a: string, b: string, p: string)
    requires EndsWith(b, p)
    ensures EndsWith(a + b, p)
  {
    assert (a + b)[|a + b| - |p|..] == b[|b| - |p|..];
  }

  /** A join of several pieces starts with the first piece. */
  lemma JoinFirst(parts: seq<string>, sep: string)
    requires |parts| >= 1
    ensures StartsWith(Join(parts, sep), parts[0])
  {
    if |parts| > 1 {
      assert (parts[0] + sep + Join(parts[1..], sep))[..|parts[0]|] == parts[0];
    }
  }

  /** A join of at least two pieces ends with the separator and the last
      piece. */
  lemma {:induction false} JoinLast(parts: seq<string>, sep: string)
    requires |parts| >= 2
    ensures EndsWith(Join(parts, sep), sep + parts[|parts| - 1])
    decreases |parts|
  {
    var rest := Join(parts[1..], sep);
    assert Join(parts, sep) == parts[0] + sep + rest;
    if |parts| == 2 {
      assert rest == parts[1];
      assert parts[0] + sep + rest == parts[0] + (sep + parts[1]);
      EndsWithAppend(parts[0], sep + parts[1], sep + parts[1]);
    } else {
      JoinLast(parts[1..], sep);
      assert parts[1..][|parts[1..]| - 1] == parts[|parts| - 1];
      EndsWithAppend(parts[0] + sep, rest, sep + parts[|parts| - 1]);
    }
  }
}

=== FILE: wrappers.dfy ===
/** Failure-compatible result types shared by every module of the model. */
module Wrappers {

  /** A value that may be absent: JavaScript's undefined / Python's None. */
  datatype Option<+T> = None | Some(value: T) {
    function GetOr(default: T): T {
      match this
      case Some(v) => v
      case None => default
    }
  }

  /** The outcome of a call into code outside the model (a model backend, a REST
      lookup): either it returned a value or it raised, carrying the message that
      `str(e)` / `error.message` would show. */
  datatype Attempt<+T> = Done(value: T) | Threw(message: string)
}
